=== FILE: README.md ===
# DevRules installers and table templates in Dafny

DevRules ships rule bundles ("rulesets") for several stacks and three Node
scripts that place them in a target repository:

- `tools/apply-rules.mjs` detects the ruleset, copies its files, appends its
  `.gitignore` lines without duplicates, copies templates and writes a merged
  `.vscode/settings.json`.
- `tools/install-to-repo.mjs` runs the applier as a child process, copies the
  `Makefile` and `justfile` helpers and patches the `scripts` of
  `package.json`.
- `tools/bootstrap.mjs` picks the needed files out of the GitHub tree
  listing, normalises each downloaded text and forwards its arguments to the
  installer.

Each ruleset also carries a small table-metadata serialiser. The model covers
the `Table.ts`/`Table.js`, `models.py` and `Models.cs` variants.

The model is pure and functional:

- The file system is a `map<Path, string>`; a path is a sequence of
  components, and directories are implied by the files below them.
- A `Run` carries the file system, a log of reported actions and a sticky
  fault. A fault stands for the process exiting or an exception escaping.
- JSON is a datatype with integer numbers. Its text form is a `Codec`
  parameter (a parser and a renderer), because `JSON.parse` and
  `JSON.stringify` are not part of this model.
- Ruleset detection looks at a directory tree given as a value (`Detect.Entry`).
- The installer's child process is the applier itself, run on the argument
  vector the installer builds.

Modules:

| file | module | models |
|---|---|---|
| wrappers.dfy | Wrappers | `Option`, `Result` |
| strings.dfy | Strings | joining, prefixes, JavaScript whitespace, integer printing |
| json.dfy | Json | JSON values, truthiness, object spread |
| merge.dfy | Merge, MergeExamples | `mergeDeep` and the settings merge |
| lines.dfy | Lines | splitting on line feeds, trailing line-end trimming |
| appender.dfy | Appender, AppenderExamples | the appender of lines not yet in the destination (unique against the destination only; a line the source repeats is appended each time) |
| detect.dfy | Detect | the bounded extension walk and ruleset detection |
| args.dfy | Args | the three command-line parsers and argument forwarding |
| files.dfy | Files | the file system and its frame predicates |
| placement.dfy | Placement | the applier's copy, append, JSON writes and `main` |
| patch.dfy | PackageScripts | the `package.json` scripts patch |
| shell.dfy | Shell | how a shell splits an unquoted command line into words |
| install.dfy | Install | the installer's `main` and the npm scripts it writes |
| bootstrap.dfy | Bootstrap | file selection and text normalisation of the bootstrapper |
| tables.dfy | CreateTable, JsTable, PyModels, CsModels, TableAgreement | the table serialisers |

## Model

| member | source | states |
|---|---|---|
| Merge.MergeDeepSpec | tools/apply-rules.mjs:39-49 | The result's keys are the union of both inputs' keys. A key only in the base keeps its value. An overlay value wins unless both sides hold plain objects; then the two objects are merged one level: the keys are unioned and the overlay's inner values win. |
| Merge.MergeDeepLoop | tools/apply-rules.mjs:39-49 | Visiting the overlay's keys one at a time, in any order, gives the same object as the merge. |
| Merge.MergeDeepOverlayIdempotent | tools/apply-rules.mjs:39-49 | Merging the same overlay a second time changes nothing. |
| Merge.MergeDeepDisjoint | tools/apply-rules.mjs:39-49 | When no key appears on both sides, the merge is just the union of the two inputs' entries. |
| Merge.CombineTwice | tools/apply-rules.mjs:42-46 | Combining a value with the same overlay value twice gives what combining it once gave. |
| Merge.MergeDeepNotAssociative | tools/apply-rules.mjs:39-49 | There are three objects for which the grouping of two merges changes the result, because the merge goes only one level deep. |
| Merge.MergeSettings | tools/apply-rules.mjs:251-263 | The merge fails exactly when either document is `null`. Otherwise the keys are those of the generic merge. `editor.codeActionsOnSave`, when either side holds a truthy value there, and every `[language]` key of the override are merged once more; every other key keeps the generic merge's value. |
| Merge.RemergeAgreesWhenInnerValuesFlat | tools/apply-rules.mjs:256-262 | When no inner key holds an object on both sides, the second merge of a block gives what the generic merge gave. |
| MergeExamples.CodeActionsExample | tools/apply-rules.mjs:256-257 | A base code-action is kept next to the override's new one after the settings merge. |
| Lines.SplitJoinLF | tools/apply-rules.mjs:126 | Splitting on line feeds and joining with line feeds is the identity in both directions, for pieces without a line feed. |
| Lines.NormLinesOfPieces | tools/apply-rules.mjs:125-127 | Each normalised line is the piece between two line feeds with its trailing run of line ends removed. |
| Lines.Normalize | tools/apply-rules.mjs:125 | The result is a prefix of the input that does not end in a line end; everything removed is a line end. |
| Appender.CollectSpec | tools/apply-rules.mjs:129-142 | Every appended line comes from the source, and every non-blank one is new to the destination (a blank line is appended even when the destination has one). Every new non-blank source line is appended, as many times as the source holds it, since lines are unique only against the destination. No two blank lines are appended in a row, and a leading blank is appended only when the destination does not already end in one. |
| Appender.CollectDrawsFrom | tools/apply-rules.mjs:129-142 | Every selected line is a source line, and no more lines are selected than the source has. |
| Appender.CollectSelectsNew | tools/apply-rules.mjs:139-141 | A selected non-blank line is never a destination line, and every non-blank source line the destination lacks is selected. |
| Appender.CollectCollapsesBlanks | tools/apply-rules.mjs:131-138 | No two selected blank lines are adjacent, no blank leads after a destination that already ends blank, and an all-blank selection has at most one line. |
| Appender.CollectCounts | tools/apply-rules.mjs:139-141 | A non-blank line new to the destination is selected exactly as many times as the source holds it. |
| Appender.CollectGrows | tools/apply-rules.mjs:129-142 | The loop only adds: what a prefix of the source selects is a prefix of what the whole source selects. |
| Appender.CollectKeepsBlank | tools/apply-rules.mjs:131-138 | Right after a blank source line the selection ends in a blank line, unless nothing is selected yet and the destination already ends blank. |
| Appender.BlankAppended | tools/apply-rules.mjs:131-138 | So every blank source line leaves a blank line in the final selection, at the place the loop had reached, except a leading one after a destination that ends blank. |
| Appender.CollectIsSubseq | tools/apply-rules.mjs:129-142 | The appended lines are a subsequence of the source's lines, in source order. |
| Appender.AppendUnique | tools/apply-rules.mjs:144-158 | The file is left alone exactly when nothing is new. Under dry run, only the lines that would be appended are reported. Otherwise the separator and the lines are appended. |
| Appender.AppendedLines | tools/apply-rules.mjs:155-158 | After the append, the file's lines are the old lines followed by the appended ones. |
| Appender.DestSetAfterAppend | tools/apply-rules.mjs:155-158 | The set of lines after the append is the old set plus the appended lines. |
| Appender.RerunAddsAtMostOneBlank | tools/apply-rules.mjs:120-159 | A second run on the appended file adds no non-blank line and at most one blank line. |
| AppenderExamples.CollectRepeats | tools/apply-rules.mjs:132-134 | A non-blank line the source holds twice and the destination lacks is appended twice. |
| AppenderExamples.SecondRunAddsBlank | tools/apply-rules.mjs:136-139 | A source `a`, blank, `b` appended to an empty file and then appended again adds one blank line the second time. |
| Detect.WalkHasExtIff | tools/apply-rules.mjs:81-95 | The walk answers true exactly when some file with the extension lies at most the depth limit below the root, reached without entering or inspecting an entry named `node_modules`, `.git` or `.venv`. |
| Detect.WalkIgnoresSkipped | tools/apply-rules.mjs:87 | A skipped directory never changes the walk's answer. |
| Detect.DetectRuleset | tools/apply-rules.mjs:51-75 | The detected ruleset is one of the six names, and each name is returned exactly when its marker is present and no earlier marker is. The checks run in the order go, dotnet, swift, node-ts or node-js, python; none detected means no marker. |
| Detect.SwiftSourceBeatsNode | tools/apply-rules.mjs:60-64 | A `.swift` file within depth two wins over a `package.json` when there is no go or dotnet marker. |
| Detect.NodeModulesIgnored | tools/apply-rules.mjs:51-95 | Adding a `node_modules` directory never changes the detected ruleset. |
| Args.UnlexLex | tools/apply-rules.mjs:17-28 | Grouping the arguments into flags, flag values and words loses nothing: ungrouping gives the arguments back. |
| Args.LastValueIsLast | tools/apply-rules.mjs:20-21 | The value a flag ends with is the one after its last occurrence. |
| Args.LastValueOfLast | tools/apply-rules.mjs:20-21 | Conversely, the value after the last occurrence of a flag is the value it ends with. |
| Args.FoldApplyValues | tools/apply-rules.mjs:17-28 | The applier's `repo` and `rules` are the values of the last `--repo` and `--rules`. |
| Args.FoldApplyWords | tools/apply-rules.mjs:22-25 | `force`, `dryRun` and `help` are set exactly when their switch appears. |
| Args.ParseInstallShared | tools/install-to-repo.mjs:26-50 | The installer reads the shared flags exactly as the applier does. |
| Args.FoldInstallSwitches | tools/install-to-repo.mjs:44-46 | Each helper switch stays on exactly when its `--no-` flag is absent. |
| Args.ParseInstallLoop | tools/install-to-repo.mjs:38-48 | The index-advancing loop computes the same arguments as the parse. |
| Args.InstallLastRepoWins | tools/install-to-repo.mjs:40 | A `--repo` appended after complete arguments decides the repository. |
| Args.InstallIgnoresUnknown | tools/install-to-repo.mjs:38-48 | An unrecognised word changes nothing. |
| Args.InstallValueVerbatim | tools/install-to-repo.mjs:40-41 | A flag's value is taken as-is, even when it looks like another flag. |
| Args.ForwardArgs | tools/install-to-repo.mjs:148-151 | The child's arguments start with the applier script, `--repo` and the repository, and carry no switch other than `--force` and `--dry-run`. |
| Args.ForwardRoundTrip | tools/install-to-repo.mjs:148-154 | The applier parses the forwarded arguments back into the same repository, rules (when non-empty), force and dry-run, with help off. |
| Args.IndexOf | tools/bootstrap.mjs:28 | The index of the first occurrence, and none exactly when absent. |
| Args.BootstrapArgs | tools/bootstrap.mjs:26-36 | The forwarded arguments are passed on unchanged when they hold a `--repo`; otherwise `--repo` and the working directory are appended to them. |
| Args.ForwardedAfterSeparator | tools/bootstrap.mjs:28-29 | With a `--`, exactly what follows the first one is forwarded. |
| Args.BootstrapRepoDefault | tools/bootstrap.mjs:32-33 | Without a `--repo` of their own, the installer sees the working directory as the repository. |
| Files.WriteKeepsWellFormed | tools/apply-rules.mjs:115-116 | A write that succeeds keeps the file system free of files under files. |
| Placement.CopyFile | tools/apply-rules.mjs:106-118 | An existing destination is skipped without force. A dry run only reports. Otherwise the destination gets the source's text; no other path changes. |
| Placement.AppendUniqueFile | tools/apply-rules.mjs:120-159 | Only the destination may change and never under dry run. Its old text stays a prefix, and any new text is the appender's block. |
| Placement.ReadJson | tools/apply-rules.mjs:251-254 | The read succeeds exactly when the file exists and parses, and it yields the parsed value. |
| Placement.WriteJson | tools/apply-rules.mjs:161-173 | Same skip and dry-run rules as the copy; a write stores the rendered value plus a line feed. |
| Placement.GitIgnore | tools/apply-rules.mjs:202-211 | Only `.gitignore` may change. Without force its old text is kept as a prefix. |
| Placement.CopyTemplatesOnlyListed | tools/apply-rules.mjs:216-249 | Only listed template destinations change. |
| Placement.CopyTemplatesForce | tools/apply-rules.mjs:216-249 | With force and no dry run, and a listing that names exactly the files below the templates directory, every file below it ends up at the same relative path in the destination with the same text. |
| Placement.ForceCopiesTemplates | tools/apply-rules.mjs:198-249 | After a forced run, every file below the ruleset's `templates/` is at the same relative path below the repository's `templates/`, with the same text. |
| Placement.Templates | tools/apply-rules.mjs:216-249 | Without force no existing file changes, and nothing outside the templates destination changes. |
| Placement.Settings | tools/apply-rules.mjs:251-268 | Only the settings file may change, never under dry run, and without force no existing file changes. |
| Placement.StepsStayInRepo | tools/apply-rules.mjs:198-268 | Every step of the applier, and so the whole run, leaves everything outside the repository as it was, for a ruleset name that is one path segment (a `--rules` without `/` or `..`). |
| Placement.StepsKeep | tools/apply-rules.mjs:198-268 | Without force, the steps together only add files and grow `.gitignore`. |
| Placement.ForceWritesBundleSettings | tools/apply-rules.mjs:251-268 | With force, the repository's settings file is the bundle's merged settings, rendered, even when the file already existed. This holds also for a bundle inside the repository, provided its two settings files are not below the templates destination `templates/devrules/<rules>`. |
| Placement.SourcesUntouched | tools/apply-rules.mjs:198-249 | The steps before the settings merge write only `PROJECT_RULES.md`, `copilot-instructions.md`, `.gitignore`, `.editorconfig` and files below the templates destination, so the bundle's two settings files, when not below that destination, are read as they were before the run. |
| Placement.ForceCopiesProjectRules | tools/apply-rules.mjs:198 | With force, `PROJECT_RULES.md` in the repository is the ruleset's own text after a run. |
| Placement.ResolveRules | tools/apply-rules.mjs:182-187 | An explicit `--rules` wins; otherwise detection decides, and none found gives the empty name. |
| Placement.ApplyRules | tools/apply-rules.mjs:175-271 | Help does nothing. Dry run changes no file. Nothing outside the repository changes, for a ruleset name that is one path segment. Without force no file is overwritten and `.gitignore` only grows. A `--repo` without a value, or no ruleset given or detected, stops with a fault before any write; a ruleset directory that does not exist stops with the fault naming it. A repository directory that does not exist is not a fault, because the steps create it. |
| PackageScripts.Decide | tools/install-to-repo.mjs:105-118 | A missing or falsy script is added, and a differing one is replaced only with force; otherwise the script is kept. |
| PackageScripts.PatchObjectSpec | tools/install-to-repo.mjs:87-122 | The patch touches only the three DevRules scripts. Each keeps a truthy value of the user's unless force is on and the value differs; otherwise it becomes the command. Other fields and scripts are untouched. |
| PackageScripts.PatchRerunNoChange | tools/install-to-repo.mjs:105-121 | Patching an already patched package reports no change. |
| PackageScripts.NoForceKeepsUserScripts | tools/install-to-repo.mjs:109-110 | Without force a truthy script of the user's is never replaced. |
| PackageScripts.ArrayScriptsAlwaysRewritten | tools/install-to-repo.mjs:97-118 | A `scripts` array is reported as changed on every run, yet keeps no script by name. |
| PackageScripts.PatchPackage | tools/install-to-repo.mjs:89-118 | The patch applies exactly to an object or an array; anything else is skipped as invalid. |
| Install.PatchPackageJson | tools/install-to-repo.mjs:87-122 | Only `package.json` may change, never under dry run. A change means the file parsed, the patch changed it, and it now holds the rendered patched package. |
| Install.PatchWrites | tools/install-to-repo.mjs:120 | On a well-formed file system a changed package is written. |
| Install.PatchRerunWritesNothing | tools/install-to-repo.mjs:87-122 | When the codec reads back what it renders, a second installer patch writes nothing. |
| Install.ArrayScriptsRewriteEveryRun | tools/install-to-repo.mjs:97-121 | A package whose `scripts` is an array is written again on every run. |
| Install.ChildArgs | tools/install-to-repo.mjs:148-154 | The child applier sees the installer's repository, rules (when non-empty), force and dry run. |
| Install.Helpers | tools/install-to-repo.mjs:159-166 | The helper copies stay in the repository, never write under dry run and never overwrite without force. |
| Install.InstallToRepo | tools/install-to-repo.mjs:124-175 | Help does nothing. A `--repo` without a value, or a missing applier script, stops with a fault and no write. A child applier that fails stops the installer with exactly the child's result. Dry run changes no file, and nothing outside the repository changes, for a ruleset name that is one path segment. |
| Install.InstallWithoutForceKeeps | tools/install-to-repo.mjs:147-172 | Without force, every file except `package.json` is kept and `.gitignore` only grows. |
| Install.NpmScriptsParse | tools/install-to-repo.mjs:99-103 | As an argument vector, each patched npm script asks the applier for repository `.` with the matching force and dry run. |
| Install.NpmCommandsRun | tools/install-to-repo.mjs:99-103 | As a command line split by the shell, each of the three scripts asks the applier for repository `.` with its own force and dry run, provided the bundle path holds no space, tab or line feed. |
| Install.SpacedBundleSplits | tools/install-to-repo.mjs:99-103 | A bundle path with a space splits into two words, so node is handed a script path other than the bundle's. |
| Shell.FieldsJoin | tools/install-to-repo.mjs:99-103 | Words without separators, joined by single spaces, are split by the shell back into the same words. |
| Bootstrap.IsNeededIff | tools/bootstrap.mjs:83-94 | A path is needed exactly when it is one of the two scripts or lies under `shared/`, `templates/` or `rulesets/`. |
| Bootstrap.NeededComplete | tools/bootstrap.mjs:113-116 | A path is selected exactly when some entry is a blob whose path is a needed string. |
| Bootstrap.SelectFiles | tools/bootstrap.mjs:109-120 | A listing without a `tree` array is rejected as unexpected. With one, a `null` entry fails, and only then; otherwise the selection succeeds exactly when some path is selected. A selection that succeeds is non-empty, holds only needed paths and is the filtered listing. |
| Bootstrap.SelectSucceedsIff | tools/bootstrap.mjs:109-120 | The selection succeeds exactly when no entry is `null` and some entry is a blob whose path is needed, whatever other keys the response has. |
| Bootstrap.SelectsNeededBlob | tools/bootstrap.mjs:113-120 | A listing with a needed blob and no `null` entry selects that blob's path. |
| Bootstrap.StripBom | tools/bootstrap.mjs:65-68 | A leading byte-order mark is removed and nothing else changes. |
| Bootstrap.ShebangOffsetSpec | tools/bootstrap.mjs:70-73 | A shebang after leading whitespace is moved to the start; any other text is unchanged. |
| Bootstrap.ShebangOffsetIdempotent | tools/bootstrap.mjs:70-73 | Normalising the shebang twice is the same as once. |
| Bootstrap.StrayPrefixNoOp | tools/bootstrap.mjs:75-78 | The stray-prefix step, as written, never changes the text. |
| Bootstrap.StrayPrefixFixedSpec | tools/bootstrap.mjs:74-78 | The corrected step removes a backslash line in front of a shebang and changes nothing else. |
| Bootstrap.Normalize | tools/bootstrap.mjs:63-78 | The written text is the shebang-offset fix applied to the text without its byte-order mark. |
| Bootstrap.StrayBackslashSurvives | tools/bootstrap.mjs:74-78 | A backslash line before a shebang survives the code as written and is removed by the corrected step. |
| Bootstrap.BomBeforeShebang | tools/bootstrap.mjs:65-73 | A byte-order mark in front of a shebang is removed. |
| CreateTable.ScriptLayout | rulesets/node-js/templates/Table.js:24-27 | For at least one definition, the script's lines are the header, then each definition indented by two spaces with a comma on all but the last, then `);`. |
| CreateTable.EmptyScript | rulesets/node-ts/templates/Table.ts:29-32 | With no columns the script still has an indented empty body line. |
| JsTable.ColumnDefaults | rulesets/node-js/templates/Table.js:3-8 | A missing `nullable` is false and a missing default is `null`. A given `nullable` counts by truthiness, so the string "NO" makes a nullable column. |
| JsTable.DefinitionShape | rulesets/node-js/templates/Table.js:9-11 | A definition is name, type, exactly one of NULL and NOT NULL by nullability, and a DEFAULT clause exactly when the default is truthy. |
| JsTable.NewTable | rulesets/node-ts/templates/Table.ts:21-24 | A missing column list means no columns; otherwise each given column is constructed in order. |
| JsTable.FromRowsColumns | rulesets/node-ts/templates/Table.ts:25-28 | There is one column per row, in order, read from `column_name`, `data_type`, `is_nullable` and `column_default`. |
| JsTable.FromRowsName | rulesets/node-js/templates/Table.js:22 | The table takes the first row's `table_name`, or 'unknown' when there are no rows or it is missing or null. |
| JsTable.FromRowsScriptLayout | rulesets/node-ts/templates/Table.ts:25-32 | The script of a table built from rows lists one definition line per row, in row order. |
| PyModels.DefinitionDefault | rulesets/python-fastapi/templates/models.py:21-23 | The DEFAULT clause is present exactly when the default is not `None`, so 0, "" and False are kept. |
| PyModels.FromRowsSpec | rulesets/python-fastapi/templates/models.py:16-19 | There is one column per row, in order, whose name, type, nullability and default are that row's `column_name`, `data_type`, `is_nullable` and `column_default`. With no rows the name is 'unknown'; otherwise it is the first row's `table_name`, or `None` when that row has none. |
| CsModels.DefinitionDefault | rulesets/dotnet/templates/Models.cs:12 | The DEFAULT clause is omitted exactly when the default is null or empty. |
| CsModels.ToCreateScript | rulesets/dotnet/templates/Models.cs:20-24 | A null column list fails; a list of columns always gives a script. |
| TableAgreement.PlainColumnsAgree | rulesets/dotnet/templates/Models.cs:12 | A column with no default, or a non-empty string default, gets the same definition from all three families. |
| TableAgreement.FalsyDefaultsDiffer | rulesets/python-fastapi/templates/models.py:22 | The families differ on falsy defaults. JavaScript drops 0, "" and false; Python keeps all three; C# drops "". |
| TableAgreement.PlainScriptsAgree | rulesets/python-fastapi/templates/models.py:21-23 | Tables of such columns get the same script from all three families. |

## Left out

- The network, the temporary directory and the download loop of `tools/bootstrap.mjs`, and the spawning of the installer: bootstrap is modelled as the file selection, the text normalisation and the forwarded arguments.
- The child process's exit status: the model composes the applier directly. A fault of the applier stops the installer, which matches a non-zero exit.
- Console output: the text of messages is not modelled. Only the kind of action and the path are logged.
- `path.resolve` and `path.join`: the repository is given both as a path and as its text. Paths are sequences of components, so `..` and absolute forms are not modelled.
- File-system errors other than writing below an existing file, permissions, empty directories and UTF-8 encoding.
- The text form of JSON: parsing and `JSON.stringify` with two-space indent are a codec parameter. Object key order is not modelled because objects are maps.
- Floating-point numbers and JavaScript's exponent form for large numbers: numbers are integers.
- pydantic validation and coercion: `PyModels.FromRows` returns the raw keyword arguments; pydantic would refuse the `None` that a missing `is_nullable` passes.
- `new Table({ columns: null })` in the JavaScript templates throws; the model treats a missing column list only as `undefined`.
- CsModels.ToCreateScript: a null element of `Columns` (Models.cs:22) throws as well, and so does a null row in `Table.fromRows` of the JavaScript templates (Table.js:17 and Table.js:21); columns and rows are never null in the model, so those failures are not modelled.
- Placement.ApplyRules: the template listing and the detection tree are parameters, not derived from the file system. `Placement.ListingOf` ties the listing to the files below the templates directory in `Placement.CopyTemplatesForce` and `Placement.ForceCopiesTemplates`; nothing ties the tree to the file system, so detection is only as faithful as the tree passed in.
- Placement.StepsStayInRepo: `--rules` is joined into both the ruleset directory and the templates destination `templates/devrules/<rules>` (tools/apply-rules.mjs:191 and 219) without a check, so a value such as `../../..` whose `templates` directory exists copies files outside the repository. The model keeps the ruleset name as one path segment, so "nothing outside the repository changes" is promised only for a `--rules` without `/` or `..`; `Placement.ApplyRules` and `Install.InstallToRepo` inherit that limit.
- Install.NpmCommandsRun: npm hands each script to a shell, and the bundle path is interpolated without quotes. The shell's splitting is modelled at spaces, tabs and line feeds only; quotes, `$`, globs and other metacharacters in the bundle path are not. A path with a space breaks the scripts (`Install.SpacedBundleSplits`).
- Merge.MergeDeep: a `__proto__` key is modelled as an ordinary key. In JavaScript, `out[k] = …` with `k` equal to `__proto__` on a fresh object literal calls the prototype setter instead of storing the key, so `JSON.stringify` leaves it out, and an object value's fields become visible through the prototype. For base `{}` and override `{"__proto__": {"a": 1}}` the script writes `{}`, while `Merge.MergeDeepSpec` promises the key in the result. Settings documents are assumed not to use that key.
- The destination's existing `.vscode/settings.json` is never merged in: the applier writes the bundle's merged settings. The model keeps that behaviour rather than inventing a merge.
- A `scripts` value that is an array is modelled as written: it is kept, and the patch reports a change on every run (`Install.ArrayScriptsRewriteEveryRun`). No corrected version is modelled, because the intended behaviour is unclear.
- The TypeScript types of `Table.ts` are not modelled. Its behaviour equals `Table.js`, so `JsTable` stands for both.
- Unreadable directories: `walk` and `safeReaddir` treat them as empty, and the model represents them as directories with no entries.

## Findings

| source | as written | input that shows it | evidently intended | confidence | as-written member | corrected member |
|---|---|---|---|---|---|---|
| tools/bootstrap.mjs:77 | The regular expression `/^\\\\\r?\n/` matches two backslashes, but the guard on line 75 checks for a single backslash. The removal is therefore a no-op. | A downloaded file starting with a backslash, a line feed and `#!/usr/bin/env node` | Remove the single backslash line in front of the shebang | not executed | Bootstrap.StrayPrefixNoOp, Bootstrap.StrayBackslashSurvives | Bootstrap.StrayPrefixFixedSpec, Bootstrap.NormalizeFixed |

=== FILE: appender.dfy ===
/** `appendUniqueFile` (tools/apply-rules.mjs): appends to a destination text
    the lines of a source text it does not already contain, collapsing runs
    of blank lines. */
module Appender {
  import opened Strings
  import opened Lines

  /** The normalised destination lines, as the set duplicates are looked up in. */
  function DestSet(destText: string): set<string> {
    set i | 0 <= i < |NormLines(destText)| :: NormLines(destText)[i]
  }

  /** The destination already ends in a blank line, or holds only whitespace. */
  predicate DestEndsBlank(destText: string) {
    EndsWith(destText, "\n\n") || IsBlank(destText)
  }

  /** One step of the selection loop: what `toAppend` becomes after `line`. */
  function Push(acc: seq<string>, line: string, destSet: set<string>, destEndsBlank: bool): seq<string> {
    if IsBlank(line) then
      if |acc| == 0 then (if destEndsBlank then acc else acc + [line])
      else if !IsBlank(acc[|acc| - 1]) then acc + [line]
      else acc
    else if line !in destSet then acc + [line]
    else acc
  }

  /** `toAppend` after the loop has visited every line of `lines`. */
  function Collect(lines: seq<string>, destSet: set<string>, destEndsBlank: bool): seq<string>
    decreases |lines|
  {
    if |lines| == 0 then []
    else Push(Collect(lines[..|lines| - 1], destSet, destEndsBlank), lines[|lines| - 1], destSet, destEndsBlank)
  }

  /** Every appended line comes from the source; a non-blank one is new to
      the destination, and every new non-blank source line is appended as
      often as the source holds it. Blank lines never follow each other,
      and none leads after a destination that already ends blank. */
  lemma CollectSpec(lines: seq<string>, destSet: set<string>, destEndsBlank: bool)
    ensures var r := Collect(lines, destSet, destEndsBlank);
      && |r| <= |lines|
      && (forall i :: 0 <= i < |r| ==> r[i] in lines)
      && (forall i :: 0 <= i < |r| && !IsBlank(r[i]) ==> r[i] !in destSet)
      && (forall j :: 0 <= j < |lines| && !IsBlank(lines[j]) && lines[j] !in destSet ==> lines[j] in r)
      && (forall i :: 0 <= i < |r| - 1 ==> !(IsBlank(r[i]) && IsBlank(r[i + 1])))
      && (|r| > 0 && IsBlank(r[0]) ==> !destEndsBlank)
      && ((forall i :: 0 <= i < |r| ==> IsBlank(r[i])) ==> |r| <= (if destEndsBlank then 0 else 1))
      && (forall l :: !IsBlank(l) && l !in destSet ==> multiset(r)[l] == multiset(lines)[l])
  {
    CollectDrawsFrom(lines, destSet, destEndsBlank);
    CollectSelectsNew(lines, destSet, destEndsBlank);
    CollectCollapsesBlanks(lines, destSet, destEndsBlank);
    CollectCounts(lines, destSet, destEndsBlank);
  }

  /** Every selected line is a source line, and there are no more of them. */
  lemma {:induction false} CollectDrawsFrom(lines: seq<string>, destSet: set<string>, destEndsBlank: bool)
    ensures var r := Collect(lines, destSet, destEndsBlank);
      |r| <= |lines| && forall i :: 0 <= i < |r| ==> r[i] in lines
    decreases |lines|
  {
    if |lines| > 0 {
      var init := lines[..|lines| - 1];
      var last := lines[|lines| - 1];
      var acc := Collect(init, destSet, destEndsBlank);
      CollectDrawsFrom(init, destSet, destEndsBlank);
      assert lines == init + [last];
      PushDrawsFrom(acc, init, last, destSet, destEndsBlank);
    }
  }

  /** Selected non-blank lines are new to the destination, and every new
      non-blank source line is selected. */
  lemma {:induction false} CollectSelectsNew(lines: seq<string>, destSet: set<string>, destEndsBlank: bool)
    ensures forall i :: 0 <= i < |Collect(lines, destSet, destEndsBlank)| && !IsBlank(Collect(lines, destSet, destEndsBlank)[i])
              ==> Collect(lines, destSet, destEndsBlank)[i] !in destSet
    ensures forall j :: 0 <= j < |lines| && !IsBlank(lines[j]) && lines[j] !in destSet
              ==> lines[j] in Collect(lines, destSet, destEndsBlank)
    decreases |lines|
  {
    if |lines| > 0 {
      var init := lines[..|lines| - 1];
      var last := lines[|lines| - 1];
      var acc := Collect(init, destSet, destEndsBlank);
      CollectSelectsNew(init, destSet, destEndsBlank);
      assert lines == init + [last];
      PushSelectsNew(acc, init, last, destSet, destEndsBlank);
    }
  }

  /** No two selected blank lines are adjacent, and none leads after a
      destination that already ends blank. */
  lemma {:induction false} CollectCollapsesBlanks(lines: seq<string>, destSet: set<string>, destEndsBlank: bool)
    ensures var r := Collect(lines, destSet, destEndsBlank);
      && (forall i :: 0 <= i < |r| - 1 ==> !(IsBlank(r[i]) && IsBlank(r[i + 1])))
      && (|r| > 0 && IsBlank(r[0]) ==> !destEndsBlank)
      && ((forall i :: 0 <= i < |r| ==> IsBlank(r[i])) ==> |r| <= (if destEndsBlank then 0 else 1))
    decreases |lines|
  {
    if |lines| > 0 {
      var init := lines[..|lines| - 1];
      var last := lines[|lines| - 1];
      var acc := Collect(init, destSet, destEndsBlank);
      CollectCollapsesBlanks(init, destSet, destEndsBlank);
      PushCollapsesBlanks(acc, last, destSet, destEndsBlank);
    }
  }

  /** A new non-blank line is selected as often as the source holds it. */
  lemma {:induction false} CollectCounts(lines: seq<string>, destSet: set<string>, destEndsBlank: bool)
    ensures var r := Collect(lines, destSet, destEndsBlank);
      forall l :: !IsBlank(l) && l !in destSet ==> multiset(r)[l] == multiset(lines)[l]
    decreases |lines|
  {
    if |lines| > 0 {
      var init := lines[..|lines| - 1];
      var last := lines[|lines| - 1];
      var acc := Collect(init, destSet, destEndsBlank);
      CollectCounts(init, destSet, destEndsBlank);
      assert lines == init + [last];
      PushCounts(acc, init, last, destSet, destEndsBlank);
    }
  }

  /** A step appends a non-blank line new to the destination each time it
      is visited, repeats included. */
  lemma PushCounts(acc: seq<string>, init: seq<string>, line: string, destSet: set<string>, destEndsBlank: bool)
    requires forall l :: !IsBlank(l) && l !in destSet ==> multiset(acc)[l] == multiset(init)[l]
    ensures var r := Push(acc, line, destSet, destEndsBlank);
      forall l :: !IsBlank(l) && l !in destSet ==> multiset(r)[l] == multiset(init + [line])[l]
  {
    var r := Push(acc, line, destSet, destEndsBlank);
    assert multiset(init + [line]) == multiset(init) + multiset{line};
    if r != acc {
      assert r == acc + [line];
      assert multiset(r) == multiset(acc) + multiset{line};
    }
  }

  /** A step appends at most the visited line. */
  lemma PushDrawsFrom(acc: seq<string>, init: seq<string>, line: string, destSet: set<string>, destEndsBlank: bool)
    requires |acc| <= |init|
    requires forall i :: 0 <= i < |acc| ==> acc[i] in init
    ensures var r := Push(acc, line, destSet, destEndsBlank);
      && |r| <= |init + [line]|
      && forall i :: 0 <= i < |r| ==> r[i] in init + [line]
  {
    var r := Push(acc, line, destSet, destEndsBlank);
    forall i | 0 <= i < |r| ensures r[i] in init + [line] {
      if i < |acc| {
        assert r[i] == acc[i];
      }
    }
  }

  /** A step keeps every selected non-blank line new to the destination, and
      selects the visited line when it is non-blank and new. */
  lemma PushSelectsNew(acc: seq<string>, init: seq<string>, line: string, destSet: set<string>, destEndsBlank: bool)
    requires forall i :: 0 <= i < |acc| && !IsBlank(acc[i]) ==> acc[i] !in destSet
    requires forall j :: 0 <= j < |init| && !IsBlank(init[j]) && init[j] !in destSet ==> init[j] in acc
    ensures var r := Push(acc, line, destSet, destEndsBlank); var ls := init + [line];
      && (forall i :: 0 <= i < |r| && !IsBlank(r[i]) ==> r[i] !in destSet)
      && (forall j :: 0 <= j < |ls| && !IsBlank(ls[j]) && ls[j] !in destSet ==> ls[j] in r)
  {
    var r := Push(acc, line, destSet, destEndsBlank);
    var ls := init + [line];
    assert r == acc || r == acc + [line];
    forall i | 0 <= i < |r| && !IsBlank(r[i]) ensures r[i] !in destSet {
      if i < |acc| {
        assert r[i] == acc[i];
      }
    }
    forall j | 0 <= j < |ls| && !IsBlank(ls[j]) && ls[j] !in destSet ensures ls[j] in r {
      if j < |init| {
        assert ls[j] == init[j];
        assert init[j] in acc;
      }
    }
  }

  /** A step never puts two blank lines side by side, nor a leading blank
      line after a destination that already ends blank. */
  lemma PushCollapsesBlanks(acc: seq<string>, line: string, destSet: set<string>, destEndsBlank: bool)
    requires forall i :: 0 <= i < |acc| - 1 ==> !(IsBlank(acc[i]) && IsBlank(acc[i + 1]))
    requires |acc| > 0 && IsBlank(acc[0]) ==> !destEndsBlank
    requires (forall i :: 0 <= i < |acc| ==> IsBlank(acc[i])) ==> |acc| <= (if destEndsBlank then 0 else 1)
    ensures var r := Push(acc, line, destSet, destEndsBlank);
      && (forall i :: 0 <= i < |r| - 1 ==> !(IsBlank(r[i]) && IsBlank(r[i + 1])))
      && (|r| > 0 && IsBlank(r[0]) ==> !destEndsBlank)
      && ((forall i :: 0 <= i < |r| ==> IsBlank(r[i])) ==> |r| <= (if destEndsBlank then 0 else 1))
  {
    var r := Push(acc, line, destSet, destEndsBlank);
    if r != acc {
      assert r == acc + [line];
      forall i | 0 <= i < |r| - 1 ensures !(IsBlank(r[i]) && IsBlank(r[i + 1])) {
        if i + 1 < |acc| {
          assert r[i] == acc[i] && r[i + 1] == acc[i + 1];
        }
      }
      if |acc| > 0 {
        assert r[0] == acc[0] && r[|acc| - 1] == acc[|acc| - 1] && r[|acc|] == line;
      }
    }
  }

  /** `ys` holds the entries of `xs` in order, at increasing positions `idx`. */
  ghost predicate SubseqAt(xs: seq<string>, ys: seq<string>, idx: seq<nat>) {
    && |idx| == |xs|
    && (forall i :: 0 <= i < |idx| ==> idx[i] < |ys| && xs[i] == ys[idx[i]])
    && (forall i, j :: 0 <= i < j < |idx| ==> idx[i] < idx[j])
  }

  ghost predicate IsSubseq(xs: seq<string>, ys: seq<string>) {
    exists idx :: SubseqAt(xs, ys, idx)
  }

  lemma SubseqExtend(xs: seq<string>, ys: seq<string>, y: string, idx: seq<nat>)
    requires SubseqAt(xs, ys, idx)
    ensures SubseqAt(xs, ys + [y], idx)
    ensures SubseqAt(xs + [y], ys + [y], idx + [|ys|])
  {
  }

  /** A step keeps `toAppend` or appends the visited line to it. */
  lemma PushKeepsOrAppends(acc: seq<string>, line: string, destSet: set<string>, destEndsBlank: bool)
    ensures Push(acc, line, destSet, destEndsBlank) in {acc, acc + [line]}
  {
  }

  /** The selected lines are an order-preserving subsequence of the source
      lines. */
  lemma {:induction false} CollectIsSubseq(lines: seq<string>, destSet: set<string>, destEndsBlank: bool)
    ensures IsSubseq(Collect(lines, destSet, destEndsBlank), lines)
    decreases |lines|
  {
    if |lines| == 0 {
      assert SubseqAt([], lines, []);
    } else {
      var init := lines[..|lines| - 1];
      var last := lines[|lines| - 1];
      assert lines == init + [last];
      var acc := Collect(init, destSet, destEndsBlank);
      CollectIsSubseq(init, destSet, destEndsBlank);
      var idx: seq<nat> :| SubseqAt(acc, init, idx);
      SubseqExtend(acc, init, last, idx);
      PushKeepsOrAppends(acc, last, destSet, destEndsBlank);
    }
  }

  /** The loop only ever adds to `toAppend`: what a prefix of the source
      selects is a prefix of what the whole source selects. */
  lemma {:induction false} CollectGrows(lines: seq<string>, destSet: set<string>, destEndsBlank: bool, k: nat)
    requires k <= |lines|
    ensures var p := Collect(lines[..k], destSet, destEndsBlank);
      var r := Collect(lines, destSet, destEndsBlank);
      |p| <= |r| && r[..|p|] == p
    decreases |lines|
  {
    if k < |lines| {
      var init := lines[..|lines| - 1];
      assert init[..k] == lines[..k];
      CollectGrows(init, destSet, destEndsBlank, k);
      PushKeepsOrAppends(Collect(init, destSet, destEndsBlank), lines[|lines| - 1], destSet, destEndsBlank);
    } else {
      assert lines[..k] == lines;
    }
  }

  /** A blank source line is never lost: right after it the selection ends
      in a blank line, unless nothing is selected yet and the destination
      already ends blank. */
  lemma CollectKeepsBlank(lines: seq<string>, destSet: set<string>, destEndsBlank: bool, j: nat)
    requires j < |lines| && IsBlank(lines[j])
    ensures var p := Collect(lines[..j + 1], destSet, destEndsBlank);
      (|p| > 0 && IsBlank(p[|p| - 1])) || (|p| == 0 && destEndsBlank)
  {
    assert lines[..j + 1][..j] == lines[..j];
  }

  /** So the whole selection holds, for every blank source line, a blank
      line at the place the loop had reached when it visited it. */
  lemma BlankAppended(lines: seq<string>, destSet: set<string>, destEndsBlank: bool, j: nat)
    requires j < |lines| && IsBlank(lines[j])
    ensures var n := |Collect(lines[..j + 1], destSet, destEndsBlank)|;
      var r := Collect(lines, destSet, destEndsBlank);
      (n > 0 && n <= |r| && IsBlank(r[n - 1])) || (n == 0 && destEndsBlank)
  {
    CollectKeepsBlank(lines, destSet, destEndsBlank, j);
    CollectGrows(lines, destSet, destEndsBlank, j + 1);
    var p := Collect(lines[..j + 1], destSet, destEndsBlank);
    var r := Collect(lines, destSet, destEndsBlank);
    if |p| > 0 {
      assert r[|p| - 1] == r[..|p|][|p| - 1];
    }
  }

  /** The lines `appendUniqueFile` would append. */
  function ToAppend(srcText: string, destText: string): seq<string> {
    Collect(NormLines(srcText), DestSet(destText), DestEndsBlank(destText))
  }

  /** The line feed written before the block when the destination is not
      empty and does not end in a line feed. */
  function Separator(destText: string): string {
    if destText == "" || EndsWith(destText, "\n") then "" else "\n"
  }

  /** The text appended to the destination for a non-empty `toAppend`. */
  function Block(destText: string, toAppend: seq<string>): string {
    Separator(destText) + Join(toAppend, "\n") + "\n"
  }

  /** What one call does: nothing when no line is new, only a report under
      dry run, otherwise an append of `added` to the destination. */
  datatype Outcome = NoNewContent | WouldAppend(lines: seq<string>) | Appended(added: string)

  function AppendUnique(srcText: string, destText: string, dryRun: bool): (r: Outcome)
    ensures r.NoNewContent? <==> ToAppend(srcText, destText) == []
    ensures r.WouldAppend? ==> dryRun && r.lines == ToAppend(srcText, destText)
    ensures r.Appended? ==> !dryRun && r.added == Block(destText, ToAppend(srcText, destText))
  {
    var toAppend := ToAppend(srcText, destText);
    if |toAppend| == 0 then NoNewContent
    else if dryRun then WouldAppend(toAppend)
    else Appended(Block(destText, toAppend))
  }

  /** The lines of the destination before the append that survive as whole
      lines after it: all of them, except a final empty piece that a
      trailing line feed leaves (and the single empty line of an empty
      text). */
  function KeptLines(destText: string): seq<string> {
    var lines := SplitLF(destText);
    if destText == "" then []
    else if EndsWith(destText, "\n") then lines[..|lines| - 1]
    else lines
  }

  /** The lines of `joined` followed by a line feed: those lines, then the
      empty piece after the line feed. */
  lemma LinesThenFeed(joined: string, toAppend: seq<string>)
    requires SplitLF(joined) == toAppend
    ensures SplitLF(joined + "\n") == toAppend + [""]
  {
    SplitLFConcat(joined, "");
    assert joined + "\n" + "" == joined + "\n";
  }

  /** A block written after a line feed adds its lines after the old ones. */
  lemma LinesAfterFeed(prefix: string, joined: string, toAppend: seq<string>)
    requires SplitLF(joined) == toAppend
    ensures SplitLF(prefix + "\n" + (joined + "\n")) == SplitLF(prefix) + toAppend + [""]
  {
    SplitLFConcat(prefix, joined + "\n");
    LinesThenFeed(joined, toAppend);
  }

  /** The three shapes the appended text takes, by the destination's end. */
  lemma AppendedText(destText: string, toAppend: seq<string>)
    ensures var joined := Join(toAppend, "\n");
      && (destText == "" ==> destText + Block(destText, toAppend) == joined + "\n")
      && (destText != "" && EndsWith(destText, "\n") ==>
            destText + Block(destText, toAppend) == destText[..|destText| - 1] + "\n" + (joined + "\n"))
      && (destText != "" && !EndsWith(destText, "\n") ==>
            destText + Block(destText, toAppend) == destText + "\n" + (joined + "\n"))
  {
    var joined := Join(toAppend, "\n");
    if destText != "" && EndsWith(destText, "\n") {
      var d0 := destText[..|destText| - 1];
      assert destText == d0 + "\n";
    }
  }

  /** A destination ending in a line feed keeps the lines before it. */
  lemma KeptLinesAfterFeed(destText: string)
    requires destText != "" && EndsWith(destText, "\n")
    ensures KeptLines(destText) == SplitLF(destText[..|destText| - 1])
  {
    var d0 := destText[..|destText| - 1];
    assert destText == d0 + "\n" + "";
    SplitLFConcat(d0, "");
  }

  /** After the append, the destination's lines are its old lines, then the
      appended lines, then the empty piece after the final line feed. */
  lemma {:induction false} AppendedLines(destText: string, toAppend: seq<string>)
    requires |toAppend| >= 1
    requires forall i :: 0 <= i < |toAppend| ==> '\n' !in toAppend[i]
    ensures SplitLF(destText + Block(destText, toAppend)) == KeptLines(destText) + toAppend + [""]
  {
    var joined := Join(toAppend, "\n");
    SplitJoinLF(toAppend);
    AppendedText(destText, toAppend);
    if destText == "" {
      LinesThenFeed(joined, toAppend);
    } else if EndsWith(destText, "\n") {
      KeptLinesAfterFeed(destText);
      LinesAfterFeed(destText[..|destText| - 1], joined, toAppend);
    } else {
      LinesAfterFeed(destText, joined, toAppend);
    }
  }

  /** Every non-blank destination line is still a destination line after
      the append, and so is every appended line. */
  lemma DestSetAfterAppend(destText: string, toAppend: seq<string>)
    requires |toAppend| >= 1
    requires forall i :: 0 <= i < |toAppend| ==> IsNormalLine(toAppend[i])
    ensures forall x :: x in DestSet(destText) && !IsBlank(x) ==> x in DestSet(destText + Block(destText, toAppend))
    ensures forall i :: 0 <= i < |toAppend| ==> toAppend[i] in DestSet(destText + Block(destText, toAppend))
  {
    OldLinesSurvive(destText, toAppend);
    AppendedLinesSeen(destText, toAppend);
  }

  lemma OldLinesSurvive(destText: string, toAppend: seq<string>)
    requires |toAppend| >= 1
    requires forall i :: 0 <= i < |toAppend| ==> IsNormalLine(toAppend[i])
    ensures forall x :: x in DestSet(destText) && !IsBlank(x) ==> x in DestSet(destText + Block(destText, toAppend))
  {
    var newText := destText + Block(destText, toAppend);
    AppendedLines(destText, toAppend);
    NormLinesOfPieces(destText);
    NormLinesOfPieces(newText);
    var oldRaw := SplitLF(destText);
    var newRaw := SplitLF(newText);
    var kept := KeptLines(destText);
    assert newRaw == kept + toAppend + [""];
    forall x | x in DestSet(destText) && !IsBlank(x)
      ensures x in DestSet(newText)
    {
      var i :| 0 <= i < |NormLines(destText)| && NormLines(destText)[i] == x;
      assert x == Normalize(oldRaw[i]);
      assert x != "";
      assert oldRaw[i] != "";
      assert i < |kept| && kept[i] == oldRaw[i];
      assert newRaw[i] == oldRaw[i];
      assert NormLines(newText)[i] == x;
    }
  }

  lemma AppendedLinesSeen(destText: string, toAppend: seq<string>)
    requires |toAppend| >= 1
    requires forall i :: 0 <= i < |toAppend| ==> IsNormalLine(toAppend[i])
    ensures forall i :: 0 <= i < |toAppend| ==> toAppend[i] in DestSet(destText + Block(destText, toAppend))
  {
    var newText := destText + Block(destText, toAppend);
    AppendedLines(destText, toAppend);
    NormLinesOfPieces(newText);
    var newRaw := SplitLF(newText);
    var kept := KeptLines(destText);
    assert newRaw == kept + toAppend + [""];
    forall i | 0 <= i < |toAppend|
      ensures toAppend[i] in DestSet(newText)
    {
      var j := |kept| + i;
      assert newRaw[j] == toAppend[i];
      NormalizeFixesNormalLine(toAppend[i]);
      assert NormLines(newText)[j] == toAppend[i];
    }
  }

  /** Running the appender again on its own result appends no non-blank
      line and at most one blank line. */
  lemma {:induction false} RerunAddsAtMostOneBlank(srcText: string, destText: string)
    requires ToAppend(srcText, destText) != []
    ensures var again := ToAppend(srcText, destText + Block(destText, ToAppend(srcText, destText)));
            |again| <= 1 && forall i :: 0 <= i < |again| ==> IsBlank(again[i])
  {
    var newText := destText + Block(destText, ToAppend(srcText, destText));
    SourceLinesSeenAfterAppend(srcText, destText);
    CollectAllSeen(NormLines(srcText), DestSet(newText), DestEndsBlank(newText));
  }

  /** After the append, every non-blank source line is a destination line. */
  lemma SourceLinesSeenAfterAppend(srcText: string, destText: string)
    requires ToAppend(srcText, destText) != []
    ensures var newText := destText + Block(destText, ToAppend(srcText, destText));
      forall x :: x in NormLines(srcText) && !IsBlank(x) ==> x in DestSet(newText)
  {
    var lines := NormLines(srcText);
    var toAppend := ToAppend(srcText, destText);
    var newText := destText + Block(destText, toAppend);
    CollectSpec(lines, DestSet(destText), DestEndsBlank(destText));
    forall i | 0 <= i < |toAppend|
      ensures IsNormalLine(toAppend[i])
    {
      assert toAppend[i] in lines;
    }
    DestSetAfterAppend(destText, toAppend);
    forall x | x in lines && !IsBlank(x)
      ensures x in DestSet(newText)
    {
      var j :| 0 <= j < |lines| && lines[j] == x;
      if x !in DestSet(destText) {
        assert x in toAppend;
      }
    }
  }

  /** When the destination already holds every non-blank line, at most one
      blank line is selected. */
  lemma CollectAllSeen(lines: seq<string>, destSet: set<string>, destEndsBlank: bool)
    requires forall x :: x in lines && !IsBlank(x) ==> x in destSet
    ensures var r := Collect(lines, destSet, destEndsBlank);
      |r| <= 1 && forall i :: 0 <= i < |r| ==> IsBlank(r[i])
  {
    CollectSpec(lines, destSet, destEndsBlank);
  }

  /** A source whose only new content is blank lines appends nothing to a
      destination that already ends in a blank line. */
  lemma NothingNewAfterBlankEnd(srcText: string, destText: string)
    requires DestEndsBlank(destText)
    requires forall j :: 0 <= j < |NormLines(srcText)| && !IsBlank(NormLines(srcText)[j])
               ==> NormLines(srcText)[j] in DestSet(destText)
    ensures ToAppend(srcText, destText) == []
  {
    CollectSpec(NormLines(srcText), DestSet(destText), DestEndsBlank(destText));
  }
}

/** Worked instances of the appender. */
module AppenderExamples {
  import opened Strings
  import opened Lines
  import opened Appender

  lemma SplitABlankB()
    ensures SplitLF("a\n\nb") == ["a", "", "b"]
  {
    SplitLFSingle("a");
    SplitLFSingle("");
    SplitLFSingle("b");
    assert "\nb" == "" + "\n" + "b";
    SplitLFConcat("", "b");
    assert "a\n\nb" == "a" + "\n" + "\nb";
    SplitLFConcat("a", "\nb");
  }

  lemma LinesOfABlankB()
    ensures NormLines("a\n\nb") == ["a", "", "b"]
  {
    SplitABlankB();
    NormalizeFixesNormalLine("a");
    NormalizeFixesNormalLine("");
    NormalizeFixesNormalLine("b");
  }

  lemma SplitResult()
    ensures SplitLF("a\n\nb\n") == ["a", "", "b", ""]
  {
    SplitABlankB();
    SplitLFSingle("");
    assert "a\n\nb\n" == "a\n\nb" + "\n" + "";
    SplitLFConcat("a\n\nb", "");
  }

  lemma LinesOfResult()
    ensures NormLines("a\n\nb\n") == ["a", "", "b", ""]
  {
    SplitResult();
    NormalizeFixesNormalLine("a");
    NormalizeFixesNormalLine("");
    NormalizeFixesNormalLine("b");
  }

  lemma NotBlank(s: string)
    requires |s| > 0 && (s[0] == 'a' || s[0] == 'b')
    ensures !IsBlank(s)
  {
    assert !IsJsSpace(s[0]);
  }

  lemma CollectStep(lines: seq<string>, line: string, destSet: set<string>, destEndsBlank: bool)
    ensures Collect(lines + [line], destSet, destEndsBlank)
            == Push(Collect(lines, destSet, destEndsBlank), line, destSet, destEndsBlank)
  {
    assert (lines + [line])[..|lines|] == lines;
  }

  /** `Collect` over two lines is two steps from nothing. */
  lemma CollectTwo(x: string, y: string, d: set<string>, e: bool)
    ensures Collect([x, y], d, e) == Push(Push([], x, d, e), y, d, e)
  {
    assert [x][..0] == [];
    assert Collect([x], d, e) == Push([], x, d, e);
    assert [x, y][..1] == [x];
  }

  /** `Collect` over three lines is three steps from nothing. */
  lemma CollectThree(x: string, y: string, z: string, d: set<string>, e: bool)
    ensures Collect([x, y, z], d, e) == Push(Push(Push([], x, d, e), y, d, e), z, d, e)
  {
    CollectTwo(x, y, d, e);
    assert [x, y, z][..2] == [x, y];
  }

  lemma CollectFresh(d: set<string>, e: bool)
    requires "a" !in d && "b" !in d
    ensures Collect(["a", "", "b"], d, e) == ["a", "", "b"]
  {
    NotBlank("a");
    NotBlank("b");
    CollectThree("a", "", "b", d, e);
    assert Push([], "a", d, e) == ["a"];
    assert IsBlank("");
    assert Push(["a"], "", d, e) == ["a", ""];
    assert Push(["a", ""], "b", d, e) == ["a", "", "b"];
  }

  /** Lines are unique only against the destination: a new line that the
      source repeats is appended once per occurrence. */
  lemma CollectRepeats(d: set<string>, e: bool)
    requires "a" !in d
    ensures Collect(["a", "a"], d, e) == ["a", "a"]
  {
    NotBlank("a");
    CollectTwo("a", "a", d, e);
  }

  lemma CollectSeen(d: set<string>)
    requires "a" in d && "b" in d
    ensures Collect(["a", "", "b"], d, false) == [""]
  {
    NotBlank("a");
    NotBlank("b");
    CollectThree("a", "", "b", d, false);
  }

  lemma EmptyDestSet()
    ensures "a" !in DestSet("") && "b" !in DestSet("")
  {
    SplitLFSingle("");
    assert NormLines("") == [""];
  }

  lemma FirstRun()
    ensures ToAppend("a\n\nb", "") == ["a", "", "b"]
  {
    LinesOfABlankB();
    EmptyDestSet();
    CollectFresh(DestSet(""), DestEndsBlank(""));
  }

  lemma ResultDestSet()
    ensures "a" in DestSet("a\n\nb\n") && "b" in DestSet("a\n\nb\n")
  {
    LinesOfResult();
    var lines := NormLines("a\n\nb\n");
    assert lines[0] == "a" && lines[2] == "b";
  }

  lemma ResultNotBlankEnd()
    ensures !DestEndsBlank("a\n\nb\n")
  {
    var t := "a\n\nb\n";
    assert t[0] == 'a';
    NotBlank(t);
    assert t[|t| - 2] == 'b';
  }

  lemma SecondRun()
    ensures ToAppend("a\n\nb", "a\n\nb\n") == [""]
  {
    LinesOfABlankB();
    ResultDestSet();
    ResultNotBlankEnd();
    CollectSeen(DestSet("a\n\nb\n"));
  }

  lemma BlockOfABlankB()
    ensures "" + Block("", ["a", "", "b"]) == "a\n\nb\n"
  {
    assert Join(["b"], "\n") == "b";
    assert Join(["", "b"], "\n") == "\nb";
    assert Join(["a", "", "b"], "\n") == "a\n\nb";
  }

  /** The appender is not idempotent: the source "a", blank, "b" appended to
      an empty destination gains one more blank line on a second run,
      because the destination then ends in "b" followed by one line feed. */
  lemma SecondRunAddsBlank()
    ensures ToAppend("a\n\nb", "") == ["a", "", "b"]
    ensures "" + Block("", ["a", "", "b"]) == "a\n\nb\n"
    ensures ToAppend("a\n\nb", "a\n\nb\n") == [""]
  {
    FirstRun();
    BlockOfABlankB();
    SecondRun();
  }
}

=== FILE: args.dfy ===
/** Command-line handling of the three scripts: the `parseArgs` folds of
    tools/apply-rules.mjs and tools/install-to-repo.mjs, the argument list
    install-to-repo forwards to apply-rules, and the forwarding `parseArgs`
    of tools/bootstrap.mjs. */
module Args {
  import opened Wrappers

  /** One step of the argument loop: a flag that consumes the next token
      (`argv[++i]`, absent past the end), or a single word. */
  datatype Item = Value(flag: string, value: Option<string>) | Word(word: string)

  /** The flags whose value is the next token, whatever that token is. */
  predicate TakesValue(t: string) {
    t == "--repo" || t == "--rules"
  }

  /** Groups the tokens as the loop visits them. */
  function Lex(ts: seq<string>): (r: seq<Item>)
    ensures forall i :: 0 <= i < |r| && r[i].Value? ==> TakesValue(r[i].flag)
    ensures forall i :: 0 <= i < |r| && r[i].Word? ==> !TakesValue(r[i].word)
    decreases |ts|
  {
    if |ts| == 0 then []
    else if TakesValue(ts[0]) then
      if |ts| == 1 then [Value(ts[0], None)]
      else [Value(ts[0], Some(ts[1]))] + Lex(ts[2..])
    else [Word(ts[0])] + Lex(ts[1..])
  }

  /** The tokens an item was read from. */
  function Tokens(it: Item): seq<string> {
    match it
    case Value(f, None) => [f]
    case Value(f, Some(v)) => [f, v]
    case Word(w) => [w]
  }

  function Unlex(items: seq<Item>): seq<string>
    decreases |items|
  {
    if |items| == 0 then [] else Tokens(items[0]) + Unlex(items[1..])
  }

  /** Grouping loses no token and invents none. */
  lemma {:induction false} UnlexLex(ts: seq<string>)
    ensures Unlex(Lex(ts)) == ts
    decreases |ts|
  {
    if |ts| == 1 {
    } else if |ts| > 1 {
      var r := Lex(ts);
      if TakesValue(ts[0]) {
        UnlexLex(ts[2..]);
        assert r[1..] == Lex(ts[2..]);
        assert ts == [ts[0], ts[1]] + ts[2..];
      } else {
        UnlexLex(ts[1..]);
        assert r[1..] == Lex(ts[1..]);
        assert ts == [ts[0]] + ts[1..];
      }
    }
  }

  lemma LexValue(f: string, v: string, rest: seq<string>)
    requires TakesValue(f)
    ensures Lex([f, v] + rest) == [Value(f, Some(v))] + Lex(rest)
  {
    var ts := [f, v] + rest;
    assert ts[2..] == rest;
  }

  lemma LexWord(w: string, rest: seq<string>)
    requires !TakesValue(w)
    ensures Lex([w] + rest) == [Word(w)] + Lex(rest)
  {
    var ts := [w] + rest;
    assert ts[1..] == rest;
  }

  /** The tokens the loop visits: `argv` from index 2 on. */
  function Operands(argv: seq<string>): seq<string> {
    if |argv| >= 2 then argv[2..] else []
  }

  /** The value of the last `flag` item, or `dflt` when there is none. */
  function LastValue(items: seq<Item>, flag: string, dflt: Option<string>): (r: Option<string>)
    ensures (forall i :: 0 <= i < |items| ==> !(items[i].Value? && items[i].flag == flag)) ==> r == dflt
    decreases |items|
  {
    if |items| == 0 then dflt
    else
      var last := items[|items| - 1];
      if last.Value? && last.flag == flag then last.value
      else LastValue(items[..|items| - 1], flag, dflt)
  }

  /** No `flag` item comes after position `i`. */
  predicate LastOfFlag(items: seq<Item>, flag: string, i: nat) {
    forall j :: i < j < |items| ==> !(items[j].Value? && items[j].flag == flag)
  }

  /** Last wins: a value other than the default is the value of some `flag`
      item that no later `flag` item follows. */
  lemma {:induction false} LastValueIsLast(items: seq<Item>, flag: string, dflt: Option<string>)
    ensures var r := LastValue(items, flag, dflt);
            r != dflt ==> exists i :: 0 <= i < |items| && items[i] == Value(flag, r) && LastOfFlag(items, flag, i)
    decreases |items|
  {
    if |items| > 0 {
      var n := |items|;
      var last := items[n - 1];
      var r := LastValue(items, flag, dflt);
      if last.Value? && last.flag == flag {
        assert items[n - 1] == Value(flag, r);
        assert LastOfFlag(items, flag, n - 1);
      } else {
        var init := items[..n - 1];
        assert r == LastValue(init, flag, dflt);
        LastValueIsLast(init, flag, dflt);
        if r != dflt {
          var i :| 0 <= i < |init| && init[i] == Value(flag, r) && LastOfFlag(init, flag, i);
          assert items[i] == init[i];
          forall j | i < j < n
            ensures !(items[j].Value? && items[j].flag == flag)
          {
            if j < n - 1 {
              assert items[j] == init[j];
            }
          }
        }
      }
    }
  }

  /** Last wins, conversely: the value of a `flag` item that no later `flag`
      item follows is the result, whatever the default. */
  lemma {:induction false} LastValueOfLast(items: seq<Item>, flag: string, dflt: Option<string>, i: nat)
    requires i < |items| && items[i].Value? && items[i].flag == flag && LastOfFlag(items, flag, i)
    ensures LastValue(items, flag, dflt) == items[i].value
    decreases |items|
  {
    var n := |items|;
    if i < n - 1 {
      var init := items[..n - 1];
      assert !(items[n - 1].Value? && items[n - 1].flag == flag);
      assert LastValue(items, flag, dflt) == LastValue(init, flag, dflt);
      assert init[i] == items[i];
      forall j | i < j < |init|
        ensures !(init[j].Value? && init[j].flag == flag)
      {
        assert init[j] == items[j];
      }
      LastValueOfLast(init, flag, dflt, i);
    }
  }

  /** Reading one more item in front is the same as starting from the value
      it sets. */
  lemma {:induction false} LastValueCons(it: Item, items: seq<Item>, flag: string, dflt: Option<string>)
    ensures LastValue([it] + items, flag, dflt) == LastValue(items, flag, LastValue([it], flag, dflt))
    decreases |items|
  {
    var all := [it] + items;
    if |items| == 0 {
      assert all == [it];
    } else {
      assert all[..|all| - 1] == [it] + items[..|items| - 1];
      LastValueCons(it, items[..|items| - 1], flag, dflt);
    }
  }

  /** A trailing run of items that sets no `flag` leaves its value alone. */
  lemma {:induction false} LastValueSkip(items: seq<Item>, tail: seq<Item>, flag: string, dflt: Option<string>)
    requires forall i :: 0 <= i < |tail| ==> !(tail[i].Value? && tail[i].flag == flag)
    ensures LastValue(items + tail, flag, dflt) == LastValue(items, flag, dflt)
    decreases |tail|
  {
    if |tail| > 0 {
      var all := items + tail;
      var init := tail[..|tail| - 1];
      assert all[|all| - 1] == tail[|tail| - 1];
      assert all[..|all| - 1] == items + init;
      assert forall i :: 0 <= i < |init| ==> init[i] == tail[i];
      LastValueSkip(items, init, flag, dflt);
      assert LastValue(all, flag, dflt) == LastValue(items + init, flag, dflt);
    } else {
      assert items + tail == items;
    }
  }

  /** The options both tools/apply-rules.mjs and tools/install-to-repo.mjs
      read; `None` stands for JavaScript's `undefined`/`null`. */
  datatype ApplyArgs = ApplyArgs(repo: Option<string>, rules: Option<string>, force: bool, dryRun: bool, help: bool)

  function ApplyDefaults(cwd: string): ApplyArgs {
    ApplyArgs(Some(cwd), None, false, false, false)
  }

  function ApplyStep(a: ApplyArgs, it: Item): ApplyArgs {
    match it
    case Value(f, v) => if f == "--repo" then a.(repo := v) else a.(rules := v)
    case Word(w) =>
      if w == "--force" then a.(force := true)
      else if w == "--dry-run" then a.(dryRun := true)
      else if w == "-h" || w == "--help" then a.(help := true)
      else a
  }

  function FoldApply(a: ApplyArgs, items: seq<Item>): ApplyArgs
    decreases |items|
  {
    if |items| == 0 then a else FoldApply(ApplyStep(a, items[0]), items[1..])
  }

  /** One item read alone sets `repo` and `rules` as the step does. */
  lemma StepValues(a: ApplyArgs, it: Item)
    requires it.Value? ==> TakesValue(it.flag)
    ensures LastValue([it], "--repo", a.repo) == ApplyStep(a, it).repo
    ensures LastValue([it], "--rules", a.rules) == ApplyStep(a, it).rules
  {
    assert [it][..0] == [];
  }

  /** The last `--repo` and the last `--rules` win; without one the
      default stays. */
  lemma {:induction false} FoldApplyValues(a: ApplyArgs, items: seq<Item>)
    requires forall i :: 0 <= i < |items| && items[i].Value? ==> TakesValue(items[i].flag)
    ensures FoldApply(a, items).repo == LastValue(items, "--repo", a.repo)
    ensures FoldApply(a, items).rules == LastValue(items, "--rules", a.rules)
    decreases |items|
  {
    if |items| > 0 {
      var it := items[0];
      var tail := items[1..];
      var b := ApplyStep(a, it);
      assert FoldApply(a, items) == FoldApply(b, tail);
      FoldApplyValues(b, tail);
      assert items == [it] + tail;
      LastValueCons(it, tail, "--repo", a.repo);
      LastValueCons(it, tail, "--rules", a.rules);
      StepValues(a, it);
    }
  }

  /** A flag is set exactly when it was set before or occurs at all. */
  lemma {:induction false} FoldApplyWords(a: ApplyArgs, items: seq<Item>)
    ensures FoldApply(a, items).force <==> a.force || Word("--force") in items
    ensures FoldApply(a, items).dryRun <==> a.dryRun || Word("--dry-run") in items
    ensures FoldApply(a, items).help <==> a.help || Word("-h") in items || Word("--help") in items
    decreases |items|
  {
    if |items| > 0 {
      FoldApplyWords(ApplyStep(a, items[0]), items[1..]);
      assert items == [items[0]] + items[1..];
    }
  }

  /** `parseArgs(process.argv)` of tools/apply-rules.mjs. */
  function ParseApply(argv: seq<string>, cwd: string): ApplyArgs {
    FoldApply(ApplyDefaults(cwd), Lex(Operands(argv)))
  }

  /** Options of tools/install-to-repo.mjs: the shared ones and three
      switches of its own. */
  datatype InstallArgs = InstallArgs(common: ApplyArgs, withMakefile: bool, withJustfile: bool, patchNpmScripts: bool)

  function InstallDefaults(cwd: string): InstallArgs {
    InstallArgs(ApplyDefaults(cwd), true, true, true)
  }

  function InstallStep(a: InstallArgs, it: Item): InstallArgs {
    if it == Word("--no-makefile") then a.(withMakefile := false)
    else if it == Word("--no-justfile") then a.(withJustfile := false)
    else if it == Word("--no-npm") then a.(patchNpmScripts := false)
    else a.(common := ApplyStep(a.common, it))
  }

  function FoldInstall(a: InstallArgs, items: seq<Item>): InstallArgs
    decreases |items|
  {
    if |items| == 0 then a else FoldInstall(InstallStep(a, items[0]), items[1..])
  }

  /** `parseArgs(process.argv)` of tools/install-to-repo.mjs. */
  function ParseInstall(argv: seq<string>, cwd: string): InstallArgs {
    FoldInstall(InstallDefaults(cwd), Lex(Operands(argv)))
  }

  /** Each `--no-*` switch clears its option, and nothing sets it again. */
  lemma {:induction false} FoldInstallSwitches(a: InstallArgs, items: seq<Item>)
    ensures FoldInstall(a, items).withMakefile <==> a.withMakefile && Word("--no-makefile") !in items
    ensures FoldInstall(a, items).withJustfile <==> a.withJustfile && Word("--no-justfile") !in items
    ensures FoldInstall(a, items).patchNpmScripts <==> a.patchNpmScripts && Word("--no-npm") !in items
    decreases |items|
  {
    if |items| > 0 {
      FoldInstallSwitches(InstallStep(a, items[0]), items[1..]);
      assert items == [items[0]] + items[1..];
    }
  }

  /** install-to-repo reads the shared options exactly as apply-rules does. */
  lemma {:induction false} FoldInstallShared(a: InstallArgs, items: seq<Item>)
    ensures FoldInstall(a, items).common == FoldApply(a.common, items)
    decreases |items|
  {
    if |items| > 0 {
      FoldInstallShared(InstallStep(a, items[0]), items[1..]);
    }
  }

  lemma ParseInstallShared(argv: seq<string>, cwd: string)
    ensures ParseInstall(argv, cwd).common == ParseApply(argv, cwd)
  {
    FoldInstallShared(InstallDefaults(cwd), Lex(Operands(argv)));
  }

  /** The tokens from index `i` on, none once `++i` ran past the end. */
  function Rest(argv: seq<string>, i: nat): seq<string> {
    if i <= |argv| then argv[i..] else []
  }

  /** The item the loop reads at index `i`, and the index after it. */
  function ItemAt(argv: seq<string>, i: nat): (Item, nat)
    requires i < |argv|
  {
    if TakesValue(argv[i]) then (Value(argv[i], if i + 1 < |argv| then Some(argv[i + 1]) else None), i + 2)
    else (Word(argv[i]), i + 1)
  }

  /** Lexing from index `i` reads that item first, then goes on from the
      index after it. */
  lemma LexAt(argv: seq<string>, i: nat)
    requires i < |argv|
    ensures Lex(Rest(argv, i)) == [ItemAt(argv, i).0] + Lex(Rest(argv, ItemAt(argv, i).1))
  {
    var rest := argv[i..];
    if TakesValue(argv[i]) && i + 1 < |argv| {
      assert rest[2..] == argv[i + 2..];
    } else if !TakesValue(argv[i]) {
      assert rest[1..] == argv[i + 1..];
    }
  }

  lemma FoldInstallCons(a: InstallArgs, it: Item, items: seq<Item>)
    ensures FoldInstall(a, [it] + items) == FoldInstall(InstallStep(a, it), items)
  {
    assert ([it] + items)[1..] == items;
  }

  /** The index loop of tools/install-to-repo.mjs, `argv[++i]` included. */
  method ParseInstallLoop(argv: seq<string>, cwd: string) returns (args: InstallArgs)
    ensures args == ParseInstall(argv, cwd)
  {
    args := InstallDefaults(cwd);
    var i := 2;
    assert FoldInstall(args, Lex(Rest(argv, i))) == ParseInstall(argv, cwd);
    while i < |argv|
      invariant 2 <= i
      invariant FoldInstall(args, Lex(Rest(argv, i))) == ParseInstall(argv, cwd)
      decreases |argv| - i
    {
      ghost var prev := args;
      ghost var step := ItemAt(argv, i);
      LexAt(argv, i);
      FoldInstallCons(prev, step.0, Lex(Rest(argv, step.1)));
      var a := argv[i];
      if a == "--repo" || a == "--rules" {
        i := i + 1;
        var v := if i < |argv| then Some(argv[i]) else None;
        if a == "--repo" {
          args := args.(common := args.common.(repo := v));
        } else {
          args := args.(common := args.common.(rules := v));
        }
      } else if a == "--force" {
        args := args.(common := args.common.(force := true));
      } else if a == "--dry-run" {
        args := args.(common := args.common.(dryRun := true));
      } else if a == "--no-makefile" {
        args := args.(withMakefile := false);
      } else if a == "--no-justfile" {
        args := args.(withJustfile := false);
      } else if a == "--no-npm" {
        args := args.(patchNpmScripts := false);
      } else if a == "-h" || a == "--help" {
        args := args.(common := args.common.(help := true));
      }
      assert args == InstallStep(prev, step.0);
      i := i + 1;
      assert i == step.1;
    }
  }

  /** With no operands every option keeps its default. */
  lemma InstallNoOperands(script: seq<string>, cwd: string)
    requires |script| <= 2
    ensures ParseInstall(script, cwd) == InstallDefaults(cwd)
  {
  }

  /** `--repo` and `--rules` take the next token verbatim, even one that
      looks like a flag. */
  lemma InstallValueVerbatim(argv: seq<string>, cwd: string, f: string, v: string)
    requires TakesValue(f)
    requires argv == ["node", "install-to-repo.mjs", f, v]
    ensures f == "--repo" ==> ParseInstall(argv, cwd) == InstallDefaults(cwd).(common := ApplyDefaults(cwd).(repo := Some(v)))
    ensures f == "--rules" ==> ParseInstall(argv, cwd) == InstallDefaults(cwd).(common := ApplyDefaults(cwd).(rules := Some(v)))
  {
    assert Operands(argv) == [f, v] + [];
    LexValue(f, v, []);
    var it := Value(f, Some(v));
    assert Lex(Operands(argv)) == [it];
    assert [it][1..] == [];
    var d := InstallDefaults(cwd);
    assert ParseInstall(argv, cwd) == FoldInstall(InstallStep(d, it), []);
  }

  /** Every value flag in `items` has its value. */
  predicate NoDangling(items: seq<Item>) {
    forall i :: 0 <= i < |items| && items[i].Value? ==> items[i].value.Some?
  }

  /** Tokens that end without a dangling value flag are read independently
      of what follows them. */
  lemma {:induction false} LexAppend(ts: seq<string>, us: seq<string>)
    ensures NoDangling(Lex(ts)) ==> Lex(ts + us) == Lex(ts) + Lex(us)
    decreases |ts|
  {
    if |ts| > 1 && TakesValue(ts[0]) {
      LexAppend(ts[2..], us);
      assert ts == [ts[0], ts[1]] + ts[2..];
      AppendAfterValue(ts[0], ts[1], ts[2..], us);
    } else if |ts| > 0 && !TakesValue(ts[0]) {
      LexAppend(ts[1..], us);
      assert ts == [ts[0]] + ts[1..];
      AppendAfterWord(ts[0], ts[1..], us);
    } else if |ts| == 0 {
      assert ts + us == us;
    }
  }

  lemma AppendAfterValue(f: string, v: string, rest: seq<string>, us: seq<string>)
    requires TakesValue(f)
    requires NoDangling(Lex(rest)) ==> Lex(rest + us) == Lex(rest) + Lex(us)
    ensures NoDangling(Lex([f, v] + rest)) ==> Lex([f, v] + rest + us) == Lex([f, v] + rest) + Lex(us)
  {
    assert [f, v] + rest + us == [f, v] + (rest + us);
    LexValue(f, v, rest);
    LexValue(f, v, rest + us);
    NoDanglingTail(Value(f, Some(v)), Lex(rest));
  }

  lemma AppendAfterWord(w: string, rest: seq<string>, us: seq<string>)
    requires !TakesValue(w)
    requires NoDangling(Lex(rest)) ==> Lex(rest + us) == Lex(rest) + Lex(us)
    ensures NoDangling(Lex([w] + rest)) ==> Lex([w] + rest + us) == Lex([w] + rest) + Lex(us)
  {
    assert [w] + rest + us == [w] + (rest + us);
    LexWord(w, rest);
    LexWord(w, rest + us);
    NoDanglingTail(Word(w), Lex(rest));
  }

  lemma NoDanglingTail(it: Item, rest: seq<Item>)
    ensures NoDangling([it] + rest) ==> NoDangling(rest)
  {
    assert forall i :: 0 <= i < |rest| ==> ([it] + rest)[i + 1] == rest[i];
  }

  /** A later `--repo` overrides an earlier one (provided the earlier
      tokens do not end in a value flag, which would take this `--repo` as
      its value). */
  lemma InstallLastRepoWins(argv: seq<string>, cwd: string, x: string)
    requires |argv| >= 2
    requires NoDangling(Lex(Operands(argv)))
    ensures ParseInstall(argv + ["--repo", x], cwd).common.repo == Some(x)
  {
    var ops := Operands(argv);
    assert Operands(argv + ["--repo", x]) == ops + ["--repo", x];
    LexAppend(ops, ["--repo", x]);
    LexValue("--repo", x, []);
    var items := Lex(ops) + [Value("--repo", Some(x))];
    assert Lex(ops + ["--repo", x]) == items;
    ParseInstallShared(argv + ["--repo", x], cwd);
    FoldApplyValues(ApplyDefaults(cwd), items);
    assert items[|items| - 1] == Value("--repo", Some(x));
  }

  /** Unknown tokens change nothing. */
  lemma InstallIgnoresUnknown(a: InstallArgs, items: seq<Item>, w: string)
    requires w !in {"--force", "--dry-run", "--no-makefile", "--no-justfile", "--no-npm", "-h", "--help"}
    ensures FoldInstall(a, items + [Word(w)]) == FoldInstall(a, items)
  {
    FoldInstallUnknown(a, items, w);
  }

  lemma {:induction false} FoldInstallUnknown(a: InstallArgs, items: seq<Item>, w: string)
    requires w !in {"--force", "--dry-run", "--no-makefile", "--no-justfile", "--no-npm", "-h", "--help"}
    ensures FoldInstall(a, items + [Word(w)]) == FoldInstall(a, items)
    decreases |items|
  {
    var all := items + [Word(w)];
    if |items| == 0 {
      assert all == [Word(w)];
    } else {
      assert all[1..] == items[1..] + [Word(w)];
      FoldInstallUnknown(InstallStep(a, items[0]), items[1..], w);
    }
  }

  /** JavaScript truthiness of the `rules` option. */
  predicate RulesSet(rules: Option<string>) {
    rules.Some? && rules.value != ""
  }

  /** `--rules NAME`, forwarded only when the rules are a non-empty name. */
  function RulesPart(a: ApplyArgs): seq<string> {
    if RulesSet(a.rules) then ["--rules", a.rules.value] else []
  }

  /** `--force` and `--dry-run`, forwarded only when set. */
  function FlagsPart(a: ApplyArgs): seq<string> {
    (if a.force then ["--force"] else []) + (if a.dryRun then ["--dry-run"] else [])
  }

  /** `cmdArgs` in `main` of tools/install-to-repo.mjs, for the resolved
      repository path `repo`. */
  function ForwardArgs(applyScript: string, repo: string, a: ApplyArgs): (r: seq<string>)
    ensures |r| >= 3 && r[..3] == [applyScript, "--repo", repo]
    ensures forall it :: it in Lex(r[1..]) && it.Word? ==> it.word in {"--force", "--dry-run"}
  {
    var r := [applyScript, "--repo", repo] + RulesPart(a) + FlagsPart(a);
    LexForward(applyScript, repo, a);
    ForwardWords(repo, a);
    r
  }

  function ForwardHead(repo: string, a: ApplyArgs): seq<Item> {
    [Value("--repo", Some(repo))] + (if RulesSet(a.rules) then [Value("--rules", a.rules)] else [])
  }

  function ForwardFlags(a: ApplyArgs): seq<Item> {
    (if a.force then [Word("--force")] else []) + (if a.dryRun then [Word("--dry-run")] else [])
  }

  /** The only words among the forwarded items are the two flags. */
  lemma ForwardWords(repo: string, a: ApplyArgs)
    ensures forall it :: it in ForwardHead(repo, a) + ForwardFlags(a) && it.Word? ==> it.word in {"--force", "--dry-run"}
  {
    var head := ForwardHead(repo, a);
    var flags := ForwardFlags(a);
    assert forall it :: it in head ==> it.Value?;
    assert forall it :: it in flags ==> it == Word("--force") || it == Word("--dry-run");
  }

  lemma ForwardedFlags(a: ApplyArgs)
    ensures Lex(FlagsPart(a)) == ForwardFlags(a)
  {
    if a.force && a.dryRun {
      assert FlagsPart(a) == ["--force"] + ["--dry-run"];
      LexWord("--force", ["--dry-run"]);
      LexWord("--dry-run", []);
    } else if a.force {
      assert FlagsPart(a) == ["--force"] + [];
      LexWord("--force", []);
    } else if a.dryRun {
      assert FlagsPart(a) == ["--dry-run"] + [];
      LexWord("--dry-run", []);
    }
  }

  /** The rules part, when forwarded, is read as one `--rules` item. */
  lemma ForwardedRules(a: ApplyArgs)
    ensures Lex(RulesPart(a) + FlagsPart(a)) == (if RulesSet(a.rules) then [Value("--rules", a.rules)] else []) + ForwardFlags(a)
  {
    ForwardedFlags(a);
    if RulesSet(a.rules) {
      assert RulesPart(a) + FlagsPart(a) == ["--rules", a.rules.value] + FlagsPart(a);
      LexValue("--rules", a.rules.value, FlagsPart(a));
    } else {
      assert RulesPart(a) + FlagsPart(a) == FlagsPart(a);
    }
  }

  /** The items apply-rules reads from the forwarded list. */
  lemma LexForward(applyScript: string, repo: string, a: ApplyArgs)
    ensures Lex(([applyScript, "--repo", repo] + RulesPart(a) + FlagsPart(a))[1..]) == ForwardHead(repo, a) + ForwardFlags(a)
  {
    var r := [applyScript, "--repo", repo] + RulesPart(a) + FlagsPart(a);
    assert r[1..] == ["--repo", repo] + (RulesPart(a) + FlagsPart(a));
    LexValue("--repo", repo, RulesPart(a) + FlagsPart(a));
    ForwardedRules(a);
  }

  /** The items apply-rules reads when started as `process.execPath` with
      the forwarded list. */
  lemma ForwardItems(execPath: string, applyScript: string, repo: string, a: ApplyArgs)
    ensures Lex(Operands([execPath] + ForwardArgs(applyScript, repo, a)))
            == ForwardHead(repo, a) + ForwardFlags(a)
  {
    var argv := [execPath] + ForwardArgs(applyScript, repo, a);
    assert Operands(argv) == ForwardArgs(applyScript, repo, a)[1..];
    LexForward(applyScript, repo, a);
  }

  lemma ForwardHeadValues(repo: string, a: ApplyArgs, d: ApplyArgs)
    requires d.rules == None
    ensures LastValue(ForwardHead(repo, a), "--repo", d.repo) == Some(repo)
    ensures LastValue(ForwardHead(repo, a), "--rules", d.rules) == (if RulesSet(a.rules) then a.rules else None)
  {
    var head := ForwardHead(repo, a);
    if RulesSet(a.rules) {
      assert head[..1] == [Value("--repo", Some(repo))];
      assert head[..1][..0] == [];
    } else {
      assert head[..0] == [];
    }
  }

  lemma ForwardMembers(repo: string, a: ApplyArgs)
    ensures var items := ForwardHead(repo, a) + ForwardFlags(a);
            && (Word("--force") in items <==> a.force)
            && (Word("--dry-run") in items <==> a.dryRun)
            && Word("-h") !in items && Word("--help") !in items
  {
    var head := ForwardHead(repo, a);
    assert forall it :: it in head ==> it.Value?;
  }

  /** The values the applier reads from the forwarded items. */
  lemma ForwardValues(repo: string, a: ApplyArgs, d: ApplyArgs)
    requires d.rules == None
    ensures FoldApply(d, ForwardHead(repo, a) + ForwardFlags(a)).repo == Some(repo)
    ensures FoldApply(d, ForwardHead(repo, a) + ForwardFlags(a)).rules == (if RulesSet(a.rules) then a.rules else None)
  {
    var head := ForwardHead(repo, a);
    var fl := ForwardFlags(a);
    FoldApplyValues(d, head + fl);
    LastValueSkip(head, fl, "--repo", d.repo);
    LastValueSkip(head, fl, "--rules", d.rules);
    ForwardHeadValues(repo, a, d);
  }

  /** The switches the applier reads from the forwarded items. */
  lemma ForwardSwitches(repo: string, a: ApplyArgs, d: ApplyArgs)
    requires !d.force && !d.dryRun && !d.help
    ensures var r := FoldApply(d, ForwardHead(repo, a) + ForwardFlags(a));
      r.force == a.force && r.dryRun == a.dryRun && !r.help
  {
    FoldApplyWords(d, ForwardHead(repo, a) + ForwardFlags(a));
    ForwardMembers(repo, a);
  }

  /** apply-rules, started as `process.execPath` with the forwarded list,
      reads back the repository, the rules only when they were set, and
      the two flags; never a help request. */
  lemma ForwardRoundTrip(execPath: string, applyScript: string, repo: string, a: ApplyArgs, cwd: string)
    ensures ParseApply([execPath] + ForwardArgs(applyScript, repo, a), cwd)
            == ApplyArgs(Some(repo), if RulesSet(a.rules) then a.rules else None, a.force, a.dryRun, false)
  {
    ForwardItems(execPath, applyScript, repo, a);
    var d := ApplyDefaults(cwd);
    ForwardValues(repo, a, d);
    ForwardSwitches(repo, a, d);
  }

  /** The first index of `t` in `ts` (`indexOf`). */
  function IndexOf(ts: seq<string>, t: string): (r: Option<nat>)
    ensures r.None? <==> t !in ts
    ensures r.Some? ==> r.value < |ts| && ts[r.value] == t && t !in ts[..r.value]
    decreases |ts|
  {
    if |ts| == 0 then None
    else if ts[0] == t then Some(0)
    else match IndexOf(ts[1..], t)
      case None => None
      case Some(k) =>
        assert ts[..k + 1] == [ts[0]] + ts[1..][..k];
        Some(k + 1)
  }

  /** The tokens bootstrap forwards before adding a default repository. */
  function Forwarded(argv: seq<string>): seq<string> {
    match IndexOf(argv, "--")
    case Some(i) => argv[i + 1..]
    case None => Operands(argv)
  }

  /** `parseArgs(process.argv)` of tools/bootstrap.mjs. */
  function BootstrapArgs(argv: seq<string>, cwd: string): (r: seq<string>)
    ensures "--repo" in r
    ensures |Forwarded(argv)| <= |r| && r[..|Forwarded(argv)|] == Forwarded(argv)
    ensures "--repo" in Forwarded(argv) ==> r == Forwarded(argv)
    ensures "--repo" !in Forwarded(argv) ==> r == Forwarded(argv) + ["--repo", cwd]
  {
    var fwd := Forwarded(argv);
    if "--repo" in fwd then fwd else fwd + ["--repo", cwd]
  }

  /** The forwarded tokens follow the first `--` when there is one. */
  lemma ForwardedAfterSeparator(argv: seq<string>, i: nat)
    requires i < |argv| && argv[i] == "--" && "--" !in argv[..i]
    ensures Forwarded(argv) == argv[i + 1..]
  {
  }

  /** Every `--repo` value read from tokens whose only `--repo` is followed
      by `c` is `c`. */
  lemma {:induction false} LexRepoValues(ts: seq<string>, c: string)
    requires forall i :: 0 <= i < |ts| && ts[i] == "--repo" ==> i + 1 < |ts| && ts[i + 1] == c
    ensures forall it :: it in Lex(ts) && it.Value? && it.flag == "--repo" ==> it.value == Some(c)
    decreases |ts|
  {
    if |ts| > 0 {
      if TakesValue(ts[0]) && |ts| > 1 {
        assert forall i :: 0 <= i < |ts[2..]| ==> ts[2..][i] == ts[i + 2];
        LexRepoValues(ts[2..], c);
      } else if !TakesValue(ts[0]) {
        assert forall i :: 0 <= i < |ts[1..]| ==> ts[1..][i] == ts[i + 1];
        LexRepoValues(ts[1..], c);
      }
    }
  }

  /** When every `--repo` item carries `c`, the last one does too. */
  lemma LastRepoIs(items: seq<Item>, c: string)
    requires forall it :: it in items && it.Value? && it.flag == "--repo" ==> it.value == Some(c)
    ensures LastValue(items, "--repo", Some(c)) == Some(c)
  {
    LastValueIsLast(items, "--repo", Some(c));
    forall i | 0 <= i < |items|
      ensures items[i] in items
    {
    }
  }

  /** Appending `--repo c` to tokens without a `--repo` leaves `c` as the
      only token after any `--repo`. */
  lemma AppendedRepoFollowed(fwd: seq<string>, c: string)
    requires "--repo" !in fwd && c != "--repo"
    ensures var ts := fwd + ["--repo", c];
      forall i :: 0 <= i < |ts| && ts[i] == "--repo" ==> i + 1 < |ts| && ts[i + 1] == c
  {
    var ts := fwd + ["--repo", c];
    forall j | 0 <= j < |fwd|
      ensures ts[j] != "--repo"
    {
      assert fwd[j] in fwd;
    }
  }

  /** Without a forwarded `--repo`, install-to-repo (started in the same
      working directory) works on that directory, even when the appended
      `--repo` is swallowed as the value of a dangling `--rules`. */
  lemma BootstrapRepoDefault(argv: seq<string>, cwd: string, node: string, install: string)
    requires "--repo" !in Forwarded(argv)
    requires cwd != "--repo"
    ensures ParseInstall([node, install] + BootstrapArgs(argv, cwd), cwd).common.repo == Some(cwd)
  {
    var fwd := Forwarded(argv);
    var ts := fwd + ["--repo", cwd];
    var full := [node, install] + BootstrapArgs(argv, cwd);
    assert BootstrapArgs(argv, cwd) == ts;
    assert Operands(full) == ts by { assert full[2..] == ts; }
    AppendedRepoFollowed(fwd, cwd);
    LexRepoValues(ts, cwd);
    LastRepoIs(Lex(ts), cwd);
    ParseInstallShared(full, cwd);
    FoldApplyValues(ApplyDefaults(cwd), Lex(ts));
  }
}

=== FILE: bootstrap.dfy ===
/** The pure parts of tools/bootstrap.mjs: which files of the bundle's
    tree listing are downloaded, and how each downloaded text is cleaned
    up before it is written. */
module Bootstrap {
  import opened Wrappers
  import opened Json
  import opened Strings

  /** `isNeeded(p)`: the two scripts the installer runs and everything
      under shared/, templates/ and rulesets/. */
  predicate IsNeeded(p: string) {
    if p == "tools/apply-rules.mjs" then true
    else if p == "tools/install-to-repo.mjs" then true
    else if StartsWith(p, "shared/") then true
    else if StartsWith(p, "templates/") then true
    else if StartsWith(p, "rulesets/") then true
    else false
  }

  /** The allow-list read as the folder each needed path belongs to: a
      path is needed exactly when it is one of the two installer scripts or
      its first segment is shared, templates or rulesets (with something,
      possibly nothing, after the slash). */
  lemma IsNeededIff(p: string)
    ensures IsNeeded(p) <==>
      || p in {"tools/apply-rules.mjs", "tools/install-to-repo.mjs"}
      || exists dir, rest :: dir in {"shared", "templates", "rulesets"} && p == dir + "/" + rest
  {
    if StartsWith(p, "shared/") {
      assert p == "shared" + "/" + p[7..];
    } else if StartsWith(p, "templates/") {
      assert p == "templates" + "/" + p[10..];
    } else if StartsWith(p, "rulesets/") {
      assert p == "rulesets" + "/" + p[9..];
    }
    forall dir, rest | dir in {"shared", "templates", "rulesets"} && p == dir + "/" + rest
      ensures IsNeeded(p)
    {
      assert StartsWith(p, dir + "/") by {
        assert p[..|dir + "/"|] == dir + "/";
      }
    }
  }

  /** The bootstrap script itself, the docs and the tests are not
      downloaded. */
  lemma NotNeededExamples()
    ensures !IsNeeded("tools/bootstrap.mjs")
    ensures !IsNeeded("README.md")
    ensures IsNeeded("rulesets/go/PROJECT_RULES.md")
  {
    assert "tools/bootstrap.mjs"[..7][0] != "shared/"[0];
    assert "tools/bootstrap.mjs"[..10][1] != "templates/"[1];
    assert "tools/bootstrap.mjs"[..9] != "rulesets/";
    assert "README.md"[..7] != "shared/";
    assert "README.md"[..9] != "rulesets/";
    assert "rulesets/go/PROJECT_RULES.md"[..9] == "rulesets/";
  }

  /** One entry of the tree listing counts as a file path when its `type`
      is "blob" and its `path` a string. */
  function BlobPath(x: Json): Option<string> {
    match (Prop(x, "type"), Prop(x, "path"))
    case (Some(JStr("blob")), Some(JStr(p))) => Some(p)
    case _ => None
  }

  /** The two filters and the map over `tree.tree`, in listing order. */
  function Needed(items: seq<Json>): (files: seq<string>)
    ensures forall i :: 0 <= i < |files| ==> IsNeeded(files[i])
    ensures |files| <= |items|
    decreases |items|
  {
    if |items| == 0 then []
    else
      var rest := Needed(items[1..]);
      match BlobPath(items[0])
      case Some(p) => if IsNeeded(p) then [p] + rest else rest
      case None => rest
  }

  /** Every selected path comes from a needed blob entry, and every needed
      blob entry is selected. */
  lemma {:induction false} NeededComplete(items: seq<Json>)
    ensures forall p :: p in Needed(items) <==>
      exists i :: 0 <= i < |items| && BlobPath(items[i]) == Some(p) && IsNeeded(p)
    decreases |items|
  {
    if |items| > 0 {
      NeededComplete(items[1..]);
      forall p | (exists i :: 0 <= i < |items| && BlobPath(items[i]) == Some(p) && IsNeeded(p))
        ensures p in Needed(items)
      {
        var i :| 0 <= i < |items| && BlobPath(items[i]) == Some(p) && IsNeeded(p);
        if i > 0 {
          assert items[1..][i - 1] == items[i];
        }
      }
      forall p | p in Needed(items)
        ensures exists i :: 0 <= i < |items| && BlobPath(items[i]) == Some(p) && IsNeeded(p)
      {
        if p !in Needed(items[1..]) {
          assert BlobPath(items[0]) == Some(p) && IsNeeded(p);
        } else {
          var i :| 0 <= i < |items[1..]| && BlobPath(items[1..][i]) == Some(p) && IsNeeded(p);
          assert items[i + 1] == items[1..][i];
        }
      }
    }
  }

  /** Why the selection stops the bootstrap. */
  datatype SelectError =
    | UnexpectedTree   // `tree.tree` missing or not an array
    | NullEntry        // `x.type` on a `null` entry throws
    | NothingSelected  // no file passed the filters

  /** Lines 109-120: the listing must be an array; a `null` entry makes the
      filter throw; an empty selection is an error. */
  function SelectFiles(tree: Json): (r: Result<seq<string>, SelectError>)
    ensures r.Success? ==> |r.value| > 0 && forall i :: 0 <= i < |r.value| ==> IsNeeded(r.value[i])
    ensures r.Failure? && r.error == UnexpectedTree <==> !(Prop(tree, "tree").Some? && Prop(tree, "tree").value.JArr?)
    ensures r.Success? ==> r.value == Needed(Prop(tree, "tree").value.items)
    ensures Prop(tree, "tree").Some? && Prop(tree, "tree").value.JArr? ==>
              var items := Prop(tree, "tree").value.items;
              && (r.Failure? && r.error == NullEntry <==> exists i :: 0 <= i < |items| && items[i].JNull?)
              && (r.Success? <==> (forall i :: 0 <= i < |items| ==> !items[i].JNull?) && |Needed(items)| > 0)
  {
    match Prop(tree, "tree")
    case Some(JArr(items)) =>
      if exists i :: 0 <= i < |items| && items[i].JNull? then Failure(NullEntry)
      else
        var files := Needed(items);
        if |files| == 0 then Failure(NothingSelected) else Success(files)
    case _ => Failure(UnexpectedTree)
  }

  /** A listing with a needed blob and no `null` entry always selects,
      whatever other keys the response carries. */
  lemma SelectsNeededBlob(tree: Json, items: seq<Json>, i: nat, p: string)
    requires Prop(tree, "tree") == Some(JArr(items))
    requires i < |items| && BlobPath(items[i]) == Some(p) && IsNeeded(p)
    requires forall j :: 0 <= j < |items| ==> !items[j].JNull?
    ensures var r := SelectFiles(tree);
      r.Success? && p in r.value
  {
    NeededComplete(items);
  }

  /** The selection succeeds exactly when no entry is `null` and some entry
      is a blob whose path is needed. */
  lemma SelectSucceedsIff(tree: Json, items: seq<Json>)
    requires Prop(tree, "tree") == Some(JArr(items))
    ensures SelectFiles(tree).Success? <==>
      && (forall j :: 0 <= j < |items| ==> !items[j].JNull?)
      && exists i, p :: 0 <= i < |items| && BlobPath(items[i]) == Some(p) && IsNeeded(p)
  {
    NeededComplete(items);
    if |Needed(items)| > 0 {
      assert Needed(items)[0] in Needed(items);
    }
  }

  // ---------------------------------------------------------------
  // The content normaliser of `writeFile(dest, content)`.
  // ---------------------------------------------------------------

  const Bom: char := 0xFEFF as char

  /** A single leading byte-order mark is removed. */
  function StripBom(content: string): (r: string)
    ensures |content| > 0 && content[0] == Bom ==> r == content[1..]
    ensures !(|content| > 0 && content[0] == Bom) ==> r == content
  {
    if |content| > 0 && content[0] == Bom then content[1..] else content
  }

  /** `/^\s*#!\//.test(content)`: `\s*` can only stop before the first
      non-space character, so the test asks whether "#!/" follows the
      leading whitespace. */
  predicate ShebangAfterSpace(content: string) {
    StartsWith(content[LeadingSpace(content)..], "#!/")
  }

  /** A shebang preceded by whitespace is moved to the start by dropping
      all leading whitespace (`replace(/^\s+/, "")`). */
  function ShebangOffset(content: string): (r: string)
  {
    if ShebangAfterSpace(content) && !StartsWith(content, "#!") then content[LeadingSpace(content)..]
    else content
  }

  /** After this step, a text whose first non-space characters are "#!/"
      starts with "#!/"; any other text is unchanged. */
  lemma ShebangOffsetSpec(content: string)
    ensures ShebangAfterSpace(content) ==> StartsWith(ShebangOffset(content), "#!/")
    ensures !ShebangAfterSpace(content) ==> ShebangOffset(content) == content
    ensures ShebangOffset(content) == content || ShebangOffset(content) == content[LeadingSpace(content)..]
  {
    if ShebangAfterSpace(content) && StartsWith(content, "#!") {
      assert LeadingSpace(content) == 0 by {
        assert content[0] == '#';
      }
    }
  }

  /** Moving the shebang twice is moving it once. */
  lemma ShebangOffsetIdempotent(content: string)
    ensures ShebangOffset(ShebangOffset(content)) == ShebangOffset(content)
  {
    ShebangOffsetSpec(content);
    var once := ShebangOffset(content);
    if ShebangAfterSpace(content) {
      assert once[..2] == "#!";
    }
  }

  /** The guard of the stray-prefix step: a backslash line before "#!". */
  predicate StrayGuard(content: string) {
    StartsWith(content, "\\\n#!") || StartsWith(content, "\\\r\n#!")
  }

  /** How many leading characters `/^\\\\\r?\n/` matches: two
      backslashes, an optional carriage return, then a line feed. */
  function DoubleBackslashMatch(content: string): Option<nat> {
    if StartsWith(content, "\\\\\n") then Some(3)
    else if StartsWith(content, "\\\\\r\n") then Some(4)
    else None
  }

  /** The stray-prefix step as written: the guard tests for one backslash
      but the replacement looks for two. */
  function StrayPrefix(content: string): string {
    if StrayGuard(content) then
      match DoubleBackslashMatch(content)
      case Some(n) => if n <= |content| then content[n..] else content
      case None => content
    else content
  }

  /** As written, the stray-prefix step never changes the text: when the
      guard holds, the second character is a line break, not the second
      backslash the pattern needs. */
  lemma StrayPrefixNoOp(content: string)
    ensures StrayPrefix(content) == content
  {
    if StrayGuard(content) {
      assert content[1] == '\n' || content[1] == '\r';
      assert DoubleBackslashMatch(content).None? by {
        assert !StartsWith(content, "\\\\\n") by { assert content[1] != "\\\\\n"[1]; }
        assert !StartsWith(content, "\\\\\r\n") by { assert content[1] != "\\\\\r\n"[1]; }
      }
    }
  }

  /** How many leading characters `/^\\\r?\n/` matches: one backslash, an
      optional carriage return, then a line feed. */
  function BackslashLineMatch(content: string): Option<nat> {
    if StartsWith(content, "\\\n") then Some(2)
    else if StartsWith(content, "\\\r\n") then Some(3)
    else None
  }

  /** The stray-prefix step as evidently intended: the backslash line the
      guard found is removed. */
  function StrayPrefixFixed(content: string): string {
    if StrayGuard(content) then
      match BackslashLineMatch(content)
      case Some(n) => if n <= |content| then content[n..] else content
      case None => content
    else content
  }

  /** The corrected step leaves the shebang at the start; text without the
      stray line is untouched. */
  lemma StrayPrefixFixedSpec(content: string)
    ensures StrayGuard(content) ==> StartsWith(StrayPrefixFixed(content), "#!")
    ensures StrayGuard(content) ==>
      StrayPrefixFixed(content) == content[if content[1] == '\n' then 2 else 3..]
    ensures !StrayGuard(content) ==> StrayPrefixFixed(content) == content
  {
    if StartsWith(content, "\\\n#!") {
      assert content[..2] == "\\\n";
      assert content[2..][..2] == content[2..4];
    } else if StartsWith(content, "\\\r\n#!") {
      assert content[..2] != "\\\n" by { assert content[1] == '\r'; }
      assert content[..3] == "\\\r\n";
      assert content[3..][..2] == content[3..5];
    }
  }

  /** `writeFile`'s clean-up as written: BOM, then shebang offset, then the
      stray-prefix step. */
  function Normalize(content: string): (r: string)
    ensures r == ShebangOffset(StripBom(content))
  {
    StrayPrefixNoOp(ShebangOffset(StripBom(content)));
    StrayPrefix(ShebangOffset(StripBom(content)))
  }

  /** The clean-up with the stray-prefix step corrected. */
  function NormalizeFixed(content: string): string {
    StrayPrefixFixed(ShebangOffset(StripBom(content)))
  }

  /** Text that starts with neither whitespace (a BOM counts as one) nor a
      backslash passes through either clean-up unchanged. */
  lemma PlainTextUnchanged(content: string)
    requires |content| > 0 && !IsJsSpace(content[0]) && content[0] != '\\'
    ensures Normalize(content) == content
    ensures NormalizeFixed(content) == content
  {
    assert content[0] != Bom;
    assert LeadingSpace(content) == 0;
    assert !StrayGuard(content);
  }

  /** A BOM in front of a shebang is removed and the shebang kept. */
  lemma BomBeforeShebang(rest: string)
    requires StartsWith(rest, "#!/")
    ensures Normalize([Bom] + rest) == rest
  {
    var c := [Bom] + rest;
    assert StripBom(c) == rest;
    assert LeadingSpace(rest) == 0 by { assert rest[0] == '#'; }
    assert rest[..2] == "#!";
  }

  /** The text that shows the stray-prefix step does nothing: a backslash
      line before a shebang survives the clean-up as written, while the
      corrected step removes it. */
  lemma StrayBackslashSurvives(script: string)
    requires StartsWith(script, "#!/")
    ensures Normalize("\\\n" + script) == "\\\n" + script
    ensures NormalizeFixed("\\\n" + script) == script
  {
    var c := "\\\n" + script;
    assert StripBom(c) == c by { assert c[0] == '\\'; }
    assert LeadingSpace(c) == 0 by { assert c[0] == '\\'; }
    assert !ShebangAfterSpace(c) by { assert c[0] != '#'; }
    assert c[..4] == "\\\n#!" by { assert script[..2] == "#!"; }
    StrayPrefixFixedSpec(c);
    assert c[2..] == script;
  }
}

=== FILE: detect.dfy ===
/** Ruleset detection (`detectRuleset` and `walkHasExt` in
    tools/apply-rules.mjs) over an abstract directory tree. */
module Detect {
  import opened Wrappers
  import opened Strings

  /** A directory entry: a file, or a directory with its entries. */
  datatype Entry = File(name: string) | Dir(name: string, entries: seq<Entry>)

  /** Directory names the extension search never enters (and file names it
      never inspects). */
  predicate Skipped(name: string) {
    name == "node_modules" || name == ".git" || name == ".venv"
  }

  /** `walk(dir, depth)`: the entries `items` of a directory at `depth` hold a
      file ending in `ext`, looking no deeper than `maxDepth`. */
  predicate Walk(items: seq<Entry>, ext: string, depth: nat, maxDepth: nat)
    decreases items
  {
    if depth > maxDepth || |items| == 0 then false
    else
      var it := items[0];
      var here := !Skipped(it.name) &&
        match it
        case File(name) => EndsWith(name, ext)
        case Dir(_, entries) => Walk(entries, ext, depth + 1, maxDepth);
      here || Walk(items[1..], ext, depth, maxDepth)
  }

  /** `walkHasExt(root, ext, maxDepth)`. */
  predicate WalkHasExt(root: seq<Entry>, ext: string, maxDepth: nat) {
    Walk(root, ext, 0, maxDepth)
  }

  /** Reference reading of the search: `path` names, from the entries
      `items`, a chain of directories ending in a file, none of them
      skipped. */
  ghost predicate Reaches(items: seq<Entry>, path: seq<string>)
    decreases items
  {
    && |path| >= 1
    && !Skipped(path[0])
    && exists i :: 0 <= i < |items| && items[i].name == path[0] &&
         match items[i]
         case File(_) => |path| == 1
         case Dir(_, entries) => |path| > 1 && Reaches(entries, path[1..])
  }

  /** A file the search can find from `depth`: reachable, not too deep, and
      named with the extension. */
  ghost predicate Found(items: seq<Entry>, path: seq<string>, ext: string, depth: nat, maxDepth: nat) {
    Reaches(items, path) && depth + |path| <= maxDepth + 1 && EndsWith(path[|path| - 1], ext)
  }

  lemma {:induction false} WalkFinds(items: seq<Entry>, ext: string, depth: nat, maxDepth: nat)
    requires Walk(items, ext, depth, maxDepth)
    ensures exists path :: Found(items, path, ext, depth, maxDepth)
    decreases items
  {
    var it := items[0];
    if !Skipped(it.name) && it.File? && EndsWith(it.name, ext) {
      assert Found(items, [it.name], ext, depth, maxDepth) by {
        assert items[0].name == [it.name][0];
      }
    } else if !Skipped(it.name) && it.Dir? && Walk(it.entries, ext, depth + 1, maxDepth) {
      WalkFinds(it.entries, ext, depth + 1, maxDepth);
      var p :| Found(it.entries, p, ext, depth + 1, maxDepth);
      var path := [it.name] + p;
      assert path[1..] == p;
      assert Found(items, path, ext, depth, maxDepth) by {
        assert items[0].name == path[0];
      }
    } else {
      WalkFinds(items[1..], ext, depth, maxDepth);
      var p :| Found(items[1..], p, ext, depth, maxDepth);
      var i :| 0 <= i < |items[1..]| && items[1..][i].name == p[0] &&
        match items[1..][i]
        case File(_) => |p| == 1
        case Dir(_, entries) => |p| > 1 && Reaches(entries, p[1..]);
      assert items[i + 1] == items[1..][i];
      assert Found(items, p, ext, depth, maxDepth);
    }
  }

  lemma {:induction false} FoundWalks(items: seq<Entry>, path: seq<string>, ext: string, depth: nat, maxDepth: nat)
    requires Found(items, path, ext, depth, maxDepth)
    ensures Walk(items, ext, depth, maxDepth)
    decreases items
  {
    var i :| 0 <= i < |items| && items[i].name == path[0] &&
      match items[i]
      case File(_) => |path| == 1
      case Dir(_, entries) => |path| > 1 && Reaches(entries, path[1..]);
    if i == 0 {
      if items[0].Dir? {
        assert path[1..][|path[1..]| - 1] == path[|path| - 1];
        FoundWalks(items[0].entries, path[1..], ext, depth + 1, maxDepth);
      }
    } else {
      assert items[1..][i - 1] == items[i];
      FoundWalks(items[1..], path, ext, depth, maxDepth);
    }
  }

  /** The search succeeds exactly when a file with the extension is
      reachable through non-skipped entries within `maxDepth` directory
      levels below the root. */
  lemma WalkHasExtIff(root: seq<Entry>, ext: string, maxDepth: nat)
    ensures WalkHasExt(root, ext, maxDepth) <==> exists path :: Found(root, path, ext, 0, maxDepth)
  {
    if WalkHasExt(root, ext, maxDepth) {
      WalkFinds(root, ext, 0, maxDepth);
    }
    if exists path :: Found(root, path, ext, 0, maxDepth) {
      var path :| Found(root, path, ext, 0, maxDepth);
      FoundWalks(root, path, ext, 0, maxDepth);
    }
  }

  /** Adding a skipped directory, whatever it holds, never changes the
      search. */
  lemma {:induction false} WalkIgnoresSkipped(items: seq<Entry>, name: string, inside: seq<Entry>, ext: string, depth: nat, maxDepth: nat)
    requires Skipped(name)
    ensures Walk([Dir(name, inside)] + items, ext, depth, maxDepth) == Walk(items, ext, depth, maxDepth)
  {
    var all := [Dir(name, inside)] + items;
    assert all[1..] == items;
  }

  /** `has(rel)`: an entry of that name exists at the repository root. */
  predicate Has(root: seq<Entry>, name: string) {
    exists i :: 0 <= i < |root| && root[i].name == name
  }

  /** Some root entry name ends with `suffix` (`safeReaddir(repo).some(...)`). */
  predicate SomeEndsWith(root: seq<Entry>, suffix: string) {
    exists i :: 0 <= i < |root| && EndsWith(root[i].name, suffix)
  }

  predicate IsGo(root: seq<Entry>) {
    Has(root, "go.mod")
  }

  predicate IsDotnet(root: seq<Entry>) {
    SomeEndsWith(root, ".sln") || SomeEndsWith(root, ".csproj")
  }

  predicate IsSwift(root: seq<Entry>) {
    Has(root, "Package.swift") || SomeEndsWith(root, ".xcodeproj") || WalkHasExt(root, ".swift", 2)
  }

  predicate IsNode(root: seq<Entry>) {
    Has(root, "package.json")
  }

  predicate IsTypeScript(root: seq<Entry>) {
    Has(root, "tsconfig.json") || WalkHasExt(root, ".ts", 2) || WalkHasExt(root, ".tsx", 2)
  }

  predicate IsPython(root: seq<Entry>) {
    Has(root, "pyproject.toml") || Has(root, "requirements.txt") || Has(root, "poetry.lock")
  }

  /** The ruleset names the chain can produce. */
  const Detectable: set<string> := {"go", "dotnet", "swift", "node-ts", "node-js", "python-fastapi"}

  /** `detectRuleset(repo)`: the first marker in priority order decides. */
  function DetectRuleset(root: seq<Entry>): (r: Option<string>)
    ensures r.Some? ==> r.value in Detectable
    ensures r == Some("go") <==> IsGo(root)
    ensures r == Some("dotnet") <==> !IsGo(root) && IsDotnet(root)
    ensures r == Some("swift") <==> !IsGo(root) && !IsDotnet(root) && IsSwift(root)
    ensures r == Some("node-ts") <==> !IsGo(root) && !IsDotnet(root) && !IsSwift(root) && IsNode(root) && IsTypeScript(root)
    ensures r == Some("node-js") <==> !IsGo(root) && !IsDotnet(root) && !IsSwift(root) && IsNode(root) && !IsTypeScript(root)
    ensures r == Some("python-fastapi") <==> !IsGo(root) && !IsDotnet(root) && !IsSwift(root) && !IsNode(root) && IsPython(root)
    ensures r.None? <==> !IsGo(root) && !IsDotnet(root) && !IsSwift(root) && !IsNode(root) && !IsPython(root)
  {
    if IsGo(root) then Some("go")
    else if IsDotnet(root) then Some("dotnet")
    else if IsSwift(root) then Some("swift")
    else if IsNode(root) then (if IsTypeScript(root) then Some("node-ts") else Some("node-js"))
    else if IsPython(root) then Some("python-fastapi")
    else None
  }

  /** A Swift source within two directory levels makes a Node repository a
      Swift one, unless a Go or .NET marker comes first. */
  lemma SwiftSourceBeatsNode(root: seq<Entry>, path: seq<string>)
    requires !IsGo(root) && !IsDotnet(root)
    requires Found(root, path, ".swift", 0, 2)
    ensures DetectRuleset(root) == Some("swift")
  {
    WalkHasExtIff(root, ".swift", 2);
  }

  lemma HasPrepend(root: seq<Entry>, e: Entry, name: string)
    requires e.name != name
    ensures Has([e] + root, name) == Has(root, name)
  {
    var all := [e] + root;
    assert forall i :: 0 <= i < |root| ==> all[i + 1] == root[i];
    if Has(all, name) {
      var i :| 0 <= i < |all| && all[i].name == name;
      assert root[i - 1].name == name;
    }
  }

  lemma SomeEndsWithPrepend(root: seq<Entry>, e: Entry, suffix: string)
    requires !EndsWith(e.name, suffix)
    ensures SomeEndsWith([e] + root, suffix) == SomeEndsWith(root, suffix)
  {
    var all := [e] + root;
    assert forall i :: 0 <= i < |root| ==> all[i + 1] == root[i];
    if SomeEndsWith(all, suffix) {
      var i :| 0 <= i < |all| && EndsWith(all[i].name, suffix);
      assert EndsWith(root[i - 1].name, suffix);
    }
  }

  /** Whatever a `node_modules` directory at the root holds, detection
      decides as if it were absent. */
  lemma NodeModulesIgnored(root: seq<Entry>, inside: seq<Entry>)
    ensures DetectRuleset([Dir("node_modules", inside)] + root) == DetectRuleset(root)
  {
    var all := [Dir("node_modules", inside)] + root;
    NodeModulesMarkers(root, inside);
    WalkIgnoresSkipped(root, "node_modules", inside, ".swift", 0, 2);
    WalkIgnoresSkipped(root, "node_modules", inside, ".ts", 0, 2);
    WalkIgnoresSkipped(root, "node_modules", inside, ".tsx", 0, 2);
    SameSignals(all, root);
  }

  /** A `node_modules` directory is none of the marker files or project
      directories looked for at the root. */
  lemma NodeModulesMarkers(root: seq<Entry>, inside: seq<Entry>)
    ensures var all := [Dir("node_modules", inside)] + root;
      && IsGo(all) == IsGo(root)
      && IsDotnet(all) == IsDotnet(root)
      && IsNode(all) == IsNode(root)
      && IsPython(all) == IsPython(root)
      && Has(all, "Package.swift") == Has(root, "Package.swift")
      && SomeEndsWith(all, ".xcodeproj") == SomeEndsWith(root, ".xcodeproj")
      && Has(all, "tsconfig.json") == Has(root, "tsconfig.json")
  {
    var e := Dir("node_modules", inside);
    HasPrepend(root, e, "go.mod");
    HasPrepend(root, e, "Package.swift");
    HasPrepend(root, e, "package.json");
    HasPrepend(root, e, "tsconfig.json");
    HasPrepend(root, e, "pyproject.toml");
    HasPrepend(root, e, "requirements.txt");
    HasPrepend(root, e, "poetry.lock");
    assert e.name[|e.name| - 1] == 's';
    SomeEndsWithPrepend(root, e, ".sln");
    SomeEndsWithPrepend(root, e, ".csproj");
    SomeEndsWithPrepend(root, e, ".xcodeproj");
  }

  /** Two roots that agree on every signal detect the same ruleset. */
  lemma SameSignals(a: seq<Entry>, b: seq<Entry>)
    requires IsGo(a) == IsGo(b) && IsDotnet(a) == IsDotnet(b) && IsSwift(a) == IsSwift(b)
    requires IsNode(a) == IsNode(b) && IsTypeScript(a) == IsTypeScript(b) && IsPython(a) == IsPython(b)
    ensures DetectRuleset(a) == DetectRuleset(b)
  {
  }
}

=== FILE: files.dfy ===
/** The file system the scripts read and write, as a map from absolute
    paths (sequences of path segments) to file contents. A directory exists
    when some file lies below it; empty directories are not represented. */
module Files {
  import opened Wrappers
  import opened Json

  type Path = seq<string>
  type FileSystem = map<Path, string>

  /** `p` is a proper ancestor of `q`. */
  predicate Below(p: Path, q: Path) {
    |p| < |q| && q[..|p|] == p
  }

  predicate IsDir(fs: FileSystem, p: Path) {
    exists q :: q in fs && Below(p, q)
  }

  /** `exists(p)` (`fs.accessSync`): a file or a directory is there. */
  predicate Exists(fs: FileSystem, p: Path) {
    p in fs || IsDir(fs, p)
  }

  /** Some ancestor of `p` is a file, so `mkdir -p` of its directory fails. */
  predicate Blocked(fs: FileSystem, p: Path) {
    exists i :: 0 <= i < |p| && p[..i] in fs
  }

  /** No file lies below another file. */
  predicate WellFormed(fs: FileSystem) {
    forall p, q :: p in fs && q in fs ==> !Below(p, q)
  }

  /** `ensureDir(path.dirname(dest))` followed by a write of `dest`: fails
      when an ancestor is a file or `dest` is a directory. */
  function WriteFile(fs: FileSystem, dest: Path, content: string): (r: Result<FileSystem, Path>)
    ensures r.Success? <==> !Blocked(fs, dest) && !IsDir(fs, dest)
    ensures r.Success? ==> r.value == fs[dest := content]
    ensures r.Failure? ==> r.error == dest
  {
    if Blocked(fs, dest) || IsDir(fs, dest) then Failure(dest)
    else Success(fs[dest := content])
  }

  /** A successful write keeps the file system well formed. */
  lemma WriteKeepsWellFormed(fs: FileSystem, dest: Path, content: string)
    requires WellFormed(fs)
    requires WriteFile(fs, dest, content).Success?
    ensures WellFormed(WriteFile(fs, dest, content).value)
  {
    var out := fs[dest := content];
    forall p, q | p in out && q in out
      ensures !Below(p, q)
    {
      if p == dest && q != dest {
        assert q in fs;
        assert Below(p, q) ==> IsDir(fs, dest);
      } else if q == dest && p != dest {
        assert p in fs;
        assert |p| < |dest| ==> dest[..|p|] !in fs;
      }
    }
  }

  /** Every file of `a` is in `b` with the same contents. */
  predicate Keeps(a: FileSystem, b: FileSystem) {
    forall p :: p in a ==> p in b && b[p] == a[p]
  }

  /** Every file of `a` is in `b` unchanged, except that `grow` may have
      gained text at its end. */
  predicate KeepsGrowing(a: FileSystem, b: FileSystem, grow: Path) {
    forall p :: p in a ==> p in b && (if p == grow then |a[p]| <= |b[p]| && b[p][..|a[p]|] == a[p] else b[p] == a[p])
  }

  lemma KeepsTrans(a: FileSystem, b: FileSystem, c: FileSystem)
    requires Keeps(a, b) && Keeps(b, c)
    ensures Keeps(a, c)
  {
  }

  lemma KeepsGrowingTrans(a: FileSystem, b: FileSystem, c: FileSystem, grow: Path)
    requires KeepsGrowing(a, b, grow) && KeepsGrowing(b, c, grow)
    ensures KeepsGrowing(a, c, grow)
  {
    forall p | p in a && p == grow
      ensures |a[p]| <= |c[p]| && c[p][..|a[p]|] == a[p]
    {
      assert c[p][..|b[p]|] == b[p];
      assert c[p][..|a[p]|] == c[p][..|b[p]|][..|a[p]|];
    }
  }

  /** `p` is `dir` or lies below it. */
  predicate Within(dir: Path, p: Path) {
    |dir| <= |p| && p[..|dir|] == dir
  }

  /** Neither path lies within the other. */
  predicate Apart(a: Path, b: Path) {
    !Within(a, b) && !Within(b, a)
  }

  /** Two paths that lie within one path are nested one way or the other. */
  lemma WithinComparable(a: Path, b: Path, p: Path)
    requires Within(a, p) && Within(b, p)
    ensures Within(a, b) || Within(b, a)
  {
    if |a| <= |b| {
      assert b[..|a|] == p[..|b|][..|a|];
    } else {
      assert a[..|b|] == p[..|a|][..|b|];
    }
  }

  /** Below two apart directories, no path is in both. */
  lemma ApartBelow(a: Path, b: Path, x: Path)
    requires Apart(a, b)
    ensures !Within(b, a + x)
  {
    assert Within(a, a + x) by { assert (a + x)[..|a|] == a; }
    if Within(b, a + x) {
      WithinComparable(a, b, a + x);
    }
  }

  /** `b` is `a` with the file `dest` written (created or replaced). */
  predicate ChangesAt(a: FileSystem, b: FileSystem, dest: Path) {
    dest in b && b == a[dest := b[dest]]
  }

  /** Outside `dir`, `a` and `b` hold the same files with the same
      contents. */
  predicate SameOutside(a: FileSystem, b: FileSystem, dir: Path) {
    && (forall p :: p in a && !Within(dir, p) ==> p in b && b[p] == a[p])
    && (forall p :: p in b && !Within(dir, p) ==> p in a)
  }

  lemma ChangesAtOutside(a: FileSystem, b: FileSystem, dest: Path, dir: Path)
    requires ChangesAt(a, b, dest) && Within(dir, dest)
    ensures SameOutside(a, b, dir)
  {
  }

  lemma SameOutsideTrans(a: FileSystem, b: FileSystem, c: FileSystem, dir: Path)
    requires SameOutside(a, b, dir) && SameOutside(b, c, dir)
    ensures SameOutside(a, c, dir)
  {
  }

  /** A step that leaves the file system alone or writes a file that did
      not exist keeps every file there was. */
  lemma KeepsOfNewFile(a: FileSystem, b: FileSystem, dest: Path)
    requires b == a || (ChangesAt(a, b, dest) && !Exists(a, dest))
    ensures Keeps(a, b)
  {
  }

  lemma KeepsGrowingOfKeeps(a: FileSystem, b: FileSystem, grow: Path)
    requires Keeps(a, b)
    ensures KeepsGrowing(a, b, grow)
  {
    if grow in a {
      assert b[grow][..|a[grow]|] == a[grow];
    }
  }

  /** A step that writes at most `dest`, inside `dir`, changes nothing
      outside `dir`. */
  lemma OutsideOfChange(a: FileSystem, b: FileSystem, dest: Path, dir: Path)
    requires b == a || ChangesAt(a, b, dest)
    requires Within(dir, dest)
    ensures SameOutside(a, b, dir)
  {
  }

  lemma WithinTrans(outer: Path, inner: Path, p: Path)
    requires Within(outer, inner) && Within(inner, p)
    ensures Within(outer, p)
  {
    assert p[..|outer|] == p[..|inner|][..|outer|];
  }

  lemma WidenOutside(a: FileSystem, b: FileSystem, inner: Path, outer: Path)
    requires SameOutside(a, b, inner) && Within(outer, inner)
    ensures SameOutside(a, b, outer)
  {
    forall p | !Within(outer, p)
      ensures !Within(inner, p)
    {
      if Within(inner, p) {
        WithinTrans(outer, inner, p);
      }
    }
  }

  /** `JSON.parse` and `JSON.stringify(obj, null, 2)` are not modelled
      textually: a run is given both as functions. */
  datatype Codec = Codec(parse: string -> Option<Json>, render: Json -> string)
}

=== FILE: install.dfy ===
/** tools/install-to-repo.mjs: run apply-rules.mjs on the repository, copy
    the Makefile and justfile helpers, and patch package.json scripts. */
module Install {
  import opened Wrappers
  import opened Json
  import opened Strings
  import opened Files
  import opened Detect
  import opened Args
  import opened Placement
  import opened PackageScripts
  import opened Shell

  function PackagePath(repo: Path): Path {
    repo + ["package.json"]
  }

  /** `patchPackageJsonScripts(repo, devrulesDir, force, dryRun)`. A missing
      package.json is left alone; one that cannot be read or parsed, or
      holds neither an object nor an array, is skipped as invalid; a patch
      that changes nothing writes nothing; otherwise the package is written
      back (or only reported on a dry run). Unlike apply-rules.mjs's
      `writeJSON`, this write has no exists/force gate. */
  function PatchPackageJson(run: Run, repo: Path, dir: string, codec: Codec, force: bool, dryRun: bool): (r: Run)
    ensures run.fault.Some? ==> r == run
    ensures dryRun ==> r.fs == run.fs
    ensures r.fs == run.fs || ChangesAt(run.fs, r.fs, PackagePath(repo))
    ensures r.fs != run.fs ==>
      && !dryRun
      && ReadJson(run.fs, PackagePath(repo), codec).Success?
      && var patched := PatchPackage(ReadJson(run.fs, PackagePath(repo), codec).value, dir, force);
         patched.Some? && patched.value.1
         && r.fs == run.fs[PackagePath(repo) := codec.render(patched.value.0) + "\n"]
  {
    var pkgPath := PackagePath(repo);
    if run.fault.Some? || !Exists(run.fs, pkgPath) then run
    else match ReadJson(run.fs, pkgPath, codec)
      case Failure(_) => Log(run, Skip, pkgPath)
      case Success(pkg) =>
        match PatchPackage(pkg, dir, force)
        case None => Log(run, Skip, pkgPath)
        case Some((out, changed)) =>
          if !changed then run
          else if dryRun then Log(run, DryRun, pkgPath)
          else Put(run, pkgPath, codec.render(out) + "\n", Write)
  }

  /** In a well-formed file system, a readable package.json whose patch
      reports a change is written back as the patched value. */
  lemma PatchWrites(run: Run, repo: Path, dir: string, codec: Codec, force: bool)
    requires run.fault.None? && WellFormed(run.fs)
    requires ReadJson(run.fs, PackagePath(repo), codec).Success?
    requires var patched := PatchPackage(ReadJson(run.fs, PackagePath(repo), codec).value, dir, force);
      patched.Some? && patched.value.1
    ensures var patched := PatchPackage(ReadJson(run.fs, PackagePath(repo), codec).value, dir, force);
      var r := PatchPackageJson(run, repo, dir, codec, force, false);
      r.fault.None? && r.fs == run.fs[PackagePath(repo) := codec.render(patched.value.0) + "\n"]
  {
    var p := PackagePath(repo);
    assert !Blocked(run.fs, p) by {
      forall i | 0 <= i < |p| ensures p[..i] !in run.fs {
        assert Below(p[..i], p);
      }
    }
    assert !IsDir(run.fs, p) by {
      forall q | q in run.fs ensures !Below(p, q) {
      }
    }
  }

  /** When the codec reads back what it writes, a second patch right after
      one that wrote an object-scripts package changes nothing. */
  lemma PatchRerunWritesNothing(run: Run, repo: Path, dir: string, codec: Codec, force: bool, dryRun: bool)
    requires var r := PatchPackageJson(run, repo, dir, codec, force, dryRun);
      r.fs != run.fs
    requires var pkg := ReadJson(run.fs, PackagePath(repo), codec).value;
      var out := PatchPackage(pkg, dir, force).value.0;
      codec.parse(codec.render(out) + "\n") == Some(out)
      && out.JObj? && "scripts" in out.fields && out.fields["scripts"].JObj?
    ensures var r := PatchPackageJson(run, repo, dir, codec, force, dryRun);
      PatchPackageJson(r, repo, dir, codec, force, dryRun).fs == r.fs
  {
    var r := PatchPackageJson(run, repo, dir, codec, force, dryRun);
    var pkg := ReadJson(run.fs, PackagePath(repo), codec).value;
    PatchRerunNoChange(pkg, dir, force);
  }

  /** An array under `scripts` makes every non-dry run rewrite package.json,
      with the same value each time. */
  lemma ArrayScriptsRewriteEveryRun(run: Run, repo: Path, dir: string, codec: Codec, force: bool, items: seq<Json>)
    requires run.fault.None? && WellFormed(run.fs)
    requires PackagePath(repo) in run.fs
    requires codec.parse(run.fs[PackagePath(repo)]) == Some(JObj(map["scripts" := JArr(items)]))
    ensures var r := PatchPackageJson(run, repo, dir, codec, force, false);
      r.fault.None? && r.log == run.log + [Event(Write, PackagePath(repo))]
      && r.fs == run.fs[PackagePath(repo) := codec.render(JObj(map["scripts" := JArr(items)])) + "\n"]
  {
    ArrayScriptsAlwaysRewritten(items, dir, force);
    PatchWrites(run, repo, dir, codec, force);
  }

  /** The bundle's apply-rules.mjs. */
  function ApplyScriptPath(root: Path): Path {
    root + ["tools", "apply-rules.mjs"]
  }

  /** What the installer runs in: the bundle root as a path and as the
      text `devrulesRoot`, `process.execPath`, the working directory, the
      repository as a directory tree for detection, the template listing
      and the JSON codec. */
  datatype Env = Env(root: Path, rootText: string, execPath: string, cwd: string,
                     tree: seq<Entry>, listing: seq<Path>, codec: Codec)

  /** `[process.execPath, ...cmdArgs]`, the command line of the child. */
  function ChildArgv(env: Env, repoText: string, a: ApplyArgs): seq<string> {
    [env.execPath] + ForwardArgs(env.rootText + "/tools/apply-rules.mjs", repoText, a)
  }

  /** The child apply-rules.mjs sees the installer's repository, `--rules`
      when one was given, and the same `--force` and `--dry-run`. */
  lemma ChildArgs(env: Env, repoText: string, a: ApplyArgs)
    ensures ParseApply(ChildArgv(env, repoText, a), env.cwd)
      == ApplyArgs(Some(repoText), if RulesSet(a.rules) then a.rules else None, a.force, a.dryRun, false)
  {
    ForwardRoundTrip(env.execPath, env.rootText + "/tools/apply-rules.mjs", repoText, a, env.cwd);
  }

  /** The helper templates copied after the rules, when switched on. */
  function Helpers(run: Run, env: Env, repo: Path, args: InstallArgs): (r: Run)
    ensures run.fault.Some? ==> r == run
    ensures args.common.dryRun ==> r.fs == run.fs
    ensures !args.common.force ==> Keeps(run.fs, r.fs)
    ensures SameOutside(run.fs, r.fs, repo)
  {
    var a := args.common;
    var r1 := if args.withMakefile then CopyFile(run, env.root + ["templates", "Makefile"], repo + ["Makefile"], a.force, a.dryRun) else run;
    var r2 := if args.withJustfile then CopyFile(r1, env.root + ["templates", "justfile"], repo + ["justfile"], a.force, a.dryRun) else r1;
    HelperSteps(run, r1, r2, env, repo, args);
    r2
  }

  lemma HelperSteps(run: Run, r1: Run, r2: Run, env: Env, repo: Path, args: InstallArgs)
    requires r1 == if args.withMakefile then CopyFile(run, env.root + ["templates", "Makefile"], repo + ["Makefile"], args.common.force, args.common.dryRun) else run
    requires r2 == if args.withJustfile then CopyFile(r1, env.root + ["templates", "justfile"], repo + ["justfile"], args.common.force, args.common.dryRun) else r1
    ensures !args.common.force ==> Keeps(run.fs, r2.fs)
    ensures SameOutside(run.fs, r2.fs, repo)
  {
    InRepo(repo, ["Makefile"]);
    InRepo(repo, ["justfile"]);
    OutsideOfChange(run.fs, r1.fs, repo + ["Makefile"], repo);
    OutsideOfChange(r1.fs, r2.fs, repo + ["justfile"], repo);
    SameOutsideTrans(run.fs, r1.fs, r2.fs, repo);
    if !args.common.force {
      KeepsOfNewFile(run.fs, r1.fs, repo + ["Makefile"]);
      KeepsOfNewFile(r1.fs, r2.fs, repo + ["justfile"]);
      KeepsTrans(run.fs, r1.fs, r2.fs);
    }
  }

  /** The child apply-rules.mjs run, on the installer's file system. */
  function ChildRun(fs: FileSystem, env: Env, a: ApplyArgs, repo: Path, repoText: string): Run {
    ApplyRules(fs, env.root, repo, ParseApply(ChildArgv(env, repoText, a), env.cwd), env.tree, env.listing, env.codec)
  }

  /** `main()` of tools/install-to-repo.mjs. `repo` and `repoText` are
      `path.resolve(args.repo)` as a path and as text; a failing child run
      ends the installation with its fault. */
  function InstallToRepo(fs: FileSystem, env: Env, args: InstallArgs, repo: Path, repoText: string): (r: Run)
    ensures args.common.help ==> r == Run(fs, [], None)
    ensures !args.common.help && args.common.repo.None? ==> r == Run(fs, [], Some(NoRepo))
    ensures !args.common.help && args.common.repo.Some? && !Exists(fs, ApplyScriptPath(env.root)) ==>
              r == Run(fs, [], Some(NoApplyScript))
    ensures !args.common.help && args.common.repo.Some? && Exists(fs, ApplyScriptPath(env.root))
            && ChildRun(fs, env, args.common, repo, repoText).fault.Some? ==>
              r == ChildRun(fs, env, args.common, repo, repoText)
    ensures args.common.dryRun ==> r.fs == fs
    ensures SameOutside(fs, r.fs, repo)
  {
    var a := args.common;
    if a.help then Run(fs, [], None)
    else if a.repo.None? then Run(fs, [], Some(NoRepo))
    else if !Exists(fs, ApplyScriptPath(env.root)) then Run(fs, [], Some(NoApplyScript))
    else
      ChildArgs(env, repoText, a);
      var applied := ChildRun(fs, env, a, repo, repoText);
      var helped := Helpers(applied, env, repo, args);
      var patched := if args.patchNpmScripts then PatchPackageJson(helped, repo, env.rootText, env.codec, a.force, a.dryRun) else helped;
      InRepo(repo, ["package.json"]);
      OutsideOfChange(helped.fs, patched.fs, PackagePath(repo), repo);
      SameOutsideTrans(fs, applied.fs, helped.fs, repo);
      SameOutsideTrans(fs, helped.fs, patched.fs, repo);
      patched
  }

  /** Files other than package.json survive an installation without
      `--force`, except that .gitignore may grow at its end. */
  lemma InstallWithoutForceKeeps(fs: FileSystem, env: Env, args: InstallArgs, repo: Path, repoText: string)
    requires !args.common.force
    ensures KeepsGrowing(fs - {PackagePath(repo)}, InstallToRepo(fs, env, args, repo, repoText).fs, repo + [".gitignore"])
  {
    var a := args.common;
    var r := InstallToRepo(fs, env, args, repo, repoText);
    var gi := repo + [".gitignore"];
    if !a.help && a.repo.Some? && Exists(fs, ApplyScriptPath(env.root)) {
      ChildArgs(env, repoText, a);
      var applied := ChildRun(fs, env, a, repo, repoText);
      var helped := Helpers(applied, env, repo, args);
      KeepsGrowingOfKeeps(applied.fs, helped.fs, gi);
      KeepsGrowingTrans(fs, applied.fs, helped.fs, gi);
      RestrictKeepsGrowing(fs, helped.fs, r.fs, PackagePath(repo), gi);
    } else {
      RestrictKeepsGrowing(fs, fs, r.fs, PackagePath(repo), gi);
    }
  }

  /** Dropping one path from the old file system absorbs a final step
      that writes only that path. */
  lemma RestrictKeepsGrowing(a: FileSystem, b: FileSystem, c: FileSystem, dest: Path, grow: Path)
    requires KeepsGrowing(a, b, grow)
    requires c == b || ChangesAt(b, c, dest)
    ensures KeepsGrowing(a - {dest}, c, grow)
  {
  }

  /** The argument vector of the npm script with the given flags. */
  function ScriptArgv(dir: string, force: bool, dryRun: bool): seq<string> {
    ForwardArgs(dir + "/tools/apply-rules.mjs", ".", ApplyArgs(None, None, force, dryRun, false))
  }

  /** The vector is the script, `--repo .`, and the set flags. */
  lemma ScriptArgvShape(dir: string, force: bool, dryRun: bool)
    ensures ScriptArgv(dir, force, dryRun) == [dir + "/tools/apply-rules.mjs", "--repo", "."] + FlagsPart(ApplyArgs(None, None, force, dryRun, false))
  {
    var a := ApplyArgs(None, None, force, dryRun, false);
    assert RulesPart(a) == [];
    assert [dir + "/tools/apply-rules.mjs", "--repo", "."] + RulesPart(a) == [dir + "/tools/apply-rules.mjs", "--repo", "."];
  }

  /** Each npm script runs the bundle's apply-rules.mjs on `.` with its
      own flags, as the installer's own forwarding would. */
  lemma NpmScriptsParse(dir: string, force: bool, dryRun: bool, cwd: string)
    ensures ParseApply(["node"] + ScriptArgv(dir, force, dryRun), cwd) == ApplyArgs(Some("."), None, force, dryRun, false)
  {
    ForwardRoundTrip("node", dir + "/tools/apply-rules.mjs", ".", ApplyArgs(None, None, force, dryRun, false), cwd);
  }

  /** The "devrules" command line is that argument vector without flags. */
  lemma PlainScriptIsArgv(dir: string)
    ensures Command(dir, "") == "node " + Join(ScriptArgv(dir, false, false), " ")
  {
    var script := dir + "/tools/apply-rules.mjs";
    ScriptArgvShape(dir, false, false);
    assert FlagsPart(ApplyArgs(None, None, false, false, false)) == [];
    assert ScriptArgv(dir, false, false) == [script, "--repo", "."];
    JoinThree(script, "--repo", ".");
  }

  /** The "devrules:force" command line is the vector with `--force`. */
  lemma ForceScriptIsArgv(dir: string)
    ensures Command(dir, " --force") == "node " + Join(ScriptArgv(dir, true, false), " ")
  {
    var script := dir + "/tools/apply-rules.mjs";
    ScriptArgvShape(dir, true, false);
    assert FlagsPart(ApplyArgs(None, None, true, false, false)) == ["--force"];
    JoinThree(script, "--repo", ".");
    JoinSnoc([script, "--repo", "."], "--force", " ");
  }

  /** The "devrules:dry" command line is the vector with `--dry-run`. */
  lemma DryScriptIsArgv(dir: string)
    ensures Command(dir, " --dry-run") == "node " + Join(ScriptArgv(dir, false, true), " ")
  {
    var script := dir + "/tools/apply-rules.mjs";
    ScriptArgvShape(dir, false, true);
    assert FlagsPart(ApplyArgs(None, None, false, true, false)) == ["--dry-run"];
    JoinThree(script, "--repo", ".");
    JoinSnoc([script, "--repo", "."], "--dry-run", " ");
  }

  /** The shell splits the line `node` + vector back into `node` and the
      vector when the bundle path is a single word. */
  lemma ArgvLineRuns(dir: string, force: bool, dryRun: bool, cwd: string)
    requires OneField(dir)
    ensures ParseApply(Fields("node " + Join(ScriptArgv(dir, force, dryRun), " ")), cwd)
            == ApplyArgs(Some("."), None, force, dryRun, false)
  {
    ArgvLineSplits(dir, force, dryRun);
    NpmScriptsParse(dir, force, dryRun, cwd);
  }

  /** The line is split back into `node` and the vector. */
  lemma ArgvLineSplits(dir: string, force: bool, dryRun: bool)
    requires OneField(dir)
    ensures Fields("node " + Join(ScriptArgv(dir, force, dryRun), " ")) == ["node"] + ScriptArgv(dir, force, dryRun)
  {
    var argv := ScriptArgv(dir, force, dryRun);
    ScriptArgvShape(dir, force, dryRun);
    JoinCons("node", argv, " ");
    assert "node" + " " + Join(argv, " ") == "node " + Join(argv, " ");
    ArgvWords(dir, force, dryRun);
    FieldsJoin(["node"] + argv);
  }

  /** Each word of `node` + vector is a single shell word. */
  lemma ArgvWords(dir: string, force: bool, dryRun: bool)
    requires OneField(dir)
    ensures Words(["node"] + ScriptArgv(dir, force, dryRun))
  {
    var script := dir + "/tools/apply-rules.mjs";
    var flags := FlagsPart(ApplyArgs(None, None, force, dryRun, false));
    ScriptArgvShape(dir, force, dryRun);
    ScriptWord(dir);
    FlagWords(force, dryRun);
    LiteralWords();
    WordsAppend(["node"], [script]);
    WordsAppend(["node"] + [script], ["--repo", "."]);
    WordsAppend(["node"] + [script] + ["--repo", "."], flags);
    assert ["node"] + ScriptArgv(dir, force, dryRun) == ["node"] + [script] + ["--repo", "."] + flags;
  }

  lemma ScriptWord(dir: string)
    requires OneField(dir)
    ensures Words([dir + "/tools/apply-rules.mjs"])
  {
    var script := dir + "/tools/apply-rules.mjs";
    forall i | 0 <= i < |script| ensures !IsFieldSeparator(script[i]) {
      if i >= |dir| {
        assert script[i] == "/tools/apply-rules.mjs"[i - |dir|];
      }
    }
  }

  lemma FlagWords(force: bool, dryRun: bool)
    ensures Words(FlagsPart(ApplyArgs(None, None, force, dryRun, false)))
  {
    var flags := FlagsPart(ApplyArgs(None, None, force, dryRun, false));
    assert OneField("--force") && OneField("--dry-run");
    if force && dryRun { assert flags == ["--force", "--dry-run"]; }
    else if force { assert flags == ["--force"]; }
    else if dryRun { assert flags == ["--dry-run"]; }
    else { assert flags == []; }
  }

  lemma LiteralWords()
    ensures Words(["node"]) && Words(["--repo", "."])
  {
    assert OneField("node") && OneField("--repo") && OneField(".");
  }

  /** The three npm scripts, split by the shell as npm hands them over,
      run apply-rules.mjs on `.` with their own flags, provided the bundle
      path holds no space, tab or line feed. */
  lemma NpmCommandsRun(dir: string, cwd: string)
    requires OneField(dir)
    ensures ParseApply(Fields(Command(dir, "")), cwd) == ApplyArgs(Some("."), None, false, false, false)
    ensures ParseApply(Fields(Command(dir, " --force")), cwd) == ApplyArgs(Some("."), None, true, false, false)
    ensures ParseApply(Fields(Command(dir, " --dry-run")), cwd) == ApplyArgs(Some("."), None, false, true, false)
  {
    PlainScriptIsArgv(dir);
    ArgvLineRuns(dir, false, false, cwd);
    ForceScriptIsArgv(dir);
    ArgvLineRuns(dir, true, false, cwd);
    DryScriptIsArgv(dir);
    ArgvLineRuns(dir, false, true, cwd);
  }

  /** The bundle path is interpolated unquoted: a space in it splits the
      script path in two, so node is handed the wrong script. */
  lemma SpacedBundleSplits(a: string, b: string)
    requires |a| > 0 && OneField(a) && |b| > 0 && OneField(b)
    ensures Fields(Command(a + " " + b, "")) == ["node", a, b + "/tools/apply-rules.mjs", "--repo", "."]
    ensures Fields(Command(a + " " + b, ""))[1] != a + " " + b + "/tools/apply-rules.mjs"
  {
    CommandWords(a + " " + b);
    Regroup(a, b);
    ScriptWord(b);
    SplitLine(a, b + "/tools/apply-rules.mjs");
    assert |a| < |a + " " + b + "/tools/apply-rules.mjs"|;
  }

  /** `node`, two words and `--repo .` split into five words. */
  lemma SplitLine(a: string, script: string)
    requires |a| > 0 && OneField(a) && Words([script])
    ensures Fields("node" + " " + (a + " " + (script + " " + ("--repo" + " " + "."))))
            == ["node", a, script, "--repo", "."]
  {
    var rest := script + " " + ("--repo" + " " + ".");
    LiteralWords();
    assert ["node"][0] == "node";
    FieldsWord("node", a + " " + rest);
    FieldsWord(a, rest);
    TailWords(script);
  }

  lemma Regroup(a: string, b: string)
    ensures a + " " + b + "/tools/apply-rules.mjs" + " " + ("--repo" + " " + ".")
            == a + " " + (b + "/tools/apply-rules.mjs" + " " + ("--repo" + " " + "."))
  {
  }

  /** The plain command line, bracketed word by word. */
  lemma CommandWords(dir: string)
    ensures Command(dir, "") == "node" + " " + (dir + "/tools/apply-rules.mjs" + " " + ("--repo" + " " + "."))
  {
  }

  /** A script word followed by `--repo .` splits into three words. */
  lemma TailWords(script: string)
    requires Words([script])
    ensures Fields(script + " " + ("--repo" + " " + ".")) == [script, "--repo", "."]
  {
    LiteralWords();
    assert [script][0] == script;
    FieldsWord(script, "--repo" + " " + ".");
    assert ["--repo", "."][0] == "--repo";
    FieldsWord("--repo", ".");
    FieldsJoin(["."]);
  }

  lemma JoinThree(a: string, b: string, c: string)
    ensures Join([a, b, c], " ") == a + " " + b + " " + c
  {
    JoinSnoc([a], b, " ");
    assert [a] + [b] == [a, b];
    JoinSnoc([a, b], c, " ");
    assert [a, b] + [c] == [a, b, c];
  }
}

=== FILE: json.dfy ===
/** JSON values as the settings and package files hold them, with the parts
    of JavaScript's object semantics the merge code relies on: truthiness,
    the plain-object test, property lookup and object spread. */
module Json {
  import opened Wrappers
  import opened Strings

  /** A parsed JSON document. Numbers are integers (floating point is not
      modelled) and an object is a map from key to value (key order is not
      modelled). */
  datatype Json =
    | JNull
    | JBool(b: bool)
    | JNum(n: int)
    | JStr(s: string)
    | JArr(items: seq<Json>)
    | JObj(fields: map<string, Json>)

  /** JavaScript's ToBoolean: `null`, `false`, `0` and `""` are falsy;
      every array and object, even an empty one, is truthy. */
  predicate Truthy(v: Json) {
    match v
    case JNull => false
    case JBool(b) => b
    case JNum(n) => n != 0
    case JStr(s) => s != ""
    case JArr(_) => true
    case JObj(_) => true
  }

  /** Truthiness of a possibly `undefined` value. */
  predicate TruthyOpt(v: Option<Json>) {
    v.Some? && Truthy(v.value)
  }

  /** `v && typeof v === "object" && !Array.isArray(v)`: only a JSON object
      passes; `null` fails the truthiness test and arrays the array test. */
  predicate IsPlainObject(v: Json) {
    v.JObj?
  }

  /** The own enumerable properties of an array or a string: index keys
      "0", "1", ... in order. */
  function IndexEntries(items: seq<Json>): (m: map<string, Json>)
    ensures forall k :: k in m ==> |k| >= 1 && IsDigit(k[0])
    decreases |items|
  {
    if |items| == 0 then map[]
    else IndexEntries(items[..|items| - 1])[NatToString(|items| - 1) := items[|items| - 1]]
  }

  /** `{ ...v }` and `Object.entries(v)`: an object contributes its fields,
      an array its elements and a string its characters under index keys,
      and `null`, booleans and numbers contribute nothing. */
  function Spread(v: Json): (m: map<string, Json>)
    ensures v.JObj? ==> m == v.fields
    ensures v.JNull? || v.JBool? || v.JNum? ==> m == map[]
  {
    match v
    case JObj(fields) => fields
    case JArr(items) => IndexEntries(items)
    case JStr(s) => IndexEntries(seq(|s|, i requires 0 <= i < |s| => JStr([s[i]])))
    case _ => map[]
  }

  /** `v[k]` for the keys the model looks up ("editor.codeActionsOnSave",
      bracketed language keys and the package fields), none of which is an
      array index or `length`: only an object that has the key yields a
      value, everything else yields `undefined`. */
  function Prop(v: Json, k: string): (r: Option<Json>)
    ensures r.Some? <==> v.JObj? && k in v.fields
    ensures r.Some? ==> r.value == v.fields[k]
  {
    if v.JObj? && k in v.fields then Some(v.fields[k]) else None
  }

  /** `v ?? {}`: `undefined` and `null` become the empty object. */
  function OrEmpty(v: Option<Json>): (r: Json)
    ensures v.None? || v.value.JNull? ==> r == JObj(map[])
    ensures v.Some? && !v.value.JNull? ==> r == v.value
  {
    if v.None? || v.value.JNull? then JObj(map[]) else v.value
  }
}

=== FILE: lines.dfy ===
/** Line handling of `appendUniqueFile` (tools/apply-rules.mjs): splitting a
    text into lines and normalising each line for comparison. */
module Lines {
  import opened Strings

  /** Extends the lines read so far by one more character. */
  function AddChar(lines: seq<string>, c: char): (r: seq<string>)
    requires |lines| >= 1
    ensures |r| >= 1
  {
    if c == '\n' then lines + [""]
    else lines[..|lines| - 1] + [lines[|lines| - 1] + [c]]
  }

  lemma AddCharAfter(front: seq<string>, back: seq<string>, c: char)
    requires |back| >= 1
    ensures AddChar(front + back, c) == front + AddChar(back, c)
  {
    if c != '\n' {
      assert (front + back)[..|front + back| - 1] == front + back[..|back| - 1];
    }
  }

  /** `s.split("\n")`: the pieces between line feeds, always at least one. */
  function SplitLF(s: string): (r: seq<string>)
    ensures |r| >= 1
    ensures forall i :: 0 <= i < |r| ==> '\n' !in r[i]
    decreases |s|
  {
    if |s| == 0 then [""]
    else AddChar(SplitLF(s[..|s| - 1]), s[|s| - 1])
  }

  /** A piece without a line feed is a single line. */
  lemma {:induction false} SplitLFSingle(p: string)
    requires '\n' !in p
    ensures SplitLF(p) == [p]
    decreases |p|
  {
    if |p| > 0 {
      SplitLFSingle(p[..|p| - 1]);
      assert p[..|p| - 1] + [p[|p| - 1]] == p;
    }
  }

  /** Reading one more character extends the lines by that character. */
  lemma SplitLFSnoc(t: string, c: char)
    ensures SplitLF(t + [c]) == AddChar(SplitLF(t), c)
  {
    assert (t + [c])[..|t|] == t;
  }

  /** A line feed separates the lines before it from the lines after it. */
  lemma {:induction false} SplitLFConcat(a: string, b: string)
    ensures SplitLF(a + "\n" + b) == SplitLF(a) + SplitLF(b)
    decreases |b|
  {
    if |b| == 0 {
      assert a + "\n" + b == a + ['\n'];
      SplitLFSnoc(a, '\n');
    } else {
      var b' := b[..|b| - 1];
      var c := b[|b| - 1];
      SplitLFConcat(a, b');
      assert a + "\n" + b == (a + "\n" + b') + [c];
      SplitLFSnoc(a + "\n" + b', c);
      AddCharAfter(SplitLF(a), SplitLF(b'), c);
      assert b == b' + [c];
      SplitLFSnoc(b', c);
    }
  }

  /** Joining the lines with line feeds restores the text. */
  lemma {:induction false} JoinSplitLF(s: string)
    ensures Join(SplitLF(s), "\n") == s
    decreases |s|
  {
    if |s| > 0 {
      var s' := s[..|s| - 1];
      var c := s[|s| - 1];
      assert s == s' + [c];
      JoinSplitLF(s');
      JoinAddChar(SplitLF(s'), c);
    }
  }

  /** Adding a character to the lines adds it to their joined text. */
  lemma {:induction false} JoinAddChar(lines: seq<string>, c: char)
    requires |lines| >= 1
    ensures Join(AddChar(lines, c), "\n") == Join(lines, "\n") + [c]
  {
    var last := lines[|lines| - 1];
    if c == '\n' {
      JoinSnoc(lines, "", "\n");
    } else if |lines| == 1 {
      assert AddChar(lines, c) == [last + [c]];
    } else {
      var head := lines[..|lines| - 1];
      assert lines == head + [last];
      assert AddChar(lines, c) == head + [last + [c]];
      JoinSnoc(head, last, "\n");
      JoinSnoc(head, last + [c], "\n");
      var j := Join(head, "\n");
      assert j + "\n" + (last + [c]) == (j + "\n" + last) + [c];
    }
  }

  /** Splitting lines joined with line feeds recovers them, when no line
      holds a line feed of its own. */
  lemma {:induction false} SplitJoinLF(parts: seq<string>)
    requires |parts| >= 1
    requires forall i :: 0 <= i < |parts| ==> '\n' !in parts[i]
    ensures SplitLF(Join(parts, "\n")) == parts
    decreases |parts|
  {
    if |parts| == 1 {
      SplitLFSingle(parts[0]);
    } else {
      var head := parts[..|parts| - 1];
      var last := parts[|parts| - 1];
      SplitJoinLF(head);
      assert head + [last] == parts;
      JoinSnoc(head, last, "\n");
      SplitLFConcat(Join(head, "\n"), last);
      SplitLFSingle(last);
    }
  }

  /** Removes one carriage return that ends a piece. */
  function DropCR(p: string): string {
    if |p| > 0 && p[|p| - 1] == '\r' then p[..|p| - 1] else p
  }

  /** `s.split(/\r?\n/)`: every line feed ends a line, together with a
      carriage return right before it. */
  function SplitLines(s: string): (r: seq<string>)
    ensures |r| == |SplitLF(s)|
  {
    var raw := SplitLF(s);
    seq(|raw|, i requires 0 <= i < |raw| => if i < |raw| - 1 then DropCR(raw[i]) else raw[i])
  }

  predicate IsLineEnd(c: char) {
    c == '\r' || c == '\n'
  }

  /** `s.replace(/[\r\n]+$/, "")`: drops the trailing run of carriage
      returns and line feeds. */
  function Normalize(s: string): (r: string)
    ensures |r| <= |s| && r == s[..|r|]
    ensures |r| > 0 ==> !IsLineEnd(r[|r| - 1])
    ensures forall i :: |r| <= i < |s| ==> IsLineEnd(s[i])
    decreases |s|
  {
    if |s| > 0 && IsLineEnd(s[|s| - 1]) then Normalize(s[..|s| - 1]) else s
  }

  /** A normalised line: no line feed and no trailing carriage return. */
  predicate IsNormalLine(x: string) {
    '\n' !in x && (|x| == 0 || !IsLineEnd(x[|x| - 1]))
  }

  lemma NormalizeFixesNormalLine(x: string)
    requires IsNormalLine(x)
    ensures Normalize(x) == x
  {
  }

  /** The normalised lines of a text, as `appendUniqueFile` compares them. */
  function NormLines(s: string): (r: seq<string>)
    ensures |r| == |SplitLF(s)|
    ensures forall i :: 0 <= i < |r| ==> IsNormalLine(r[i])
  {
    var lines := SplitLines(s);
    seq(|lines|, i requires 0 <= i < |lines| => Normalize(lines[i]))
  }

  /** The carriage return the split removes would be removed by the
      normalisation anyway: the normalised lines are the normalised pieces
      between line feeds. */
  lemma {:induction false} NormLinesOfPieces(s: string)
    ensures forall i :: 0 <= i < |SplitLF(s)| ==> NormLines(s)[i] == Normalize(SplitLF(s)[i])
  {
    var raw := SplitLF(s);
    forall i | 0 <= i < |raw|
      ensures NormLines(s)[i] == Normalize(raw[i])
    {
      var p := raw[i];
      if |p| > 0 && p[|p| - 1] == '\r' {
        assert Normalize(p) == Normalize(p[..|p| - 1]);
      }
    }
  }
}

=== FILE: merge.dfy ===
/** Settings composition: `mergeDeep` (tools/apply-rules.mjs) and the extra
    merge passes applied to the editor settings before they are written. */
module Merge {
  import opened Wrappers
  import opened Strings
  import opened Json

  /** The value `mergeDeep(a, b)` stores under a key `k` of the overlay:
      two objects are united one level deep with the overlay's inner keys
      winning; anything else (arrays, `null`, scalars, or an object meeting
      a non-object) is replaced by the overlay's value. */
  function Combine(base: Option<Json>, over: Json): Json {
    if IsPlainObject(over) && base.Some? && IsPlainObject(base.value)
    then JObj(base.value.fields + over.fields)
    else over
  }

  /** `mergeDeep(a, b)` as a map from key to value. `null` inputs act as `{}`
      and every other non-object input acts as its spread. */
  function MergeDeep(a: Json, b: Json): map<string, Json> {
    var A := Spread(a);
    var B := Spread(b);
    map k | k in A.Keys + B.Keys :: if k in B then Combine(if k in A then Some(A[k]) else None, B[k]) else A[k]
  }

  /** The keys of the merge are the keys of both inputs. A key only the base
      has keeps its value. The overlay's value wins unless both sides hold
      plain objects; then the two are united one level deep, the overlay's
      inner keys winning and the base's other inner keys kept. */
  lemma MergeDeepSpec(a: Json, b: Json)
    ensures var r := MergeDeep(a, b);
      && r.Keys == Spread(a).Keys + Spread(b).Keys
      && (forall k :: k in Spread(a) && k !in Spread(b) ==> r[k] == Spread(a)[k])
      && (forall k :: k in Spread(b) && !(IsPlainObject(Spread(b)[k]) && k in Spread(a) && IsPlainObject(Spread(a)[k]))
            ==> r[k] == Spread(b)[k])
      && (forall k :: k in Spread(b) && IsPlainObject(Spread(b)[k]) && k in Spread(a) && IsPlainObject(Spread(a)[k])
            ==> r[k].JObj?
                && r[k].fields.Keys == Spread(a)[k].fields.Keys + Spread(b)[k].fields.Keys
                && (forall j :: j in Spread(b)[k].fields ==> r[k].fields[j] == Spread(b)[k].fields[j])
                && (forall j :: j in Spread(a)[k].fields && j !in Spread(b)[k].fields
                      ==> r[k].fields[j] == Spread(a)[k].fields[j]))
  {
  }

  /** The merge after the loop has visited the overlay keys `done`: those
      keys hold their combined value, every other base key its base value. */
  function Visited(A: map<string, Json>, B: map<string, Json>, done: set<string>): map<string, Json>
    requires done <= B.Keys
  {
    map k | k in A.Keys + done :: if k in done then Combine(if k in A then Some(A[k]) else None, B[k]) else A[k]
  }

  /** Visiting one more key stores its combined value. */
  lemma VisitedStep(A: map<string, Json>, B: map<string, Json>, done: set<string>, k: string)
    requires done <= B.Keys && k in B && k !in done
    ensures Visited(A, B, done + {k}) == Visited(A, B, done)[k := Combine(if k in A then Some(A[k]) else None, B[k])]
  {
  }

  /** Before the visit of `k`, the partial merge holds the base's value
      there, so the loop's two branches store exactly the combined value. */
  lemma VisitedCombines(A: map<string, Json>, B: map<string, Json>, done: set<string>, k: string)
    requires done <= B.Keys && k in B && k !in done
    ensures var out := Visited(A, B, done);
      (if IsPlainObject(B[k]) && k in out && IsPlainObject(out[k]) then JObj(out[k].fields + B[k].fields) else B[k])
        == Combine(if k in A then Some(A[k]) else None, B[k])
  {
  }

  /** Once every overlay key is visited the partial merge is the merge. */
  lemma VisitedAll(a: Json, b: Json)
    ensures Visited(Spread(a), Spread(b), Spread(b).Keys) == MergeDeep(a, b)
  {
  }

  /** The loop of `mergeDeep`: start from a copy of the base and visit the
      overlay's entries one at a time, in whatever order they come. */
  method MergeDeepLoop(a: Json, b: Json) returns (out: map<string, Json>)
    ensures out == MergeDeep(a, b)
  {
    var A := Spread(a);
    var B := Spread(b);
    out := A;
    var todo := B.Keys;
    assert out == Visited(A, B, {});
    while todo != {}
      invariant todo <= B.Keys
      invariant out == Visited(A, B, B.Keys - todo)
      decreases todo
    {
      var k :| k in todo;
      ghost var done := B.Keys - todo;
      VisitedCombines(A, B, done, k);
      VisitedStep(A, B, done, k);
      var v := B[k];
      if IsPlainObject(v) && k in out && IsPlainObject(out[k]) {
        out := out[k := JObj(out[k].fields + v.fields)];
      } else {
        out := out[k := v];
      }
      todo := todo - {k};
      assert B.Keys - todo == done + {k};
    }
    assert B.Keys - todo == B.Keys;
    VisitedAll(a, b);
  }

  /** Applying the same overlay twice gives the same map as applying it
      once: the overlay's inner keys already won the first time. */
  lemma {:induction false} MergeDeepOverlayIdempotent(a: Json, b: Json)
    ensures MergeDeep(JObj(MergeDeep(a, b)), b) == MergeDeep(a, b)
  {
    var r := MergeDeep(a, b);
    var r2 := MergeDeep(JObj(r), b);
    var A := Spread(a);
    var B := Spread(b);
    assert r2.Keys == r.Keys;
    forall k | k in r
      ensures r2[k] == r[k]
    {
      if k in B {
        CombineTwice(if k in A then Some(A[k]) else None, B[k]);
      }
    }
  }

  /** Combining a value with the same overlay twice is combining it once. */
  lemma CombineTwice(base: Option<Json>, over: Json)
    ensures Combine(Some(Combine(base, over)), over) == Combine(base, over)
  {
    if IsPlainObject(over) {
      var c := Combine(base, over);
      assert c.fields + over.fields == c.fields;
    }
  }

  /** Merging is not associative beyond the one level it implements: an
      object in the first and last documents separated by a scalar in the
      middle survives only when the last two are merged first. */
  lemma MergeDeepNotAssociative()
    ensures var A := JObj(map["k" := JObj(map["x" := JNum(1)])]);
            var B := JObj(map["k" := JNum(0)]);
            var C := JObj(map["k" := JObj(map["y" := JNum(2)])]);
            MergeDeep(JObj(MergeDeep(A, B)), C) != MergeDeep(A, JObj(MergeDeep(B, C)))
  {
    var A := JObj(map["k" := JObj(map["x" := JNum(1)])]);
    var B := JObj(map["k" := JNum(0)]);
    var C := JObj(map["k" := JObj(map["y" := JNum(2)])]);
    assert MergeDeep(JObj(MergeDeep(A, B)), C)["k"] == JObj(map["y" := JNum(2)]);
    assert MergeDeep(A, JObj(MergeDeep(B, C)))["k"].fields["x"] == JNum(1);
  }

  /** The settings key whose value is always re-merged one level deeper. */
  const CodeActionsOnSave: string := "editor.codeActionsOnSave"

  /** An override key of the form `[...]`, scoping settings to a language. */
  predicate IsLanguageKey(k: string) {
    StartsWith(k, "[") && EndsWith(k, "]")
  }

  /** `mergeDeep(x ?? {}, y ?? {})` as the value stored under a re-merged key. */
  function Remerge(base: Json, override: Json, k: string): Json {
    JObj(MergeDeep(OrEmpty(Prop(base, k)), OrEmpty(Prop(override, k))))
  }

  /** Whether the `editor.codeActionsOnSave` pass runs: either side's value
      under that key is truthy. */
  predicate CodeActionsPass(base: Json, override: Json) {
    TruthyOpt(Prop(base, CodeActionsOnSave)) || TruthyOpt(Prop(override, CodeActionsOnSave))
  }

  /** The `editor.codeActionsOnSave` pass over the generic merge. */
  function CodeActionsBlock(base: Json, override: Json): (r: map<string, Json>)
    ensures r.Keys == MergeDeep(base, override).Keys
  {
    var merged := MergeDeep(base, override);
    if CodeActionsPass(base, override) then
      assert CodeActionsOnSave in merged;
      merged[CodeActionsOnSave := Remerge(base, override, CodeActionsOnSave)]
    else merged
  }

  /** The blocks the language-key pass stores: one per bracketed key of the
      override. */
  function LanguageBlocks(base: Json, override: Json): (r: map<string, Json>)
    ensures r.Keys <= Spread(override).Keys
  {
    map k | k in Spread(override) && IsLanguageKey(k) :: Remerge(base, override, k)
  }

  /** The settings written to `.vscode/settings.json`: the shared base merged
      with the ruleset override, then `editor.codeActionsOnSave` and every
      language key of the override re-merged one level deeper. `None` when
      either document is `null`, on which the property reads throw. */
  function MergeSettings(base: Json, override: Json): (r: Option<map<string, Json>>)
    ensures r.None? <==> base.JNull? || override.JNull?
    ensures r.Some? ==> r.value.Keys == MergeDeep(base, override).Keys
    ensures r.Some? && CodeActionsPass(base, override) ==>
              r.value[CodeActionsOnSave] == Remerge(base, override, CodeActionsOnSave)
    ensures r.Some? ==> forall k :: k in Spread(override) && IsLanguageKey(k) ==>
              r.value[k] == Remerge(base, override, k)
    ensures r.Some? ==>
              forall k :: k in r.value && !(k in Spread(override) && IsLanguageKey(k))
                && !(k == CodeActionsOnSave && CodeActionsPass(base, override))
                ==> r.value[k] == MergeDeep(base, override)[k]
  {
    if base.JNull? || override.JNull? then None
    else Some(CodeActionsBlock(base, override) + LanguageBlocks(base, override))
  }

  /** The extra pass changes a block only where both sides hold an object
      under the same inner key: when the two blocks are objects and no inner
      key carries an object on both sides, the re-merged block equals what
      the generic merge already produced. */
  lemma {:induction false} RemergeAgreesWhenInnerValuesFlat(base: Json, override: Json, k: string)
    requires Prop(base, k).Some? && Prop(base, k).value.JObj?
    requires Prop(override, k).Some? && Prop(override, k).value.JObj?
    requires forall j :: j in Prop(base, k).value.fields && j in Prop(override, k).value.fields
               ==> !(Prop(base, k).value.fields[j].JObj? && Prop(override, k).value.fields[j].JObj?)
    ensures Remerge(base, override, k) == MergeDeep(base, override)[k]
  {
    var x := Prop(base, k).value;
    var y := Prop(override, k).value;
    assert MergeDeep(base, override)[k] == JObj(x.fields + y.fields);
    var m := MergeDeep(x, y);
    forall j | j in m
      ensures m[j] == (x.fields + y.fields)[j]
    {
    }
    assert m == x.fields + y.fields;
  }

  /** When no key is on both sides, the merge is the union of the spreads. */
  lemma MergeDeepDisjoint(a: Json, b: Json)
    requires Spread(a).Keys !! Spread(b).Keys
    ensures MergeDeep(a, b) == Spread(a) + Spread(b)
  {
  }

  /** Two objects with no key holding an object on both sides merge as a
      plain map union in which the overlay wins. */
  lemma {:induction false} MergeDeepFlat(a: Json, b: Json)
    requires a.JObj? && b.JObj?
    requires forall k :: k in a.fields && k in b.fields ==> !(a.fields[k].JObj? && b.fields[k].JObj?)
    ensures MergeDeep(a, b) == a.fields + b.fields
  {
    var m := MergeDeep(a, b);
    forall k | k in m
      ensures m[k] == (a.fields + b.fields)[k]
    {
    }
  }
}

/** Worked instances of the settings merge. */
module MergeExamples {
  import opened Wrappers
  import opened Strings
  import opened Json
  import opened Merge

  const Block: Json := JObj(map["b" := JBool(true)])
  const OverBlock: Json := JObj(map["a" := JBool(true)])
  const Both: Json := JObj(map["a" := JBool(true), "b" := JBool(true)])
  const ExampleBase: Json := JObj(map[CodeActionsOnSave := Block, "other" := JNum(1)])
  const ExampleOverride: Json := JObj(map[CodeActionsOnSave := OverBlock])

  lemma ExampleGenericMerge()
    ensures MergeDeep(ExampleBase, ExampleOverride) == map[CodeActionsOnSave := Both, "other" := JNum(1)]
  {
    var merged := MergeDeep(ExampleBase, ExampleOverride);
    assert merged.Keys == {CodeActionsOnSave, "other"};
    assert merged[CodeActionsOnSave] == Combine(Some(Block), OverBlock);
    assert Block.fields + OverBlock.fields == Both.fields;
  }

  lemma ExampleRemerge()
    ensures Remerge(ExampleBase, ExampleOverride, CodeActionsOnSave) == Both
  {
    MergeDeepFlat(Block, OverBlock);
    assert Block.fields + OverBlock.fields == Both.fields;
  }

  /** An override without `[language]` keys yields no language blocks to
      merge again. */
  lemma LanguageBlocksEmpty(base: Json, override: Json)
    requires forall k :: k in Spread(override) ==> !IsLanguageKey(k)
    ensures LanguageBlocks(base, override) == map[]
  {
  }

  /** Without language keys in the override, only the
      `editor.codeActionsOnSave` pass can change the generic merge. */
  lemma NoLanguageKeys(base: Json, override: Json)
    requires !base.JNull? && !override.JNull?
    requires LanguageBlocks(base, override) == map[]
    ensures MergeSettings(base, override) == Some(CodeActionsBlock(base, override))
  {
    assert CodeActionsBlock(base, override) + map[] == CodeActionsBlock(base, override);
  }

  /** The merge described for the editor settings: overlay blocks under
      `editor.codeActionsOnSave` are united with the base block, and keys
      only the base has are kept. */
  lemma CodeActionsExample()
    ensures MergeSettings(ExampleBase, ExampleOverride)
              == Some(map[CodeActionsOnSave := Both, "other" := JNum(1)])
  {
    ExampleGenericMerge();
    ExampleRemerge();
    assert !IsLanguageKey(CodeActionsOnSave) by { assert CodeActionsOnSave[0] == 'e'; }
    LanguageBlocksEmpty(ExampleBase, ExampleOverride);
    NoLanguageKeys(ExampleBase, ExampleOverride);
    assert CodeActionsPass(ExampleBase, ExampleOverride);
    var m := map[CodeActionsOnSave := Both, "other" := JNum(1)];
    assert CodeActionsBlock(ExampleBase, ExampleOverride) == m[CodeActionsOnSave := Both];
    assert m[CodeActionsOnSave := Both] == m;
  }

  const FixAll: Json := JObj(map["source.fixAll" := JBool(true)])
  const Organize: Json := JArr([JStr("source.organizeImports")])

  lemma SpreadOrganize()
    ensures Spread(Organize) == map["0" := JStr("source.organizeImports")]
  {
    assert NatToString(0) == "0";
    assert IndexEntries([JStr("source.organizeImports")]) == map["0" := JStr("source.organizeImports")];
  }

  lemma MergeFixAllOrganize()
    ensures MergeDeep(FixAll, Organize) == map["source.fixAll" := JBool(true), "0" := JStr("source.organizeImports")]
  {
    SpreadOrganize();
    assert "source.fixAll" != "0" by { assert |"source.fixAll"| != |"0"|; }
    MergeSingles(FixAll, Organize, "source.fixAll", JBool(true), "0", JStr("source.organizeImports"));
  }

  /** Two single-key inputs under different keys merge into a two-key map. */
  lemma MergeSingles(a: Json, b: Json, k1: string, v1: Json, k2: string, v2: Json)
    requires Spread(a) == map[k1 := v1] && Spread(b) == map[k2 := v2] && k1 != k2
    ensures MergeDeep(a, b) == map[k1 := v1, k2 := v2]
  {
    MergeDeepDisjoint(a, b);
  }

  /** An array-valued `editor.codeActionsOnSave` in the override replaces the
      base block in the generic merge, but the extra pass spreads it into
      index keys and unites it with the base block. */
  lemma CodeActionsArrayIsSpread()
    ensures var base := JObj(map[CodeActionsOnSave := FixAll]);
            var override := JObj(map[CodeActionsOnSave := Organize]);
            MergeDeep(base, override)[CodeActionsOnSave] == Organize
            && MergeSettings(base, override).value[CodeActionsOnSave]
               == JObj(map["source.fixAll" := JBool(true), "0" := JStr("source.organizeImports")])
  {
    var base := JObj(map[CodeActionsOnSave := FixAll]);
    var override := JObj(map[CodeActionsOnSave := Organize]);
    assert MergeDeep(base, override)[CodeActionsOnSave] == Combine(Some(FixAll), Organize);
    MergeFixAllOrganize();
    assert Remerge(base, override, CodeActionsOnSave) == JObj(MergeDeep(FixAll, Organize));
    assert CodeActionsPass(base, override);
  }
}

=== FILE: patch.dfy ===
/** `patchPackageJsonScripts` of tools/install-to-repo.mjs on parsed JSON:
    the three `devrules` npm scripts are added where missing and, with
    `--force`, reset where they differ. */
module PackageScripts {
  import opened Wrappers
  import opened Json

  /** The command an npm script runs: apply-rules.mjs of the bundle at
      `dir` on the current directory, followed by `suffix`. */
  function Command(dir: string, suffix: string): (cmd: string)
    ensures |cmd| > 0
  {
    "node " + dir + "/tools/apply-rules.mjs --repo ." + suffix
  }

  /** The scripts the installer wants, in the order it visits them. */
  function Desired(dir: string): seq<(string, string)> {
    [("devrules", Command(dir, "")),
     ("devrules:force", Command(dir, " --force")),
     ("devrules:dry", Command(dir, " --dry-run"))]
  }

  /** The log verdict for one script: ADD, SET or KEEP. */
  datatype Verdict = Add | Set | Keep

  /** `!scripts[k]` adds, `force && scripts[k] !== v` sets (a value of
      another JSON type is never `===` a string), anything else keeps. */
  function Decide(scripts: map<string, Json>, k: string, v: string, force: bool): (d: Verdict)
    ensures d == Add <==> !(k in scripts && Truthy(scripts[k]))
    ensures d == Set <==> k in scripts && Truthy(scripts[k]) && force && scripts[k] != JStr(v)
  {
    if !(k in scripts && Truthy(scripts[k])) then Add
    else if force && scripts[k] != JStr(v) then Set
    else Keep
  }

  /** What a verdict leaves at `k`. */
  function Apply(scripts: map<string, Json>, k: string, v: string, d: Verdict): map<string, Json> {
    if d == Keep then scripts else scripts[k := JStr(v)]
  }

  /** The loop over `Object.entries(desired)` on an object `scripts`:
      the patched scripts and whether anything changed. */
  function PatchFields(scripts: map<string, Json>, desired: seq<(string, string)>, force: bool): (map<string, Json>, bool)
    decreases |desired|
  {
    if |desired| == 0 then (scripts, false)
    else
      var d := Decide(scripts, desired[0].0, desired[0].1, force);
      var rest := PatchFields(Apply(scripts, desired[0].0, desired[0].1, d), desired[1..], force);
      (rest.0, rest.1 || d != Keep)
  }

  predicate DistinctKeys(desired: seq<(string, string)>) {
    forall i, j :: 0 <= i < j < |desired| ==> desired[i].0 != desired[j].0
  }

  /** The list minus its head still has distinct keys, and the head's
      key is none of the rest. */
  lemma DistinctTail(desired: seq<(string, string)>)
    requires |desired| > 0 && DistinctKeys(desired)
    ensures DistinctKeys(desired[1..])
    ensures forall i :: 0 <= i < |desired[1..]| ==> desired[1..][i].0 != desired[0].0
  {
    var tail := desired[1..];
    forall i, j | 0 <= i < j < |tail| ensures tail[i].0 != tail[j].0 {
      assert tail[i] == desired[i + 1] && tail[j] == desired[j + 1];
    }
    forall i | 0 <= i < |tail| ensures tail[i].0 != desired[0].0 {
      assert tail[i] == desired[i + 1];
    }
  }

  /** Keys the installer does not want are untouched. */
  lemma {:induction false} PatchFieldsOthers(scripts: map<string, Json>, desired: seq<(string, string)>, force: bool, k: string)
    requires forall i :: 0 <= i < |desired| ==> desired[i].0 != k
    ensures var out := PatchFields(scripts, desired, force).0;
      (k in out <==> k in scripts) && (k in scripts ==> out[k] == scripts[k])
    decreases |desired|
  {
    if |desired| > 0 {
      var d := Decide(scripts, desired[0].0, desired[0].1, force);
      var tail := desired[1..];
      assert forall i :: 0 <= i < |tail| ==> tail[i] == desired[i + 1];
      PatchFieldsOthers(Apply(scripts, desired[0].0, desired[0].1, d), tail, force, k);
    }
  }

  /** A wanted key ends up with its command unless its verdict, taken on
      the scripts before the loop, is KEEP. */
  lemma {:induction false} PatchFieldsWanted(scripts: map<string, Json>, desired: seq<(string, string)>, force: bool, i: nat)
    requires DistinctKeys(desired) && i < |desired|
    ensures var out := PatchFields(scripts, desired, force).0;
      var (k, v) := desired[i];
      k in out && out[k] == (if Decide(scripts, k, v, force) == Keep then scripts[k] else JStr(v))
    decreases |desired|
  {
    var (k0, v0) := desired[0];
    var d := Decide(scripts, k0, v0, force);
    var next := Apply(scripts, k0, v0, d);
    var tail := desired[1..];
    DistinctTail(desired);
    if i == 0 {
      PatchFieldsOthers(next, tail, force, k0);
    } else {
      assert desired[i] == tail[i - 1];
      PatchFieldsWanted(next, tail, force, i - 1);
    }
  }

  /** The loop reports a change exactly when some verdict, taken on the
      scripts before the loop, is not KEEP. */
  lemma {:induction false} PatchFieldsChanged(scripts: map<string, Json>, desired: seq<(string, string)>, force: bool)
    requires DistinctKeys(desired)
    ensures PatchFields(scripts, desired, force).1 <==>
      exists i :: 0 <= i < |desired| && Decide(scripts, desired[i].0, desired[i].1, force) != Keep
    decreases |desired|
  {
    if |desired| > 0 {
      var (k0, v0) := desired[0];
      var d := Decide(scripts, k0, v0, force);
      var next := Apply(scripts, k0, v0, d);
      var tail := desired[1..];
      DistinctTail(desired);
      PatchFieldsChanged(next, tail, force);
      forall i | 0 <= i < |tail|
        ensures Decide(next, tail[i].0, tail[i].1, force) == Decide(scripts, tail[i].0, tail[i].1, force)
      {
      }
      if PatchFields(scripts, desired, force).1 && d == Keep {
        var i :| 0 <= i < |tail| && Decide(next, tail[i].0, tail[i].1, force) != Keep;
        assert desired[i + 1] == tail[i];
      }
      if exists i :: 0 <= i < |desired| && Decide(scripts, desired[i].0, desired[i].1, force) != Keep {
        var i :| 0 <= i < |desired| && Decide(scripts, desired[i].0, desired[i].1, force) != Keep;
        if i > 0 {
          assert desired[i] == tail[i - 1];
        }
      }
    }
  }

  /** `pkg.scripts && typeof pkg.scripts === "object" ? pkg.scripts : {}`:
      an object or array is kept, anything else (missing, `null`, a string,
      a number, a boolean) becomes a fresh object. */
  function ScriptsOf(fields: map<string, Json>): (s: Json)
    ensures s.JObj? || s.JArr?
    ensures "scripts" in fields && (fields["scripts"].JObj? || fields["scripts"].JArr?) ==> s == fields["scripts"]
    ensures !("scripts" in fields && (fields["scripts"].JObj? || fields["scripts"].JArr?)) ==> s == JObj(map[])
  {
    if "scripts" in fields && Truthy(fields["scripts"]) && (fields["scripts"].JObj? || fields["scripts"].JArr?)
    then fields["scripts"] else JObj(map[])
  }

  /** The patch of a parsed package.json: `None` for the "invalid json"
      skip (a falsy value or one whose `typeof` is not "object"), otherwise
      the package as `JSON.stringify` will see it and whether anything
      changed. On an array, `scripts` is a named property that neither
      the lookups nor `JSON.stringify` observe, so every script is added
      and the value is unchanged. */
  function PatchPackage(pkg: Json, dir: string, force: bool): (r: Option<(Json, bool)>)
    ensures r.Some? <==> pkg.JObj? || pkg.JArr?
  {
    match pkg
    case JArr(_) => Some((pkg, true))
    case JObj(fields) =>
      (match ScriptsOf(fields)
       case JObj(m) =>
         var (out, changed) := PatchFields(m, Desired(dir), force);
         Some((JObj(fields["scripts" := JObj(out)]), changed))
       case _ => Some((pkg, true)))
    case _ => None
  }

  lemma DesiredDistinct(dir: string)
    ensures DistinctKeys(Desired(dir))
  {
  }

  /** The patch of a package with an object (or no) `scripts`: other
      package fields are untouched; under `scripts`, each of the three
      keys holds its command unless it already held a truthy value and
      either `force` is off or it equals the command; other scripts are
      untouched. */
  lemma PatchObjectSpec(fields: map<string, Json>, dir: string, force: bool)
    requires ScriptsOf(fields).JObj?
    ensures PatchPackage(JObj(fields), dir, force).Some?
    ensures var (p, _) := PatchPackage(JObj(fields), dir, force).value;
      var m := ScriptsOf(fields).fields;
      && p.JObj? && "scripts" in p.fields && p.fields["scripts"].JObj?
      && (forall f :: f != "scripts" ==> (f in p.fields <==> f in fields) && (f in fields ==> p.fields[f] == fields[f]))
      && (forall k :: k !in {"devrules", "devrules:force", "devrules:dry"} ==>
            (k in p.fields["scripts"].fields <==> k in m) && (k in m ==> p.fields["scripts"].fields[k] == m[k]))
      && (forall i :: 0 <= i < 3 ==>
            var (k, v) := Desired(dir)[i];
            k in p.fields["scripts"].fields &&
            p.fields["scripts"].fields[k] == (if k in m && Truthy(m[k]) && (!force || m[k] == JStr(v)) then m[k] else JStr(v)))
  {
    var m := ScriptsOf(fields).fields;
    DesiredDistinct(dir);
    forall k | k !in {"devrules", "devrules:force", "devrules:dry"}
      ensures var out := PatchFields(m, Desired(dir), force).0;
        (k in out <==> k in m) && (k in m ==> out[k] == m[k])
    {
      PatchFieldsOthers(m, Desired(dir), force, k);
    }
    forall i | 0 <= i < 3
      ensures var out := PatchFields(m, Desired(dir), force).0;
        var (k, v) := Desired(dir)[i];
        k in out && out[k] == (if Decide(m, k, v, force) == Keep then m[k] else JStr(v))
    {
      PatchFieldsWanted(m, Desired(dir), force, i);
    }
  }

  /** Once patched into an object, a package is a fixed point: the next
      run finds all three scripts in place and changes nothing. */
  lemma PatchRerunNoChange(pkg: Json, dir: string, force: bool)
    requires PatchPackage(pkg, dir, force).Some?
    requires var p := PatchPackage(pkg, dir, force).value.0;
      p.JObj? && "scripts" in p.fields && p.fields["scripts"].JObj?
    ensures var p := PatchPackage(pkg, dir, force).value.0;
      PatchPackage(p, dir, force) == Some((p, false))
  {
    var p := PatchPackage(pkg, dir, force).value.0;
    var d := Desired(dir);
    var out := p.fields["scripts"].fields;
    assert ScriptsOf(p.fields) == JObj(out);
    forall i | 0 <= i < |d|
      ensures Decide(out, d[i].0, d[i].1, force) == Keep
    {
      KeepAfterPatch(pkg, dir, force, i);
    }
    AllKeepUnchanged(out, d, force);
    assert p.fields["scripts" := JObj(out)] == p.fields;
  }

  /** After a patch into an object, each wanted key gets KEEP under the
      same `force`: it either holds its command or a truthy value that
      was kept because `force` was off. */
  lemma KeepAfterPatch(pkg: Json, dir: string, force: bool, i: nat)
    requires i < 3
    requires PatchPackage(pkg, dir, force).Some?
    requires var p := PatchPackage(pkg, dir, force).value.0;
      p.JObj? && "scripts" in p.fields && p.fields["scripts"].JObj?
    ensures var p := PatchPackage(pkg, dir, force).value.0;
      Decide(p.fields["scripts"].fields, Desired(dir)[i].0, Desired(dir)[i].1, force) == Keep
  {
    var fields := pkg.fields;
    var m := ScriptsOf(fields).fields;
    DesiredDistinct(dir);
    PatchFieldsWanted(m, Desired(dir), force, i);
  }

  /** A loop whose every verdict is KEEP returns its input unchanged. */
  lemma {:induction false} AllKeepUnchanged(scripts: map<string, Json>, desired: seq<(string, string)>, force: bool)
    requires forall i :: 0 <= i < |desired| ==> Decide(scripts, desired[i].0, desired[i].1, force) == Keep
    ensures PatchFields(scripts, desired, force) == (scripts, false)
    decreases |desired|
  {
    if |desired| > 0 {
      assert forall i :: 0 <= i < |desired[1..]| ==> desired[1..][i] == desired[i + 1];
      AllKeepUnchanged(scripts, desired[1..], force);
    }
  }

  /** Without `force`, a script the package already defines (with a
      truthy value) is never replaced. */
  lemma NoForceKeepsUserScripts(fields: map<string, Json>, dir: string, k: string)
    requires ScriptsOf(fields).JObj?
    requires k in ScriptsOf(fields).fields && Truthy(ScriptsOf(fields).fields[k])
    ensures var p := PatchPackage(JObj(fields), dir, false).value.0;
      p.JObj? && "scripts" in p.fields && p.fields["scripts"].JObj?
      && k in p.fields["scripts"].fields && p.fields["scripts"].fields[k] == ScriptsOf(fields).fields[k]
  {
    PatchObjectSpec(fields, dir, false);
    var d := Desired(dir);
    if k == "devrules" {
      assert d[0].0 == k;
    } else if k == "devrules:force" {
      assert d[1].0 == k;
    } else if k == "devrules:dry" {
      assert d[2].0 == k;
    }
  }

  /** An array under `scripts` reports a change on every run while the
      value it would write is the package unchanged. */
  lemma ArrayScriptsAlwaysRewritten(items: seq<Json>, dir: string, force: bool)
    ensures var pkg := JObj(map["scripts" := JArr(items)]);
      PatchPackage(pkg, dir, force) == Some((pkg, true))
  {
  }
}

=== FILE: placement.dfy ===
/** The file placement policy of tools/apply-rules.mjs: which files `main`
    copies, appends to, skips or only reports, and in which order. */
module Placement {
  import opened Wrappers
  import opened Json
  import opened Files
  import opened Appender
  import opened Merge
  import opened Detect
  import opened Args

  /** The action tag of a log line (timestamps and message text are not
      modelled). */
  datatype Action = Skip | DryRun | Copy | Append | Write

  datatype Event = Event(action: Action, path: Path)

  /** Why a run stops early: the exits with status 2, and the exceptions
      the file-system and JSON calls throw. */
  datatype Fault =
    | NoRepo                  // `path.resolve(undefined)` after a dangling `--repo`
    | NoRuleset               // nothing given and nothing detected
    | RulesetNotFound(dir: Path)
    | IoError(path: Path)     // a missing source, a directory in the way, ...
    | BadJson(path: Path)     // `JSON.parse` throws
    | NullSettings            // a settings file holding `null`
    | NoApplyScript           // the installer cannot find apply-rules.mjs

  /** The state of a run: the file system, the log so far and, once a step
      has failed, the fault that ended the run. */
  datatype Run = Run(fs: FileSystem, log: seq<Event>, fault: Option<Fault>)

  function Log(run: Run, action: Action, p: Path): Run {
    run.(log := run.log + [Event(action, p)])
  }

  function Fail(run: Run, f: Fault): Run {
    run.(fault := Some(f))
  }

  /** Writes `content` to `dest` after `ensureDir`, logging `action`. */
  function Put(run: Run, dest: Path, content: string, action: Action): (r: Run)
    requires run.fault.None?
    ensures r.fault.None? ==> r.fs == run.fs[dest := content]
    ensures r.fault.Some? ==> r.fs == run.fs
  {
    match WriteFile(run.fs, dest, content)
    case Failure(p) => Fail(run, IoError(p))
    case Success(fs) => Log(run.(fs := fs), action, dest)
  }

  /** `copyFile(src, dest, force, dryRun)`: an existing destination is kept
      unless `force`; a dry run only reports; otherwise the destination
      gets the source's contents. */
  function CopyFile(run: Run, src: Path, dest: Path, force: bool, dryRun: bool): (r: Run)
    ensures run.fault.Some? ==> r == run
    ensures run.fault.None? && Exists(run.fs, dest) && !force ==> r == Log(run, Skip, dest)
    ensures run.fault.None? && !(Exists(run.fs, dest) && !force) && dryRun ==> r == Log(run, DryRun, dest)
    ensures run.fault.None? && !(Exists(run.fs, dest) && !force) && !dryRun && r.fault.None? ==>
              src in run.fs && r.fs == run.fs[dest := run.fs[src]] && r.log == run.log + [Event(Copy, dest)]
    ensures r.fs == run.fs || (ChangesAt(run.fs, r.fs, dest) && !(Exists(run.fs, dest) && !force) && !dryRun)
  {
    if run.fault.Some? then run
    else if Exists(run.fs, dest) && !force then Log(run, Skip, dest)
    else if dryRun then Log(run, DryRun, dest)
    else if Blocked(run.fs, dest) then Fail(run, IoError(dest))
    else if src !in run.fs then Fail(run, IoError(src))
    else Put(run, dest, run.fs[src], Copy)
  }

  /** `appendUniqueFile(src, dest, dryRun)` on the file system: a missing
      destination (or a directory) reads as empty text. */
  function AppendUniqueFile(run: Run, src: Path, dest: Path, dryRun: bool): (r: Run)
    ensures run.fault.Some? ==> r == run
    ensures dryRun ==> r.fs == run.fs
    ensures r.fs == run.fs || ChangesAt(run.fs, r.fs, dest)
    ensures KeepsGrowing(run.fs, r.fs, dest)
    ensures run.fault.None? && src in run.fs && r.fs != run.fs ==>
              var destText := if dest in run.fs then run.fs[dest] else "";
              r.fs[dest] == destText + Block(destText, ToAppend(run.fs[src], destText))
  {
    if run.fault.Some? then run
    else if src !in run.fs then Fail(run, IoError(src))
    else
      var destText := if dest in run.fs then run.fs[dest] else "";
      match AppendUnique(run.fs[src], destText, dryRun)
      case NoNewContent => Log(run, Skip, dest)
      case WouldAppend(_) => Log(run, DryRun, dest)
      case Appended(added) => Put(run, dest, destText + added, Append)
  }

  /** `readJSON(p)`: the file must exist and parse. */
  function ReadJson(fs: FileSystem, p: Path, codec: Codec): (r: Result<Json, Fault>)
    ensures r.Success? <==> p in fs && codec.parse(fs[p]).Some?
    ensures r.Success? ==> r.value == codec.parse(fs[p]).value
  {
    if p !in fs then Failure(IoError(p))
    else match codec.parse(fs[p])
      case None => Failure(BadJson(p))
      case Some(v) => Success(v)
  }

  /** `writeJSON(dest, obj, force, dryRun)`: the same gate as `copyFile`,
      then the rendered value and a final line feed. */
  function WriteJson(run: Run, dest: Path, value: Json, codec: Codec, force: bool, dryRun: bool): (r: Run)
    ensures run.fault.Some? ==> r == run
    ensures run.fault.None? && Exists(run.fs, dest) && !force ==> r == Log(run, Skip, dest)
    ensures run.fault.None? && !(Exists(run.fs, dest) && !force) && dryRun ==> r == Log(run, DryRun, dest)
    ensures run.fault.None? && !(Exists(run.fs, dest) && !force) && !dryRun && r.fault.None? ==>
              r.fs == run.fs[dest := codec.render(value) + "\n"] && r.log == run.log + [Event(Write, dest)]
    ensures r.fs == run.fs || (ChangesAt(run.fs, r.fs, dest) && !(Exists(run.fs, dest) && !force) && !dryRun)
  {
    if run.fault.Some? then run
    else if Exists(run.fs, dest) && !force then Log(run, Skip, dest)
    else if dryRun then Log(run, DryRun, dest)
    else Put(run, dest, codec.render(value) + "\n", Write)
  }

  /** What one run works with: the DevRules root, the resolved repository,
      the ruleset name, the two switches, the template files (paths
      relative to the ruleset's `templates` directory, in the order the
      directory walk visits them) and the JSON codec. */
  datatype Ctx = Ctx(root: Path, repo: Path, rules: string, force: bool, dryRun: bool, listing: seq<Path>, codec: Codec)

  function RulesetDir(c: Ctx): Path {
    c.root + ["rulesets", c.rules]
  }

  function TemplatesDir(c: Ctx): Path {
    RulesetDir(c) + ["templates"]
  }

  function TemplatesDest(c: Ctx): Path {
    c.repo + ["templates", "devrules", c.rules]
  }

  function SettingsPath(c: Ctx): Path {
    c.repo + [".vscode", "settings.json"]
  }

  function BaseSettingsPath(c: Ctx): Path {
    c.root + ["shared", "vscode.settings.base.json"]
  }

  function OverrideSettingsPath(c: Ctx): Path {
    RulesetDir(c) + ["vscode.settings.json"]
  }

  /** The ruleset's `.gitignore`: appended to an existing one unless
      `force`, copied otherwise. */
  function GitIgnore(run: Run, c: Ctx): (r: Run)
    ensures run.fault.Some? ==> r == run
    ensures c.dryRun ==> r.fs == run.fs
    ensures r.fs == run.fs || ChangesAt(run.fs, r.fs, c.repo + [".gitignore"])
    ensures !c.force ==> KeepsGrowing(run.fs, r.fs, c.repo + [".gitignore"])
  {
    var src := RulesetDir(c) + [".gitignore"];
    var dest := c.repo + [".gitignore"];
    if run.fault.Some? || !Exists(run.fs, src) then run
    else if Exists(run.fs, dest) && !c.force then AppendUniqueFile(run, src, dest, c.dryRun)
    else CopyFile(run, src, dest, c.force, c.dryRun)
  }

  /** `copyDir(templatesDir, destTemplates)` over the listed template files:
      an existing destination is only reported (`appendOrSkip`) unless
      `force`, anything else goes through `copyFile`. */
  function CopyTemplates(run: Run, srcDir: Path, dstDir: Path, listing: seq<Path>, force: bool, dryRun: bool): (r: Run)
    ensures run.fault.Some? ==> r == run
    ensures dryRun ==> r.fs == run.fs
    ensures !force ==> Keeps(run.fs, r.fs)
    ensures SameOutside(run.fs, r.fs, dstDir)
    decreases |listing|
  {
    if |listing| == 0 || run.fault.Some? then run
    else
      var src := srcDir + listing[0];
      var dst := dstDir + listing[0];
      var next :=
        if Exists(run.fs, dst) && !force then Log(run, if dryRun then DryRun else Skip, dst)
        else CopyFile(run, src, dst, force, dryRun);
      assert Within(dstDir, dst) by {
        assert dst[..|dstDir|] == dstDir;
      }
      var r := CopyTemplates(next, srcDir, dstDir, listing[1..], force, dryRun);
      SameOutsideTrans(run.fs, next.fs, r.fs, dstDir);
      r
  }

  /** The destination of each listed template file. */
  function TemplateDests(dstDir: Path, listing: seq<Path>): set<Path> {
    set i | 0 <= i < |listing| :: dstDir + listing[i]
  }

  /** Only the listed destinations change. */
  lemma {:induction false} CopyTemplatesOnlyListed(run: Run, srcDir: Path, dstDir: Path, listing: seq<Path>, force: bool, dryRun: bool)
    ensures var r := CopyTemplates(run, srcDir, dstDir, listing, force, dryRun);
            forall p :: p in run.fs && p !in TemplateDests(dstDir, listing) ==> p in r.fs && r.fs[p] == run.fs[p]
    decreases |listing|
  {
    if |listing| > 0 && run.fault.None? {
      var src := srcDir + listing[0];
      var dst := dstDir + listing[0];
      var next :=
        if Exists(run.fs, dst) && !force then Log(run, if dryRun then DryRun else Skip, dst)
        else CopyFile(run, src, dst, force, dryRun);
      CopyTemplatesOnlyListed(next, srcDir, dstDir, listing[1..], force, dryRun);
      assert dst in TemplateDests(dstDir, listing);
      forall p | p in TemplateDests(dstDir, listing[1..])
        ensures p in TemplateDests(dstDir, listing)
      {
        var j :| 0 <= j < |listing[1..]| && p == dstDir + listing[1..][j];
        assert p == dstDir + listing[j + 1];
      }
    }
  }

  lemma AppendDistinct(dir: Path, a: Path, b: Path)
    requires a != b
    ensures dir + a != dir + b
  {
    assert a == (dir + a)[|dir|..];
    assert b == (dir + b)[|dir|..];
  }

  /** The template files in the order the directory walk visits them:
      each file below `dir` exactly once, as a path relative to `dir`. */
  predicate ListingOf(fs: FileSystem, dir: Path, listing: seq<Path>) {
    && (forall i, j :: 0 <= i < j < |listing| ==> listing[i] != listing[j])
    && (forall i :: 0 <= i < |listing| ==> |listing[i]| > 0 && dir + listing[i] in fs)
    && (forall p :: p in fs && Below(dir, p) ==> p[|dir|..] in listing)
  }

  /** With `force` and without a dry run, a copy that does not fail leaves
      every file below the templates directory at the same place below the
      destination, with the same contents, when the two directories are
      apart. */
  lemma CopyTemplatesForce(run: Run, srcDir: Path, dstDir: Path, listing: seq<Path>)
    requires run.fault.None?
    requires ListingOf(run.fs, srcDir, listing)
    requires Apart(srcDir, dstDir)
    requires CopyTemplates(run, srcDir, dstDir, listing, true, false).fault.None?
    ensures var r := CopyTemplates(run, srcDir, dstDir, listing, true, false);
            forall p :: p in run.fs && Below(srcDir, p) ==>
              dstDir + p[|srcDir|..] in r.fs && r.fs[dstDir + p[|srcDir|..]] == run.fs[p]
  {
    var r := CopyTemplates(run, srcDir, dstDir, listing, true, false);
    forall i, j | 0 <= i < |listing| && 0 <= j < |listing|
      ensures srcDir + listing[i] != dstDir + listing[j]
    {
      ApartBelow(srcDir, dstDir, listing[i]);
      assert Within(dstDir, dstDir + listing[j]) by { assert (dstDir + listing[j])[..|dstDir|] == dstDir; }
    }
    CopyListedForce(run, srcDir, dstDir, listing);
    forall p | p in run.fs && Below(srcDir, p)
      ensures dstDir + p[|srcDir|..] in r.fs && r.fs[dstDir + p[|srcDir|..]] == run.fs[p]
    {
      var i :| 0 <= i < |listing| && listing[i] == p[|srcDir|..];
      assert p == srcDir + listing[i];
    }
  }

  /** With `force` and without a dry run, a run that does not fail leaves
      every listed destination with its source's contents, when the listed
      paths are distinct and no source is itself a destination. */
  lemma {:induction false} CopyListedForce(run: Run, srcDir: Path, dstDir: Path, listing: seq<Path>)
    requires run.fault.None?
    requires forall i, j :: 0 <= i < j < |listing| ==> listing[i] != listing[j]
    requires forall i, j :: 0 <= i < |listing| && 0 <= j < |listing| ==> srcDir + listing[i] != dstDir + listing[j]
    requires CopyTemplates(run, srcDir, dstDir, listing, true, false).fault.None?
    ensures var r := CopyTemplates(run, srcDir, dstDir, listing, true, false);
            forall i :: 0 <= i < |listing| ==>
              srcDir + listing[i] in run.fs && dstDir + listing[i] in r.fs && r.fs[dstDir + listing[i]] == run.fs[srcDir + listing[i]]
    decreases |listing|
  {
    if |listing| > 0 {
      var src := srcDir + listing[0];
      var dst := dstDir + listing[0];
      var next := CopyFile(run, src, dst, true, false);
      var rest := listing[1..];
      var r := CopyTemplates(next, srcDir, dstDir, rest, true, false);
      assert r == CopyTemplates(run, srcDir, dstDir, listing, true, false);
      assert next.fault.None?;
      assert src in run.fs && next.fs == run.fs[dst := run.fs[src]];
      assert forall i, j :: 0 <= i < j < |rest| ==> rest[i] != rest[j] by {
        assert forall i :: 0 <= i < |rest| ==> rest[i] == listing[i + 1];
      }
      CopyListedForce(next, srcDir, dstDir, rest);
      CopyTemplatesOnlyListed(next, srcDir, dstDir, rest, true, false);
      forall j | 0 <= j < |rest|
        ensures dstDir + rest[j] != dst
      {
        assert rest[j] == listing[j + 1];
        AppendDistinct(dstDir, rest[j], listing[0]);
      }
      forall i | 0 <= i < |listing|
        ensures srcDir + listing[i] in run.fs && dstDir + listing[i] in r.fs && r.fs[dstDir + listing[i]] == run.fs[srcDir + listing[i]]
      {
        if i > 0 {
          assert listing[i] == rest[i - 1];
          assert srcDir + listing[i] != dst;
        }
      }
    }
  }

  function Templates(run: Run, c: Ctx): (r: Run)
    ensures run.fault.Some? ==> r == run
    ensures c.dryRun ==> r.fs == run.fs
    ensures !c.force ==> Keeps(run.fs, r.fs)
    ensures SameOutside(run.fs, r.fs, TemplatesDest(c))
  {
    if Exists(run.fs, TemplatesDir(c)) then CopyTemplates(run, TemplatesDir(c), TemplatesDest(c), c.listing, c.force, c.dryRun)
    else run
  }

  /** The settings merged from the bundle's two files, or the fault that
      stops the run before anything is written. */
  function MergedSettings(fs: FileSystem, c: Ctx): (r: Result<Json, Fault>)
    ensures r.Success? ==> r.value.JObj?
  {
    var base :- ReadJson(fs, BaseSettingsPath(c), c.codec);
    var override :- ReadJson(fs, OverrideSettingsPath(c), c.codec);
    match MergeSettings(base, override)
    case None => Failure(NullSettings)
    case Some(m) => Success(JObj(m))
  }

  /** Writes the merged settings to `.vscode/settings.json` of the
      repository; an existing file there is never read. */
  function Settings(run: Run, c: Ctx): (r: Run)
    ensures run.fault.Some? ==> r == run
    ensures c.dryRun ==> r.fs == run.fs
    ensures r.fs == run.fs || ChangesAt(run.fs, r.fs, SettingsPath(c))
    ensures !c.force ==> Keeps(run.fs, r.fs)
  {
    if run.fault.Some? then run
    else match MergedSettings(run.fs, c)
      case Failure(f) => Fail(run, f)
      case Success(merged) => WriteJson(run, SettingsPath(c), merged, c.codec, c.force, c.dryRun)
  }

  /** The placements of `main`, in order, once the ruleset is known. */
  function Steps(run: Run, c: Ctx): (r: Run)
    ensures c.dryRun ==> r.fs == run.fs
    ensures !c.force ==> KeepsGrowing(run.fs, r.fs, c.repo + [".gitignore"])
    ensures SameOutside(run.fs, r.fs, c.repo)
  {
    var r1 := CopyFile(run, RulesetDir(c) + ["PROJECT_RULES.md"], c.repo + ["PROJECT_RULES.md"], c.force, c.dryRun);
    var r2 := CopyFile(r1, RulesetDir(c) + ["copilot-instructions.md"], c.repo + [".github", "copilot-instructions.md"], c.force, c.dryRun);
    var r3 := GitIgnore(r2, c);
    var r4 := CopyFile(r3, c.root + ["shared", ".editorconfig"], c.repo + [".editorconfig"], c.force, c.dryRun);
    var r5 := Templates(r4, c);
    var r6 := Settings(r5, c);
    StepsKeep(run, r1, r2, r3, r4, r5, r6, c);
    StepsStayInRepo(run, r1, r2, r3, r4, r5, r6, c);
    r6
  }

  lemma StepsKeep(r0: Run, r1: Run, r2: Run, r3: Run, r4: Run, r5: Run, r6: Run, c: Ctx)
    requires r1 == CopyFile(r0, RulesetDir(c) + ["PROJECT_RULES.md"], c.repo + ["PROJECT_RULES.md"], c.force, c.dryRun)
    requires r2 == CopyFile(r1, RulesetDir(c) + ["copilot-instructions.md"], c.repo + [".github", "copilot-instructions.md"], c.force, c.dryRun)
    requires r3 == GitIgnore(r2, c)
    requires r4 == CopyFile(r3, c.root + ["shared", ".editorconfig"], c.repo + [".editorconfig"], c.force, c.dryRun)
    requires r5 == Templates(r4, c)
    requires r6 == Settings(r5, c)
    ensures !c.force ==> KeepsGrowing(r0.fs, r6.fs, c.repo + [".gitignore"])
  {
    if !c.force {
      var g := c.repo + [".gitignore"];
      KeepsOfNewFile(r0.fs, r1.fs, c.repo + ["PROJECT_RULES.md"]);
      KeepsOfNewFile(r1.fs, r2.fs, c.repo + [".github", "copilot-instructions.md"]);
      KeepsOfNewFile(r3.fs, r4.fs, c.repo + [".editorconfig"]);
      KeepsTrans(r0.fs, r1.fs, r2.fs);
      KeepsGrowingOfKeeps(r0.fs, r2.fs, g);
      KeepsGrowingTrans(r0.fs, r2.fs, r3.fs, g);
      KeepsTrans(r3.fs, r4.fs, r5.fs);
      KeepsTrans(r3.fs, r5.fs, r6.fs);
      KeepsGrowingOfKeeps(r3.fs, r6.fs, g);
      KeepsGrowingTrans(r0.fs, r3.fs, r6.fs, g);
    }
  }

  lemma StepsStayInRepo(r0: Run, r1: Run, r2: Run, r3: Run, r4: Run, r5: Run, r6: Run, c: Ctx)
    requires r1 == CopyFile(r0, RulesetDir(c) + ["PROJECT_RULES.md"], c.repo + ["PROJECT_RULES.md"], c.force, c.dryRun)
    requires r2 == CopyFile(r1, RulesetDir(c) + ["copilot-instructions.md"], c.repo + [".github", "copilot-instructions.md"], c.force, c.dryRun)
    requires r3 == GitIgnore(r2, c)
    requires r4 == CopyFile(r3, c.root + ["shared", ".editorconfig"], c.repo + [".editorconfig"], c.force, c.dryRun)
    requires r5 == Templates(r4, c)
    requires r6 == Settings(r5, c)
    ensures SameOutside(r0.fs, r4.fs, c.repo)
    ensures SameOutside(r0.fs, r5.fs, c.repo)
    ensures SameOutside(r0.fs, r6.fs, c.repo)
  {
    var repo := c.repo;
    InRepo(repo, ["PROJECT_RULES.md"]);
    InRepo(repo, [".github", "copilot-instructions.md"]);
    InRepo(repo, [".gitignore"]);
    InRepo(repo, [".editorconfig"]);
    InRepo(repo, ["templates", "devrules", c.rules]);
    InRepo(repo, [".vscode", "settings.json"]);
    OutsideOfChange(r0.fs, r1.fs, repo + ["PROJECT_RULES.md"], repo);
    OutsideOfChange(r1.fs, r2.fs, repo + [".github", "copilot-instructions.md"], repo);
    OutsideOfChange(r2.fs, r3.fs, repo + [".gitignore"], repo);
    OutsideOfChange(r3.fs, r4.fs, repo + [".editorconfig"], repo);
    WidenOutside(r4.fs, r5.fs, TemplatesDest(c), repo);
    OutsideOfChange(r5.fs, r6.fs, SettingsPath(c), repo);
    SameOutsideTrans(r0.fs, r1.fs, r2.fs, repo);
    SameOutsideTrans(r0.fs, r2.fs, r3.fs, repo);
    SameOutsideTrans(r0.fs, r3.fs, r4.fs, repo);
    SameOutsideTrans(r0.fs, r4.fs, r5.fs, repo);
    SameOutsideTrans(r0.fs, r5.fs, r6.fs, repo);
  }

  lemma InRepo(repo: Path, rel: Path)
    ensures Within(repo, repo + rel)
  {
    assert (repo + rel)[..|repo|] == repo;
  }

  /** The merged settings depend only on the two bundle files. */
  lemma MergedSettingsFrame(a: FileSystem, b: FileSystem, c: Ctx)
    requires forall p :: p in {BaseSettingsPath(c), OverrideSettingsPath(c)} ==>
               (p in a <==> p in b) && (p in a ==> a[p] == b[p])
    ensures MergedSettings(a, c) == MergedSettings(b, c)
  {
    assert BaseSettingsPath(c) in {BaseSettingsPath(c), OverrideSettingsPath(c)};
    assert OverrideSettingsPath(c) in {BaseSettingsPath(c), OverrideSettingsPath(c)};
  }

  /** With `force` and without a dry run, a run that does not fail writes
      the settings merged from the bundle's two files, whatever the
      repository's `.vscode/settings.json` held before. The bundle may lie
      inside the repository, as long as its settings files are not below
      the templates destination, the one place the earlier steps write to
      beyond four fixed file names. */
  lemma ForceWritesBundleSettings(run: Run, c: Ctx)
    requires run.fault.None? && c.force && !c.dryRun
    requires !Within(TemplatesDest(c), BaseSettingsPath(c)) && !Within(TemplatesDest(c), OverrideSettingsPath(c))
    requires Steps(run, c).fault.None?
    ensures MergedSettings(run.fs, c).Success?
    ensures SettingsPath(c) in Steps(run, c).fs
    ensures Steps(run, c).fs[SettingsPath(c)] == c.codec.render(MergedSettings(run.fs, c).value) + "\n"
  {
    var r5 := BeforeSettings(run, c);
    StepsSplit(run, c);
    SourcesUntouched(run, c);
    MergedSettingsFrame(run.fs, r5.fs, c);
  }

  /** The steps up to and including the template copy. */
  function BeforeSettings(run: Run, c: Ctx): Run {
    var r1 := CopyFile(run, RulesetDir(c) + ["PROJECT_RULES.md"], c.repo + ["PROJECT_RULES.md"], c.force, c.dryRun);
    var r2 := CopyFile(r1, RulesetDir(c) + ["copilot-instructions.md"], c.repo + [".github", "copilot-instructions.md"], c.force, c.dryRun);
    var r3 := GitIgnore(r2, c);
    var r4 := CopyFile(r3, c.root + ["shared", ".editorconfig"], c.repo + [".editorconfig"], c.force, c.dryRun);
    Templates(r4, c)
  }

  /** The run is the settings step after the steps before it. */
  lemma StepsSplit(run: Run, c: Ctx)
    ensures Steps(run, c) == Settings(BeforeSettings(run, c), c)
  {
  }

  /** Neither settings source of the bundle is touched before the settings
      step reads it. */
  lemma SourcesUntouched(run: Run, c: Ctx)
    requires !Within(TemplatesDest(c), BaseSettingsPath(c)) && !Within(TemplatesDest(c), OverrideSettingsPath(c))
    ensures Untouched(run.fs, BeforeSettings(run, c).fs, BaseSettingsPath(c))
    ensures Untouched(run.fs, BeforeSettings(run, c).fs, OverrideSettingsPath(c))
  {
    var r1 := CopyFile(run, RulesetDir(c) + ["PROJECT_RULES.md"], c.repo + ["PROJECT_RULES.md"], c.force, c.dryRun);
    var r2 := CopyFile(r1, RulesetDir(c) + ["copilot-instructions.md"], c.repo + [".github", "copilot-instructions.md"], c.force, c.dryRun);
    var r3 := GitIgnore(r2, c);
    var r4 := CopyFile(r3, c.root + ["shared", ".editorconfig"], c.repo + [".editorconfig"], c.force, c.dryRun);
    var r5 := Templates(r4, c);
    SourceUntouched(run, r1, r2, r3, r4, r5, c, BaseSettingsPath(c));
    SourceUntouched(run, r1, r2, r3, r4, r5, c, OverrideSettingsPath(c));
  }

  /** `p` is absent from both file systems or present in both with the same
      text. */
  predicate Untouched(a: FileSystem, b: FileSystem, p: Path) {
    (p in a <==> p in b) && (p in a ==> a[p] == b[p])
  }

  /** A file whose name is none of the four fixed destinations and which is
      not below the templates destination is untouched by the steps before
      the settings step. */
  lemma SourceUntouched(r0: Run, r1: Run, r2: Run, r3: Run, r4: Run, r5: Run, c: Ctx, p: Path)
    requires r1 == CopyFile(r0, RulesetDir(c) + ["PROJECT_RULES.md"], c.repo + ["PROJECT_RULES.md"], c.force, c.dryRun)
    requires r2 == CopyFile(r1, RulesetDir(c) + ["copilot-instructions.md"], c.repo + [".github", "copilot-instructions.md"], c.force, c.dryRun)
    requires r3 == GitIgnore(r2, c)
    requires r4 == CopyFile(r3, c.root + ["shared", ".editorconfig"], c.repo + [".editorconfig"], c.force, c.dryRun)
    requires r5 == Templates(r4, c)
    requires |p| > 0 && p[|p| - 1] !in {"PROJECT_RULES.md", "copilot-instructions.md", ".gitignore", ".editorconfig"}
    requires !Within(TemplatesDest(c), p)
    ensures Untouched(r0.fs, r5.fs, p)
  {
    UntouchedAt(r0.fs, r1.fs, c.repo + ["PROJECT_RULES.md"], p);
    UntouchedAt(r1.fs, r2.fs, c.repo + [".github", "copilot-instructions.md"], p);
    UntouchedAt(r2.fs, r3.fs, c.repo + [".gitignore"], p);
    UntouchedAt(r3.fs, r4.fs, c.repo + [".editorconfig"], p);
  }

  /** A step that writes at most `dest` leaves a path with another last
      segment untouched. */
  lemma UntouchedAt(a: FileSystem, b: FileSystem, dest: Path, p: Path)
    requires b == a || ChangesAt(a, b, dest)
    requires |p| > 0 && |dest| > 0 && p[|p| - 1] != dest[|dest| - 1]
    ensures Untouched(a, b, p)
  {
    assert p != dest;
  }

  /** With `force` and without a dry run, a run that does not fail leaves
      the repository's PROJECT_RULES.md equal to the ruleset's. */
  lemma ForceCopiesProjectRules(run: Run, c: Ctx)
    requires run.fault.None? && c.force && !c.dryRun
    requires Steps(run, c).fault.None?
    ensures RulesetDir(c) + ["PROJECT_RULES.md"] in run.fs
    ensures c.repo + ["PROJECT_RULES.md"] in Steps(run, c).fs
    ensures Steps(run, c).fs[c.repo + ["PROJECT_RULES.md"]] == run.fs[RulesetDir(c) + ["PROJECT_RULES.md"]]
  {
    var dest := c.repo + ["PROJECT_RULES.md"];
    var r1 := CopyFile(run, RulesetDir(c) + ["PROJECT_RULES.md"], dest, c.force, c.dryRun);
    var r2 := CopyFile(r1, RulesetDir(c) + ["copilot-instructions.md"], c.repo + [".github", "copilot-instructions.md"], c.force, c.dryRun);
    var r3 := GitIgnore(r2, c);
    var r4 := CopyFile(r3, c.root + ["shared", ".editorconfig"], c.repo + [".editorconfig"], c.force, c.dryRun);
    var r5 := Templates(r4, c);
    var r6 := Settings(r5, c);
    assert r1.fault.None?;
    SiblingsDiffer(c.repo, "PROJECT_RULES.md", [".github", "copilot-instructions.md"]);
    KeptAt(r1.fs, r2.fs, c.repo + [".github", "copilot-instructions.md"], dest);
    SiblingsDiffer(c.repo, "PROJECT_RULES.md", [".gitignore"]);
    KeptAt(r2.fs, r3.fs, c.repo + [".gitignore"], dest);
    SiblingsDiffer(c.repo, "PROJECT_RULES.md", [".editorconfig"]);
    KeptAt(r3.fs, r4.fs, c.repo + [".editorconfig"], dest);
    assert !Within(TemplatesDest(c), dest);
    SiblingsDiffer(c.repo, "PROJECT_RULES.md", [".vscode", "settings.json"]);
    KeptAt(r5.fs, r6.fs, SettingsPath(c), dest);
  }

  /** With `force` and without a dry run, a run that does not fail copies
      every file below the ruleset's `templates` directory to the same place
      below `templates/devrules/<rules>` of the repository, when the listing
      is that directory's walk, the repository does not lie inside it, and
      it is apart from its destination. */
  lemma ForceCopiesTemplates(run: Run, c: Ctx)
    requires run.fault.None? && c.force && !c.dryRun
    requires !Within(TemplatesDir(c), c.repo) && Apart(TemplatesDir(c), TemplatesDest(c))
    requires ListingOf(run.fs, TemplatesDir(c), c.listing)
    requires Steps(run, c).fault.None?
    ensures forall p :: p in run.fs && Below(TemplatesDir(c), p) ==>
              TemplatesDest(c) + p[|TemplatesDir(c)|..] in Steps(run, c).fs
              && Steps(run, c).fs[TemplatesDest(c) + p[|TemplatesDir(c)|..]] == run.fs[p]
  {
    var src := TemplatesDir(c);
    var dst := TemplatesDest(c);
    var r1 := CopyFile(run, RulesetDir(c) + ["PROJECT_RULES.md"], c.repo + ["PROJECT_RULES.md"], c.force, c.dryRun);
    var r2 := CopyFile(r1, RulesetDir(c) + ["copilot-instructions.md"], c.repo + [".github", "copilot-instructions.md"], c.force, c.dryRun);
    var r3 := GitIgnore(r2, c);
    var r4 := CopyFile(r3, c.root + ["shared", ".editorconfig"], c.repo + [".editorconfig"], c.force, c.dryRun);
    var r5 := Templates(r4, c);
    var r6 := Settings(r5, c);
    assert r5.fault.None? && r4.fault.None?;
    FirstStepsKeepTemplates(run, r1, r2, r3, r4, c);
    forall p | p in run.fs && Below(src, p)
      ensures dst + p[|src|..] in r6.fs && r6.fs[dst + p[|src|..]] == run.fs[p]
    {
      assert p in r4.fs && r4.fs[p] == run.fs[p];
      assert IsDir(r4.fs, src);
      CopyTemplatesForce(r4, src, dst, c.listing);
      TemplateNotSettings(c, p[|src|..]);
      KeptAt(r5.fs, r6.fs, SettingsPath(c), dst + p[|src|..]);
    }
  }

  /** Every file of `a` below `dir` is in `b` with the same contents. */
  predicate KeptBelow(a: FileSystem, b: FileSystem, dir: Path) {
    forall p :: p in a && Below(dir, p) ==> p in b && b[p] == a[p]
  }

  /** The four placements before the templates leave the templates
      directory and its listing as they were. */
  lemma FirstStepsKeepTemplates(r0: Run, r1: Run, r2: Run, r3: Run, r4: Run, c: Ctx)
    requires r1 == CopyFile(r0, RulesetDir(c) + ["PROJECT_RULES.md"], c.repo + ["PROJECT_RULES.md"], c.force, c.dryRun)
    requires r2 == CopyFile(r1, RulesetDir(c) + ["copilot-instructions.md"], c.repo + [".github", "copilot-instructions.md"], c.force, c.dryRun)
    requires r3 == GitIgnore(r2, c)
    requires r4 == CopyFile(r3, c.root + ["shared", ".editorconfig"], c.repo + [".editorconfig"], c.force, c.dryRun)
    requires !Within(TemplatesDir(c), c.repo)
    requires ListingOf(r0.fs, TemplatesDir(c), c.listing)
    ensures ListingOf(r4.fs, TemplatesDir(c), c.listing)
    ensures KeptBelow(r0.fs, r4.fs, TemplatesDir(c))
  {
    StepKeepsTemplates(r0.fs, r1.fs, c, ["PROJECT_RULES.md"]);
    StepKeepsTemplates(r1.fs, r2.fs, c, [".github", "copilot-instructions.md"]);
    StepKeepsTemplates(r2.fs, r3.fs, c, [".gitignore"]);
    StepKeepsTemplates(r3.fs, r4.fs, c, [".editorconfig"]);
  }

  /** A step that writes at most `repo + rel`, where no segment of `rel` is
      `templates`, leaves the files below the templates directory and their
      listing as they were. */
  lemma StepKeepsTemplates(a: FileSystem, b: FileSystem, c: Ctx, rel: Path)
    requires b == a || ChangesAt(a, b, c.repo + rel)
    requires forall k :: 0 <= k < |rel| ==> rel[k] != "templates"
    requires !Within(TemplatesDir(c), c.repo)
    requires ListingOf(a, TemplatesDir(c), c.listing)
    ensures ListingOf(b, TemplatesDir(c), c.listing)
    ensures KeptBelow(a, b, TemplatesDir(c))
  {
    var src := TemplatesDir(c);
    var dest := c.repo + rel;
    if |src| <= |c.repo| {
      assert dest[..|src|] == c.repo[..|src|];
    } else if |src| <= |dest| {
      assert src[|src| - 1] == "templates";
      assert dest[|src| - 1] == rel[|src| - 1 - |c.repo|];
    }
    assert !Within(src, dest);
    forall p | Below(src, p)
      ensures p != dest
    {
      assert p[..|src|] == src;
    }
  }

  /** A template destination is never the settings file. */
  lemma TemplateNotSettings(c: Ctx, rel: Path)
    ensures TemplatesDest(c) + rel != SettingsPath(c)
  {
    assert (TemplatesDest(c) + rel)[|c.repo|] == "templates";
    assert SettingsPath(c)[|c.repo|] == ".vscode";
  }

  /** Two paths in the same directory whose first segments differ are
      different paths. */
  lemma SiblingsDiffer(dir: Path, name: string, other: Path)
    requires |other| >= 1 && other[0] != name
    ensures dir + [name] != dir + other
  {
    assert (dir + [name])[|dir|] != (dir + other)[|dir|];
  }

  /** A step that writes at most `dest` keeps every other file. */
  lemma KeptAt(a: FileSystem, b: FileSystem, dest: Path, p: Path)
    requires b == a || ChangesAt(a, b, dest)
    requires p in a && p != dest
    ensures p in b && b[p] == a[p]
  {
  }

  /** `args.rules ?? detectRuleset(repo)`, with `""` for no ruleset (both
      are falsy). */
  function ResolveRules(rules: Option<string>, tree: seq<Entry>): (r: string)
    ensures rules.Some? ==> r == rules.value
    ensures rules.None? ==> (r != "" <==> DetectRuleset(tree).Some?)
  {
    match rules
    case Some(x) => x
    case None =>
      match DetectRuleset(tree)
      case Some(n) => n
      case None => ""
  }

  /** `main()` of tools/apply-rules.mjs. `repo` is `path.resolve(args.repo)`
      and `tree` the same repository seen as a directory tree. */
  function ApplyRules(fs: FileSystem, root: Path, repo: Path, args: ApplyArgs, tree: seq<Entry>,
                      listing: seq<Path>, codec: Codec): (r: Run)
    ensures args.help ==> r == Run(fs, [], None)
    ensures args.dryRun ==> r.fs == fs
    ensures !args.force ==> KeepsGrowing(fs, r.fs, repo + [".gitignore"])
    ensures SameOutside(fs, r.fs, repo)
    ensures !args.help && (args.repo.None? || ResolveRules(args.rules, tree) == "") ==> r.fs == fs && r.fault.Some?
    ensures !args.help && args.repo.Some? && ResolveRules(args.rules, tree) != ""
            && !Exists(fs, root + ["rulesets", ResolveRules(args.rules, tree)]) ==>
              r == Run(fs, [], Some(RulesetNotFound(root + ["rulesets", ResolveRules(args.rules, tree)])))
  {
    if args.help then Run(fs, [], None)
    else if args.repo.None? then Run(fs, [], Some(NoRepo))
    else
      var rules := ResolveRules(args.rules, tree);
      if rules == "" then Run(fs, [], Some(NoRuleset))
      else if !Exists(fs, root + ["rulesets", rules]) then Run(fs, [], Some(RulesetNotFound(root + ["rulesets", rules])))
      else Steps(Run(fs, [], None), Ctx(root, repo, rules, args.force, args.dryRun, listing, codec))
  }

  function CtxOf(root: Path, repo: Path, args: ApplyArgs, tree: seq<Entry>, listing: seq<Path>, codec: Codec): Ctx {
    Ctx(root, repo, ResolveRules(args.rules, tree), args.force, args.dryRun, listing, codec)
  }
}

=== FILE: shell.dfy ===
/** How a POSIX shell splits an unquoted command line into words: at runs
    of space, tab and line feed (the default `IFS`). Quotes, escapes,
    expansions and other metacharacters are not modelled. */
module Shell {
  import opened Strings

  predicate IsFieldSeparator(c: char) {
    c == ' ' || c == '\t' || c == '\n'
  }

  /** The text holds no field separator, so the shell keeps it one word. */
  predicate OneField(s: string) {
    forall i :: 0 <= i < |s| ==> !IsFieldSeparator(s[i])
  }

  /** Every word is non-empty and free of separators. */
  predicate Words(parts: seq<string>) {
    forall i :: 0 <= i < |parts| ==> |parts[i]| > 0 && OneField(parts[i])
  }

  lemma WordsAppend(a: seq<string>, b: seq<string>)
    requires Words(a) && Words(b)
    ensures Words(a + b)
  {
    assert forall i :: 0 <= i < |a + b| ==> (a + b)[i] == (if i < |a| then a[i] else b[i - |a|]);
  }

  /** Length of the leading run of non-separators. */
  function WordLen(s: string): (n: nat)
    ensures n <= |s|
    ensures |s| > 0 && !IsFieldSeparator(s[0]) ==> n >= 1
    decreases |s|
  {
    if |s| == 0 || IsFieldSeparator(s[0]) then 0 else 1 + WordLen(s[1..])
  }

  /** The words of an unquoted command line. */
  function Fields(s: string): seq<string>
    decreases |s|
  {
    if |s| == 0 then []
    else if IsFieldSeparator(s[0]) then Fields(s[1..])
    else
      var n := WordLen(s);
      [s[..n]] + Fields(s[n..])
  }

  /** A word without separators runs up to the next separator or the end. */
  lemma {:induction false} WordLenOf(p: string, t: string)
    requires OneField(p)
    requires |t| == 0 || IsFieldSeparator(t[0])
    ensures WordLen(p + t) == |p|
    decreases |p|
  {
    if |p| > 0 {
      assert (p + t)[1..] == p[1..] + t;
      WordLenOf(p[1..], t);
    }
  }

  /** A word followed by a space is the first word of the line. */
  lemma FieldsWord(p: string, t: string)
    requires |p| > 0 && OneField(p)
    ensures Fields(p + " " + t) == [p] + Fields(t)
  {
    var s := p + " " + t;
    WordLenOf(p, " " + t);
    assert p + " " + t == p + (" " + t);
    assert s[..|p|] == p;
    assert s[|p|..] == " " + t;
    assert (" " + t)[1..] == t;
  }

  /** Words joined by single spaces are split back into those words. */
  lemma {:induction false} FieldsJoin(parts: seq<string>)
    requires Words(parts)
    ensures Fields(Join(parts, " ")) == parts
    decreases |parts|
  {
    if |parts| == 1 {
      WordLenOf(parts[0], "");
      assert parts[0] + "" == parts[0];
      assert parts[0][|parts[0]|..] == "";
    } else if |parts| > 1 {
      JoinCons(parts[0], parts[1..], " ");
      assert [parts[0]] + parts[1..] == parts;
      FieldsWord(parts[0], Join(parts[1..], " "));
      FieldsJoin(parts[1..]);
    }
  }

  /** Joining a part in front puts that part and the separator first. */
  lemma {:induction false} JoinCons(p: string, rest: seq<string>, sep: string)
    requires |rest| >= 1
    ensures Join([p] + rest, sep) == p + sep + Join(rest, sep)
    decreases |rest|
  {
    var all := [p] + rest;
    if |rest| == 1 {
      assert all[..1] == [p];
    } else {
      var init := rest[..|rest| - 1];
      assert all[..|all| - 1] == [p] + init;
      JoinCons(p, init, sep);
      assert rest[..|rest| - 1] == init;
    }
  }
}

=== FILE: strings.dfy ===
/** Text helpers shared by the model: joining, prefix and suffix tests,
    JavaScript whitespace, and decimal rendering of integers. */
module Strings {

  /** `parts.join(sep)` as JavaScript, Python and C# define it. */
  function Join(parts: seq<string>, sep: string): string
    decreases |parts|
  {
    if |parts| == 0 then ""
    else if |parts| == 1 then parts[0]
    else Join(parts[..|parts| - 1], sep) + sep + parts[|parts| - 1]
  }

  predicate StartsWith(s: string, prefix: string) {
    |prefix| <= |s| && s[..|prefix|] == prefix
  }

  predicate EndsWith(s: string, suffix: string) {
    |suffix| <= |s| && s[|s| - |suffix|..] == suffix
  }

  /** The characters JavaScript's `trim()` and the regular-expression class
      `\s` both match: WhiteSpace (including every space separator) and
      LineTerminator. */
  predicate IsJsSpace(c: char) {
    var u := c as int;
    || u == 0x09 || u == 0x0A || u == 0x0B || u == 0x0C || u == 0x0D
    || u == 0x20 || u == 0xA0 || u == 0x1680 || (0x2000 <= u <= 0x200A)
    || u == 0x2028 || u == 0x2029 || u == 0x202F || u == 0x205F
    || u == 0x3000 || u == 0xFEFF
  }

  /** `s.trim() === ""`: the text consists of whitespace only. */
  predicate IsBlank(s: string) {
    forall i :: 0 <= i < |s| ==> IsJsSpace(s[i])
  }

  /** Length of the longest whitespace prefix of `s` (what `/^\s+/` or
      `/^\s*` consumes). */
  function LeadingSpace(s: string): (n: nat)
    ensures n <= |s|
    ensures IsBlank(s[..n])
    ensures n < |s| ==> !IsJsSpace(s[n])
    decreases |s|
  {
    if |s| == 0 || !IsJsSpace(s[0]) then 0
    else 1 + LeadingSpace(s[1..])
  }

  predicate IsDigit(c: char) {
    '0' <= c <= '9'
  }

  /** The decimal digits of `n` without leading zeros, as `String(n)` and
      Python's `str(n)` print a non-negative integer. */
  function NatToString(n: nat): (s: string)
    ensures |s| >= 1
    ensures forall i :: 0 <= i < |s| ==> IsDigit(s[i])
    ensures |s| > 1 ==> s[0] != '0'
    decreases n
  {
    var d := [(('0' as int) + n % 10) as char];
    if n < 10 then d else NatToString(n / 10) + d
  }

  /** Decimal rendering of an integer, with a leading `-` when negative. */
  function IntToString(i: int): (s: string)
    ensures |s| >= 1
    ensures i < 0 <==> s[0] == '-'
  {
    if i < 0 then "-" + NatToString(-i) else NatToString(i)
  }

  /** Joining one more part appends the separator and that part. */
  lemma JoinSnoc(parts: seq<string>, p: string, sep: string)
    requires |parts| >= 1
    ensures Join(parts + [p], sep) == Join(parts, sep) + sep + p
  {
    assert (parts + [p])[..|parts|] == parts;
  }
}

=== FILE: tables.dfy ===
/** The CREATE TABLE text the four table templates build, and the cell
    values a metadata row holds. */
module CreateTable {
  import opened Strings
  import opened Lines

  /** A value of a metadata row (a JSON scalar / a Python scalar). Numbers
      are integers. */
  datatype Cell = Null | Bool(b: bool) | Num(n: int) | Str(s: string)

  /** The separator between column definitions. */
  const Sep: string := ",\n  "

  /** `CREATE TABLE name (\n  defs\n);` with the definitions joined by
      `",\n  "`, as every template writes it. */
  function Script(name: string, defs: seq<string>): string {
    "CREATE TABLE " + name + " (\n  " + Join(defs, Sep) + "\n);"
  }

  /** Adds a comma to the last of some lines. */
  function Comma(lines: seq<string>): seq<string>
    requires |lines| >= 1
  {
    lines[..|lines| - 1] + [lines[|lines| - 1] + ","]
  }

  /** One indented line per definition, each but the last ending with a
      comma. */
  function Body(defs: seq<string>): (lines: seq<string>)
    requires |defs| >= 1
    ensures |lines| == |defs|
    decreases |defs|
  {
    if |defs| == 1 then ["  " + defs[0]]
    else Comma(Body(defs[..|defs| - 1])) + ["  " + defs[|defs| - 1]]
  }

  lemma {:induction false} BodyAt(defs: seq<string>, i: nat)
    requires |defs| >= 1 && i < |defs|
    ensures Body(defs)[i] == "  " + defs[i] + (if i + 1 < |defs| then "," else "")
    decreases |defs|
  {
    if |defs| > 1 && i < |defs| - 1 {
      var front := defs[..|defs| - 1];
      BodyAt(front, i);
      assert front[i] == defs[i];
    }
  }

  lemma {:induction false} JoinComma(lines: seq<string>)
    requires |lines| >= 1
    ensures Join(Comma(lines), "\n") == Join(lines, "\n") + ","
  {
    var n := |lines|;
    var last := lines[n - 1];
    if n == 1 {
      assert Comma(lines) == [last + ","];
    } else {
      var head := lines[..n - 1];
      assert lines == head + [last];
      assert Comma(lines) == head + [last + ","];
      JoinSnoc(head, last, "\n");
      JoinSnoc(head, last + ",", "\n");
      var j := Join(head, "\n");
      assert j + "\n" + (last + ",") == (j + "\n" + last) + ",";
    }
  }

  /** The body lines joined by line feeds are the definitions joined by
      the separator, indented. */
  lemma {:induction false} JoinBody(defs: seq<string>)
    requires |defs| >= 1
    ensures Join(Body(defs), "\n") == "  " + Join(defs, Sep)
    decreases |defs|
  {
    if |defs| > 1 {
      var front := defs[..|defs| - 1];
      var last := defs[|defs| - 1];
      JoinBody(front);
      JoinComma(Body(front));
      JoinSnoc(Comma(Body(front)), "  " + last, "\n");
      assert front + [last] == defs;
      JoinSnoc(front, last, Sep);
    }
  }

  lemma {:induction false} JoinWrapFront(head: string, body: seq<string>, last: string)
    ensures Join([head] + body + [last], "\n") == head + "\n" + (if |body| == 0 then "" else Join(body, "\n") + "\n") + last
    decreases |body|
  {
    if |body| == 0 {
      assert [head] + body + [last] == [head] + [last];
      JoinSnoc([head], last, "\n");
    } else {
      var front := body[..|body| - 1];
      JoinWrapFront(head, front, body[|body| - 1]);
      assert [head] + body == [head] + front + [body[|body| - 1]];
      JoinSnoc([head] + body, last, "\n");
      if |front| > 0 {
        assert front + [body[|body| - 1]] == body;
        JoinSnoc(front, body[|body| - 1], "\n");
      }
    }
  }

  /** Read line by line, a script with at least one column is its header,
      one indented line per definition in order (every one but the last
      ending with a comma) and the closing line, provided neither the name
      nor a definition holds a line feed. */
  lemma ScriptLayout(name: string, defs: seq<string>)
    requires |defs| >= 1
    requires '\n' !in name && forall i :: 0 <= i < |defs| ==> '\n' !in defs[i]
    ensures var ls := SplitLF(Script(name, defs));
      && |ls| == |defs| + 2
      && ls[0] == "CREATE TABLE " + name + " ("
      && ls[|ls| - 1] == ");"
      && forall i :: 0 <= i < |defs| ==> ls[i + 1] == "  " + defs[i] + (if i + 1 < |defs| then "," else "")
  {
    var head := "CREATE TABLE " + name + " (";
    var body := Body(defs);
    var lines := [head] + body + [");"];
    JoinBody(defs);
    JoinWrapFront(head, body, ");");
    assert Script(name, defs) == Join(lines, "\n");
    forall i | 0 <= i < |defs|
      ensures body[i] == "  " + defs[i] + (if i + 1 < |defs| then "," else "")
      ensures '\n' !in body[i]
    {
      BodyAt(defs, i);
      assert body[i] == "  " + defs[i] + (if i + 1 < |defs| then "," else "");
    }
    forall i | 0 <= i < |lines| ensures '\n' !in lines[i] {
      if 0 < i < |lines| - 1 {
        assert lines[i] == body[i - 1];
      }
    }
    SplitJoinLF(lines);
    assert forall i :: 0 <= i < |defs| ==> lines[i + 1] == body[i];
  }

  /** A table without columns still gets an (indented, empty) body line. */
  lemma EmptyScript(name: string)
    ensures Script(name, []) == "CREATE TABLE " + name + " (\n  \n);"
  {
  }
}

/** The `Column` and `Table` classes of rulesets/node-js/templates/Table.js
    and rulesets/node-ts/templates/Table.ts, which hold the same code (the
    TypeScript one only adds `any` annotations). */
module JsTable {
  import opened Wrappers
  import opened Strings
  import opened Lines
  import opened CreateTable

  /** `${v}` (`String(v)`): `undefined`, `null`, `true`/`false`, the
      decimal digits of an integer, or the string itself. */
  function Show(v: Option<Cell>): string {
    match v
    case None => "undefined"
    case Some(Null) => "null"
    case Some(Bool(b)) => if b then "true" else "false"
    case Some(Num(n)) => IntToString(n)
    case Some(Str(s)) => s
  }

  /** ToBoolean: `null`, `false`, `0` and `""` are falsy. */
  predicate Truthy(v: Cell) {
    match v
    case Null => false
    case Bool(b) => b
    case Num(n) => n != 0
    case Str(s) => s != ""
  }

  /** The object passed to `new Column(...)`; `None` is `undefined`. */
  datatype ColumnInit = ColumnInit(name: Option<Cell>, dataType: Option<Cell>, nullable: Option<Cell>, defaultValue: Option<Cell>)

  datatype Column = Column(name: Option<Cell>, dataType: Option<Cell>, nullable: bool, defaultValue: Cell)

  /** The constructor: `nullable = false` and `defaultValue = null` apply
      to `undefined` only, then `!!nullable`. */
  function NewColumn(init: ColumnInit): (c: Column)
    ensures c.name == init.name && c.dataType == init.dataType
  {
    var nullable := match init.nullable case None => Bool(false) case Some(v) => v;
    var dflt := match init.defaultValue case None => Null case Some(v) => v;
    Column(init.name, init.dataType, Truthy(nullable), dflt)
  }

  /** Left out, `nullable` is false and the default is `null`; given, it
      is coerced by truthiness, so the string "NO" makes a nullable column
      and the explicit `null` default is kept. */
  lemma ColumnDefaults(name: Option<Cell>, dataType: Option<Cell>, v: Cell)
    ensures NewColumn(ColumnInit(name, dataType, None, None)) == Column(name, dataType, false, Null)
    ensures NewColumn(ColumnInit(name, dataType, Some(v), None)).nullable <==> v != Null && v != Bool(false) && v != Num(0) && v != Str("")
    ensures NewColumn(ColumnInit(name, dataType, Some(Str("NO")), None)).nullable
    ensures NewColumn(ColumnInit(name, dataType, None, Some(Null))).defaultValue == Null
  {
  }

  /** `toDefinition()`. */
  function ToDefinition(c: Column): string {
    Show(c.name) + " " + Show(c.dataType) + (if c.nullable then " NULL" else " NOT NULL")
      + (if Truthy(c.defaultValue) then " DEFAULT " + Show(Some(c.defaultValue)) else "")
  }

  /** A definition is the name, a space, the type, exactly one of " NULL"
      and " NOT NULL" (by `nullable`), then a DEFAULT clause that is there
      exactly when the default is truthy: 0, "" and false are dropped. */
  lemma DefinitionShape(c: Column)
    ensures exists nullness, clause ::
      && ToDefinition(c) == Show(c.name) + " " + Show(c.dataType) + nullness + clause
      && (nullness == " NULL" <==> c.nullable) && (nullness == " NOT NULL" <==> !c.nullable)
      && (clause == "" <==> !Truthy(c.defaultValue))
      && (clause != "" ==> clause == " DEFAULT " + Show(Some(c.defaultValue)))
  {
    var nullness := if c.nullable then " NULL" else " NOT NULL";
    var clause := if Truthy(c.defaultValue) then " DEFAULT " + Show(Some(c.defaultValue)) else "";
    assert ToDefinition(c) == Show(c.name) + " " + Show(c.dataType) + nullness + clause;
    assert " NULL" != " NOT NULL" by { assert |" NULL"| != |" NOT NULL"|; }
  }

  datatype Table = Table(name: Option<Cell>, columns: seq<Column>)

  /** The constructor: `columns = []` applies to `undefined`, and each
      entry becomes `new Column(c)`. */
  function NewTable(name: Option<Cell>, columns: Option<seq<ColumnInit>>): (t: Table)
    ensures t.name == name
    ensures columns.None? ==> t.columns == []
    ensures columns.Some? ==> |t.columns| == |columns.value|
    ensures columns.Some? ==> forall i :: 0 <= i < |t.columns| ==> t.columns[i] == NewColumn(columns.value[i])
  {
    var inits := match columns case None => [] case Some(cs) => cs;
    Table(name, seq(|inits|, i requires 0 <= i < |inits| => NewColumn(inits[i])))
  }

  /** A raw metadata row; a missing key reads as `undefined`. */
  type Row = map<string, Cell>

  function Get(r: Row, k: string): Option<Cell> {
    if k in r then Some(r[k]) else None
  }

  /** The column object `fromRows` builds from one row. */
  function RowInit(r: Row): ColumnInit {
    ColumnInit(Get(r, "column_name"), Get(r, "data_type"), Get(r, "is_nullable"), Get(r, "column_default"))
  }

  /** `rows[0]?.table_name ?? 'unknown'`. */
  function RowsName(rows: seq<Row>): Cell {
    if |rows| == 0 then Str("unknown")
    else match Get(rows[0], "table_name")
      case None => Str("unknown")
      case Some(Null) => Str("unknown")
      case Some(v) => v
  }

  /** `Table.fromRows(rows)`. */
  function FromRows(rows: seq<Row>): Table {
    NewTable(Some(RowsName(rows)), Some(seq(|rows|, i requires 0 <= i < |rows| => RowInit(rows[i]))))
  }

  /** One column per row, in row order, with each column's name, type,
      nullability and default read from the row's `column_name`,
      `data_type`, `is_nullable` and `column_default`. */
  lemma FromRowsColumns(rows: seq<Row>)
    ensures var t := FromRows(rows);
      && |t.columns| == |rows|
      && forall i :: 0 <= i < |rows| ==>
           && t.columns[i].name == Get(rows[i], "column_name")
           && t.columns[i].dataType == Get(rows[i], "data_type")
           && (t.columns[i].nullable <==> "is_nullable" in rows[i] && Truthy(rows[i]["is_nullable"]))
           && t.columns[i].defaultValue == (if "column_default" in rows[i] then rows[i]["column_default"] else Null)
  {
  }

  /** The table is named after the first row's `table_name`, or 'unknown'
      when there is no row or that field is missing or `null`. */
  lemma FromRowsName(rows: seq<Row>)
    ensures var t := FromRows(rows);
      && ((|rows| == 0 || "table_name" !in rows[0] || rows[0]["table_name"] == Null) ==> t.name == Some(Str("unknown")))
      && ((|rows| > 0 && "table_name" in rows[0] && rows[0]["table_name"] != Null) ==> t.name == Some(rows[0]["table_name"]))
  {
  }

  /** `this.columns.map(c => c.toDefinition())`. */
  function Definitions(t: Table): (defs: seq<string>)
    ensures |defs| == |t.columns|
    ensures forall i :: 0 <= i < |defs| ==> defs[i] == ToDefinition(t.columns[i])
  {
    seq(|t.columns|, i requires 0 <= i < |t.columns| => ToDefinition(t.columns[i]))
  }

  /** `toCreateScript()`. */
  function ToCreateScript(t: Table): string {
    Script(Show(t.name), Definitions(t))
  }

  /** The script of rows whose texts hold no line feed lists, line by
      line, one definition per row in row order. */
  lemma FromRowsScriptLayout(rows: seq<Row>)
    requires |rows| >= 1
    requires '\n' !in Show(Some(RowsName(rows)))
    requires forall i :: 0 <= i < |rows| ==> '\n' !in ToDefinition(FromRows(rows).columns[i])
    ensures var ls := SplitLF(ToCreateScript(FromRows(rows)));
      && |ls| == |rows| + 2
      && ls[0] == "CREATE TABLE " + Show(Some(RowsName(rows))) + " ("
      && forall i :: 0 <= i < |rows| ==>
           ls[i + 1] == "  " + ToDefinition(NewColumn(RowInit(rows[i]))) + (if i + 1 < |rows| then "," else "")
  {
    var t := FromRows(rows);
    var defs := Definitions(t);
    assert forall i :: 0 <= i < |rows| ==> t.columns[i] == NewColumn(RowInit(rows[i]));
    ScriptLayout(Show(t.name), defs);
  }
}

/** `Column` and `Table` of rulesets/python-fastapi/templates/models.py. */
module PyModels {
  import opened Strings
  import opened CreateTable

  /** `str(v)` of a scalar: `None`, `True`/`False`, decimal digits, or the
      string itself. */
  function PyStr(v: Cell): string {
    match v
    case Null => "None"
    case Bool(b) => if b then "True" else "False"
    case Num(n) => IntToString(n)
    case Str(s) => s
  }

  /** A validated column: `default` is `None` (`Null`) or any scalar. */
  datatype Column = Column(name: string, dataType: string, nullable: bool, default: Cell)

  /** One definition of `to_create_script`. */
  function Definition(c: Column): string {
    c.name + " " + c.dataType + (if c.nullable then " NULL" else " NOT NULL")
      + (if c.default != Null then " DEFAULT " + PyStr(c.default) else "")
  }

  /** The DEFAULT clause is there exactly when `default is not None`, so
      0, "" and False are kept, rendered by `str()`. */
  lemma DefinitionDefault(c: Column)
    ensures var head := c.name + " " + c.dataType + (if c.nullable then " NULL" else " NOT NULL");
      && |head| <= |Definition(c)| && Definition(c)[..|head|] == head
      && (c.default == Null <==> Definition(c) == head)
      && (c.default != Null ==> Definition(c)[|head|..] == " DEFAULT " + PyStr(c.default))
  {
    var head := c.name + " " + c.dataType + (if c.nullable then " NULL" else " NOT NULL");
    if c.default != Null {
      assert Definition(c) == head + (" DEFAULT " + PyStr(c.default));
    }
  }

  datatype Table = Table(name: string, columns: seq<Column>)

  /** The list comprehension of `to_create_script`. */
  function Definitions(t: Table): (defs: seq<string>)
    ensures |defs| == |t.columns|
    ensures forall i :: 0 <= i < |defs| ==> defs[i] == Definition(t.columns[i])
  {
    seq(|t.columns|, i requires 0 <= i < |t.columns| => Definition(t.columns[i]))
  }

  /** `to_create_script()`. */
  function ToCreateScript(t: Table): string {
    Script(t.name, Definitions(t))
  }

  /** A raw row; `r.get(k)` of a missing key is `None`. */
  type Row = map<string, Cell>

  function Get(r: Row, k: string): Cell {
    if k in r then r[k] else Null
  }

  /** The keyword arguments `from_rows` passes to `Column(...)` and to
      `cls(...)`, before pydantic validates them. */
  datatype ColumnArgs = ColumnArgs(name: Cell, dataType: Cell, nullable: Cell, default: Cell)
  datatype TableArgs = TableArgs(name: Cell, columns: seq<ColumnArgs>)

  /** `from_rows(rows)`. */
  function FromRows(rows: seq<Row>): TableArgs {
    TableArgs(
      if |rows| > 0 then Get(rows[0], "table_name") else Str("unknown"),
      seq(|rows|, i requires 0 <= i < |rows| =>
        ColumnArgs(Get(rows[i], "column_name"), Get(rows[i], "data_type"), Get(rows[i], "is_nullable"), Get(rows[i], "column_default"))))
  }

  /** One column per row in order, each field read from its own key of
      that row. The name is 'unknown' for no rows; otherwise it is the first
      row's `table_name`, or `None` when the first row lacks one. */
  lemma FromRowsSpec(rows: seq<Row>)
    ensures var t := FromRows(rows);
      && |t.columns| == |rows|
      && (forall i :: 0 <= i < |rows| ==>
            && t.columns[i].name == Get(rows[i], "column_name")
            && t.columns[i].dataType == Get(rows[i], "data_type")
            && t.columns[i].nullable == Get(rows[i], "is_nullable")
            && t.columns[i].default == Get(rows[i], "column_default"))
      && (|rows| == 0 ==> t.name == Str("unknown"))
      && (|rows| > 0 && "table_name" in rows[0] ==> t.name == rows[0]["table_name"])
      && (|rows| > 0 && "table_name" !in rows[0] ==> t.name == Null)
  {
  }
}

/** `Column` and `Table` of rulesets/dotnet/templates/Models.cs. */
module CsModels {
  import opened Wrappers
  import opened CreateTable

  /** A string property; `None` is `null`, which interpolates as "". */
  function Interp(s: Option<string>): string {
    match s case None => "" case Some(v) => v
  }

  datatype Column = Column(name: Option<string>, dataType: Option<string>, nullable: bool, defaultValue: Option<string>)

  /** `ToDefinition()`. */
  function ToDefinition(c: Column): string {
    Interp(c.name) + " " + Interp(c.dataType) + (if c.nullable then " NULL" else " NOT NULL")
      + (if c.defaultValue.None? || c.defaultValue.value == "" then "" else " DEFAULT " + c.defaultValue.value)
  }

  /** The DEFAULT clause is omitted exactly when `DefaultValue` is null or
      empty (`string.IsNullOrEmpty`). */
  lemma DefinitionDefault(c: Column)
    ensures var head := Interp(c.name) + " " + Interp(c.dataType) + (if c.nullable then " NULL" else " NOT NULL");
      && (ToDefinition(c) == head <==> c.defaultValue.None? || c.defaultValue.value == "")
      && (c.defaultValue.Some? && c.defaultValue.value != "" ==> ToDefinition(c) == head + " DEFAULT " + c.defaultValue.value)
  {
    var head := Interp(c.name) + " " + Interp(c.dataType) + (if c.nullable then " NULL" else " NOT NULL");
    if c.defaultValue.Some? && c.defaultValue.value != "" {
      assert |ToDefinition(c)| > |head|;
    }
  }

  /** `Columns` may be `null`. */
  datatype Table = Table(name: Option<string>, columns: Option<seq<Column>>)

  /** `ToCreateScript()`: `Columns.ConvertAll` on a null list throws a
      `NullReferenceException`, modelled as `None`. */
  function ToCreateScript(t: Table): (r: Option<string>)
    ensures r.None? <==> t.columns.None?
  {
    match t.columns
    case None => None
    case Some(cols) => Some(Script(Interp(t.name), Definitions(cols)))
  }

  /** `Columns.ConvertAll(c => c.ToDefinition())`. */
  function Definitions(cols: seq<Column>): (defs: seq<string>)
    ensures |defs| == |cols|
    ensures forall i :: 0 <= i < |defs| ==> defs[i] == ToDefinition(cols[i])
  {
    seq(|cols|, i requires 0 <= i < |cols| => ToDefinition(cols[i]))
  }
}

/** Where the three template families agree and where their DEFAULT rules
    part ways. */
module TableAgreement {
  import opened Wrappers
  import opened CreateTable
  import JsTable
  import PyModels
  import CsModels

  /** A column whose default is absent or a non-empty string is written the
      same way by all three templates. */
  lemma PlainColumnsAgree(name: string, dataType: string, nullable: bool, dflt: Option<string>)
    requires dflt.Some? ==> dflt.value != ""
    ensures var js := JsTable.ToDefinition(JsTable.Column(Some(Str(name)), Some(Str(dataType)), nullable,
                                                          if dflt.Some? then Str(dflt.value) else Null));
      && js == PyModels.Definition(PyModels.Column(name, dataType, nullable, if dflt.Some? then Str(dflt.value) else Null))
      && js == CsModels.ToDefinition(CsModels.Column(Some(name), Some(dataType), nullable, dflt))
  {
  }

  /** A falsy default separates the families: the JavaScript templates
      drop 0, "" and false; Python keeps all three; C# drops only "". */
  lemma FalsyDefaultsDiffer(name: string, dataType: string)
    ensures JsTable.ToDefinition(JsTable.Column(Some(Str(name)), Some(Str(dataType)), false, Num(0))) == name + " " + dataType + " NOT NULL"
    ensures PyModels.Definition(PyModels.Column(name, dataType, false, Num(0))) == name + " " + dataType + " NOT NULL DEFAULT 0"
    ensures JsTable.ToDefinition(JsTable.Column(Some(Str(name)), Some(Str(dataType)), false, Str(""))) == name + " " + dataType + " NOT NULL"
    ensures PyModels.Definition(PyModels.Column(name, dataType, false, Str(""))) == name + " " + dataType + " NOT NULL DEFAULT "
    ensures CsModels.ToDefinition(CsModels.Column(Some(name), Some(dataType), false, Some(""))) == name + " " + dataType + " NOT NULL"
    ensures JsTable.ToDefinition(JsTable.Column(Some(Str(name)), Some(Str(dataType)), false, Bool(false))) == name + " " + dataType + " NOT NULL"
    ensures PyModels.Definition(PyModels.Column(name, dataType, false, Bool(false))) == name + " " + dataType + " NOT NULL DEFAULT False"
  {
    ZeroDefault(name, dataType);
    EmptyDefault(name, dataType);
    FalseDefault(name, dataType);
  }

  lemma ZeroDefault(name: string, dataType: string)
    ensures JsTable.ToDefinition(JsTable.Column(Some(Str(name)), Some(Str(dataType)), false, Num(0))) == name + " " + dataType + " NOT NULL"
    ensures PyModels.Definition(PyModels.Column(name, dataType, false, Num(0))) == name + " " + dataType + " NOT NULL DEFAULT 0"
  {
    assert Strings.IntToString(0) == "0";
  }

  lemma EmptyDefault(name: string, dataType: string)
    ensures JsTable.ToDefinition(JsTable.Column(Some(Str(name)), Some(Str(dataType)), false, Str(""))) == name + " " + dataType + " NOT NULL"
    ensures PyModels.Definition(PyModels.Column(name, dataType, false, Str(""))) == name + " " + dataType + " NOT NULL DEFAULT "
    ensures CsModels.ToDefinition(CsModels.Column(Some(name), Some(dataType), false, Some(""))) == name + " " + dataType + " NOT NULL"
  {
  }

  lemma FalseDefault(name: string, dataType: string)
    ensures JsTable.ToDefinition(JsTable.Column(Some(Str(name)), Some(Str(dataType)), false, Bool(false))) == name + " " + dataType + " NOT NULL"
    ensures PyModels.Definition(PyModels.Column(name, dataType, false, Bool(false))) == name + " " + dataType + " NOT NULL DEFAULT False"
  {
  }

  /** A Python column as the JavaScript templates hold it. */
  function AsJs(c: PyModels.Column): JsTable.Column {
    JsTable.Column(Some(Str(c.name)), Some(Str(c.dataType)), c.nullable, c.default)
  }

  /** A Python column as the C# template holds it (a string default only). */
  function AsCs(c: PyModels.Column): CsModels.Column {
    CsModels.Column(Some(c.name), Some(c.dataType), c.nullable, if c.default.Str? then Some(c.default.s) else None)
  }

  function JsTableOf(name: string, cols: seq<PyModels.Column>): JsTable.Table {
    JsTable.Table(Some(Str(name)), seq(|cols|, i requires 0 <= i < |cols| => AsJs(cols[i])))
  }

  function CsTableOf(name: string, cols: seq<PyModels.Column>): CsModels.Table {
    CsModels.Table(Some(name), Some(seq(|cols|, i requires 0 <= i < |cols| => AsCs(cols[i]))))
  }

  /** Tables of such columns get the same script from all three. */
  lemma PlainScriptsAgree(name: string, cols: seq<PyModels.Column>)
    requires forall i :: 0 <= i < |cols| ==> cols[i].default.Null? || (cols[i].default.Str? && cols[i].default.s != "")
    ensures JsTable.ToCreateScript(JsTableOf(name, cols)) == PyModels.ToCreateScript(PyModels.Table(name, cols))
    ensures CsModels.ToCreateScript(CsTableOf(name, cols)) == Some(PyModels.ToCreateScript(PyModels.Table(name, cols)))
  {
    var js := JsTableOf(name, cols);
    var cs := CsTableOf(name, cols);
    var jsDefs := JsTable.Definitions(js);
    var pyDefs := PyModels.Definitions(PyModels.Table(name, cols));
    var csDefs := CsModels.Definitions(cs.columns.value);
    forall i | 0 <= i < |cols|
      ensures jsDefs[i] == pyDefs[i] && csDefs[i] == pyDefs[i]
    {
      var c := cols[i];
      PlainColumnsAgree(c.name, c.dataType, c.nullable, if c.default.Str? then Some(c.default.s) else None);
    }
    assert jsDefs == pyDefs;
    assert csDefs == pyDefs;
  }
}

=== FILE: wrappers.dfy ===
/** Failure-compatible helper datatypes shared by every module of the model. */
module Wrappers {

  /** An optional value; `None` also stands for JavaScript's `undefined`. */
  datatype Option<+T> = None | Some(value: T) {
    function GetOr(default: T): T {
      match this
      case Some(v) => v
      case None => default
    }
  }

  /** The outcome of an operation that can fail with an error value. */
  datatype Result<+T, +E> = Success(value: T) | Failure(error: E) {
    predicate IsFailure() {
      Failure?
    }

    function PropagateFailure<U>(): Result<U, E>
      requires Failure?
    {
      Failure(error)
    }

    function Extract(): T
      requires Success?
    {
      value
    }
  }
}
